=== FILE: README.md ===
# videoventure game logic in Dafny

A model of the per-entity game logic of videoventure, a 2D shooter built on typed component
stores (`Database::Typed<T>`), Box2D for physics and SDL for audio. Every component store
is a `map` read with a default (`Base.Get`), floats are `real`, and an XML element arrives
as an `Xml.Element` whose attributes already carry the parser's typed readings and their
32-bit `Hash`. Each module follows one source file:

- `Resource` (Source/Resource.cpp): a meter kept in [0, maximum] by `Set`, level-triggered
  empty, full and change listeners, the regeneration timer, and `FindResource` along the
  back-link chain.
- `Weapon` (trunk/Source/Weapon.cpp): the weapon template read from XML, the fire loop
  (timer, phase within a cycle, ammo gate, track cap), the controller and ammo-holder
  searches, and the `WeaponTracker` reference counts.
- `Aimer` (Source/Aimer.cpp) and `AimBehavior` (Source/Behavior/AimBehavior.cpp): target
  filtering and focus-biased selection, the throttled search, the fire predicate and target
  leading; the bounded turn, the angle wrap and the fire cones.
- `Damagable`, `Bullet`, `Explosion` and `Entity` (trunk/Source/Damagable.*, Bullet.cpp,
  Explosion.cpp): health and damage, life countdowns, expiry and death spawns, deletion and
  the bullet's damage listener.
- `Filter`, `Collidable`, `CollidableBody`, `CollidableWorld` and `CollidableTrunk`
  (tags/Session10/Core/Collidable.h and both generations of Collidable.cpp): the
  category/mask/group collision test, the filter, shape, body and joint readers, shape
  numbering, automatic body type, joint endpoint resolution, removal, and the segment test.
  The tinyxml2 generation is split three ways: shape readers in `Collidable`, the body
  section and the template in `CollidableBody`, the world side and the segment test in
  `CollidableWorld`.
- `World` (Source/World.cpp, Source/Core/World.cpp): the tilemap loader, the world-item
  dispatch and the world bounds.
- `Command` (Source/Command.cpp): the shadowing command registry and the parameter
  processors.
- `Sound` and `SoundUtilities` (Source/Sound.cpp, Source/Sound/SoundUtilities.cpp): the
  intrusive doubly-linked list of playing sounds, the mixer's channel selection and offset
  advance, `PlaySound`, the cue loader, the template copy, the pulse writer and the constant
  key-frame evaluator.
- `Geometry` (Source/Matrix2.h), `MathUtil` (Clamp and Lerp of the precompiled header) and
  `Links` (the back-link relation, walked with a fuel bound that stands for acyclicity).

Where the code has a defect (see Findings), the shape readers of both Collidable generations and
the mixer of `Sound` take a `Reading`. `AsWritten` follows the code as it stands and `Corrected`
follows the evidently intended behaviour. Every contract on these members states what holds
under each reading. The segment test is modelled twice: `TestSegment` as written and
`TestSegmentCorrected`.

Three behaviours of the code that are easy to misread:

- Resource listeners are level-triggered (Source/Resource.cpp:261-288): the empty listeners
  run on every `Set` whose requested value is at most 0, and the full listeners on every
  `Set` whose clamped value reaches the maximum, even when the value was already there.
- The Aimer's focus factor scales the range of every candidate other than the current
  target, not the current target's (Source/Aimer.cpp:193-206).
- The Aimer's range test compares the squared distance between the centres in the aimer's
  local frame with the squared range (Source/Aimer.cpp:186-191).

## Model

| member | source | states |
|---|---|---|
| AimBehavior.ConfigureCone | Source/Behavior/AimBehavior.cpp:24-34 | the XML channel is 1-based and stored one lower; range, direction and angle change only when present, direction and angle converted from degrees |
| AimBehavior.ConfigureAim | Source/Behavior/AimBehavior.cpp:43-48 | strength and leading change only when their attributes are present |
| AimBehavior.Wrap | Source/Behavior/AimBehavior.cpp:121-125 | the cone test corrects an angle by at most one turn of 2 pi, and leaves angles in [-pi, pi] alone |
| AimBehavior.WrapInRange | Source/Behavior/AimBehavior.cpp:121-125 | one correction brings the difference of two angles in [-pi, pi] back into [-pi, pi] |
| AimBehavior.WrapIsSingleCorrection | Source/Behavior/AimBehavior.cpp:121-125 | only one correction is made: 3 pi becomes pi, but 5 pi becomes 3 pi and stays out of range |
| AimBehavior.TurnIncrement | Source/Behavior/AimBehavior.cpp:92-99 | no turn when strength or maximum turn rate is zero; the increment never exceeds the strength in size; with positive strength and rate it turns towards the side the target is on |
| AimBehavior.ConeStep | Source/Behavior/AimBehavior.cpp:108-128 | one cone changes only its own channel, and only if that channel is clear and the cone sees the target; the channel then holds distance / range, which lies in (0, 1] when the range is positive |
| AimBehavior.FireCones | Source/Behavior/AimBehavior.cpp:102-129 | a firing channel is never overwritten; every changed channel holds the value of a cone on that channel that sees the target; every cone that sees the target leaves its channel firing; a clear channel ends with the value of the first cone on it that sees the target, or stays 0 when none does |
| AimBehavior.Execute | Source/Behavior/AimBehavior.cpp:57-132 | always reports running; with no target entity nothing changes; otherwise aim is the local target direction, the turn gains the increment, a firing channel keeps its value, every seeing cone's channel fires, and a clear channel holds the value of the first cone on it that sees the target |
| Aimer.Configure | Source/Aimer.cpp:75-84 | accepted exactly for an "aimer" element; range, attack and focus change only when present |
| Aimer.Leading | Source/Aimer.cpp:93-98 | the shot speed is the velocity y of the last linked secondary that has a weapon template, and 0 when none has one |
| Aimer.NewAimer | Source/Aimer.cpp:87-92 | a new aimer has no target and a zero search countdown |
| Aimer.Throttle | Source/Aimer.cpp:128-133 | a search runs exactly when the countdown minus the step reaches 0, and then the countdown gains a quarter second; with steps of at most a quarter second it stays above minus a quarter second |
| Aimer.LocalRangeIsDistance | Source/Aimer.cpp:154-187 | in a rotation frame the squared range in local coordinates is the squared distance between the centres |
| Aimer.Search | Source/Aimer.cpp:143-210 | the result is 0 exactly when none of the first 256 shapes passes the filters; otherwise it is a candidate that passes them, strictly nearer (after the focus bias) than every earlier one and no farther than every later one |
| Aimer.LeadTarget | Source/Aimer.cpp:105-110 | a target at rest is aimed at directly; otherwise the aim point is moved by the target velocity times distance / shot speed |
| Aimer.Normalize | Source/Aimer.cpp:236 | the aim keeps its direction (a positive multiple) and is strictly shorter than 1 |
| Aimer.Steer | Source/Aimer.cpp:213-241 | controls stay cleared with no target or no target entity; move equals aim; fire is set exactly when the aim is lined up (dot above 0.95) and the target is within the attack range |
| Aimer.SteerWithoutLeadingAimsAtTarget | Source/Aimer.cpp:222-237 | without leading the aim is a positive multiple of the offset to the target |
| Aimer.SearchStep | Source/Aimer.cpp:128-211 | the countdown follows the throttle; the target is kept when no search is due; a new nonzero target is one of the first 256 shapes that passes the filters |
| Bullet.Configure | trunk/Source/Bullet.cpp:69-84 | accepted exactly for a "bullet" element; life and damage change only when present; ricochet is an integer flag that defaults to the current one; each spawn is the hash of its attribute when that attribute exists |
| Bullet.ConfigureIdempotent | trunk/Source/Bullet.cpp:69-84 | configuring twice from one element equals configuring once |
| Bullet.NewBullet | trunk/Source/Bullet.cpp:93-96 | a new bullet starts with the template life |
| Bullet.Simulate | trunk/Source/Bullet.cpp:111-136 | life drops by the step; the bullet is deleted exactly when the step reaches its life; the expire spawn appears exactly then, when one is set and the entity exists, with the entity's angle, position and velocity |
| Bullet.DefaultLifeSurvives | trunk/Source/Bullet.cpp:60-63 | a bullet of the default template survives any step below FLT_MAX |
| Bullet.Collide | trunk/Source/Bullet.cpp:138-192 | damage from this bullet is applied exactly when the target is damagable and the bullet hurts or the target is wounded; a ricochet bullet that dealt nothing is untouched; otherwise the bullet dies and its death spawn appears at the point of impact |
| Bullet.HealingNeedsWound | trunk/Source/Bullet.cpp:143-149 | a healing bullet never touches a target at or above its template health |
| Bullet.SurvivesIffRicochet | trunk/Source/Bullet.cpp:142-156 | a bullet survives a hit exactly when it ricochets and dealt no damage |
| Bullet.Register | trunk/Source/Bullet.cpp:93-102 | the bullet's listener is bound in its entity's listener store, which is created if absent; no other store changes |
| Bullet.Unregister | trunk/Source/Bullet.cpp:104-109 | the bullet's listener leaves its entity's store; no other store changes |
| Bullet.RegisterUnregister | trunk/Source/Bullet.cpp:93-109 | constructing then destroying a bullet restores the listener stores (the entity's store remains, possibly empty) |
| Bullet.Activate | trunk/Source/Bullet.cpp:39-44 | activation stores a new bullet from the entity's template and registers its listener |
| Bullet.Deactivate | trunk/Source/Bullet.cpp:46-53 | only an existing bullet is destroyed and removed; otherwise nothing changes |
| Bullet.ActivateDeactivate | trunk/Source/Bullet.cpp:39-53 | activating then deactivating an entity without a bullet restores the stores |
| Collidable.ConfigureFixtureItem | branches/tinyxml2/Source/Core/Collidable.cpp:257-297 | exactly the eight fixture tags are fixture items; each scalar field changes only through its own tag and keeps its value when "value" is absent; other tags change nothing |
| Collidable.LastDensityWins | branches/tinyxml2/Source/Core/Collidable.cpp:299-307 | a fixture's density is the value of its last density child that has one |
| Collidable.ConfigureCircle | branches/tinyxml2/Source/Core/Collidable.cpp:309-313 | the radius changes only when the attribute is present |
| Collidable.ConfigureBoxAsWritten | branches/tinyxml2/Source/Core/Collidable.cpp:315-342 | as written: half extents from w and h (default 0); with no position child the box sits at the origin unrotated; with one, its placement comes from the box element's own attributes, never the child's |
| Collidable.ConfigureBox | branches/tinyxml2/Source/Core/Collidable.cpp:315-342 | corrected: the centre and rotation are those of the last position child (attributes taken only when present, angle in degrees) |
| Collidable.BoxPlacementFromChild | branches/tinyxml2/Source/Core/Collidable.cpp:327-338 | corrected: a box placed by a complete position child gets exactly that child's x, y and angle |
| Collidable.BoxIgnoresPositionChild | branches/tinyxml2/Source/Core/Collidable.cpp:331-336 | a box whose position child says (2, 3) sits at the origin as written and at (2, 3) as corrected |
| Collidable.ConfigurePolyItem | branches/tinyxml2/Source/Core/Collidable.cpp:344-358 | exactly a vertex child is a poly item, and it appends one vertex, with 0 standing for a missing coordinate that the source leaves indeterminate (see Left out) |
| Collidable.VertexChildren | branches/tinyxml2/Source/Core/Collidable.cpp:399-403 | the vertex children, no more of them than children, all tagged vertex |
| Collidable.PolyCountsVertices | branches/tinyxml2/Source/Core/Collidable.cpp:360-372 | a polygon gets one vertex per vertex child, in document order, with that child's coordinates, 0 standing for a missing one (see Left out) |
| Collidable.ConfigureChainAsWritten | branches/tinyxml2/Source/Core/Collidable.cpp:397-428 | as written: fewer than two vertex children make no chain; otherwise one point per vertex child with "loop" deciding the kind, and a missing coordinate left unset |
| Collidable.ChainCoordinateUnset | branches/tinyxml2/Source/Core/Collidable.cpp:410-417 | a vertex child without y leaves that point's y unset as written; the corrected chain has 0 there |
| Collidable.ConfigureChain | branches/tinyxml2/Source/Core/Collidable.cpp:397-428 | corrected: no chain exactly when there are fewer than two vertex children; otherwise every point is defined, a missing coordinate reading 0 |
| Collidable.ConfigureEdge | branches/tinyxml2/Source/Core/Collidable.cpp:374-395 | the result is an edge, unchanged by children other than vertex1 and vertex2 |
| Collidable.SubId | branches/tinyxml2/Source/Core/Collidable.cpp:494-498 | a named shape's sub-id is the hash of its name; an unnamed one's is the store count plus one |
| Collidable.UnnamedSubIdFresh | branches/tinyxml2/Source/Core/Collidable.cpp:494-498 | in a store numbered 1..n an unnamed shape's sub-id is not yet taken |
| Collidable.UnnamedKeepsNumbering | branches/tinyxml2/Source/Core/Collidable.cpp:494-502 | storing an unnamed shape keeps the store numbered 1..n+1 |
| Collidable.Slot | branches/tinyxml2/Source/Core/Collidable.cpp:499 | opening a sub-id reuses the stored definition, or starts from the default one |
| Collidable.ShapeOf | branches/tinyxml2/Source/Core/Collidable.cpp:309-428 | under both readings: a circle keeps the slot's radius unless "radius" is given; a box takes w and h (0 when missing); a polygon appends one vertex per vertex child after those the slot holds; an edge keeps its endpoints without vertex1 or vertex2 children; a chain needs two vertex children, else the slot keeps its shape. The readings differ only in the box placement with a position child (as written from the box element's own x, y and angle, corrected from the child) and in a chain's missing coordinates (unset as written, 0 corrected) |
| Collidable.NoPositionChildPlacesAtOrigin | branches/tinyxml2/Source/Core/Collidable.cpp:315-342 | without a position child a box sits at the origin, unrotated, under either reading |
| Collidable.AddShape | branches/tinyxml2/Source/Core/Collidable.cpp:491-574 | only the shape's sub-id is added or changed; a new slot gets the default fixture and an existing one keeps its own, either configured by the fixture items; the shape is exactly ShapeOf's for the element's kind from the slot's earlier definition, under the reading, so a named circle without "radius" keeps its radius and a poly extends the polygon already stored |
| Collidable.TypeNamed | branches/tinyxml2/Source/Core/Collidable.cpp:468-490 | a type is named only through "value"; "auto" and "dynamic" select exactly those types |
| Collidable.ConfigureBodyItem | branches/tinyxml2/Source/Core/Collidable.cpp:431-574 | the thirteen body tags are exactly the body items; a shape tag changes only its own store (boxes and polygons share one), at its sub-id, as AddShape does under the given reading, and leaves the body alone; a body tag leaves the shapes alone; an unknown type name keeps the type |
| CollidableBody.ConfigureBody | branches/tinyxml2/Source/Core/Collidable.cpp:576-584 | a sub-id once stored stays stored through later body items; with no shape children the stores are unchanged, and with only shape children the body definition is |
| CollidableBody.ConfigureBodyAppend | branches/tinyxml2/Source/Core/Collidable.cpp:576-584 | body children are read one after another: a split list is read as each part in turn |
| CollidableBody.BodyItems | branches/tinyxml2/Source/Core/Collidable.cpp:586-607 | the body items of a collidable are the children of its body elements, in document order |
| CollidableBody.UnnamedCirclesNumbered | branches/tinyxml2/Source/Core/Collidable.cpp:491-505 | a body of n unnamed circles stores them as circles 1..n |
| CollidableBody.Configure | branches/tinyxml2/Source/Core/Collidable.cpp:586-607 | the identifier is recorded; body and shapes are those the children of the body elements give, in document order, so earlier shapes stay stored; without body children nothing else changes |
| CollidableWorld.BodyForWorld | branches/tinyxml2/Source/Core/Collidable.cpp:857-889 | placement and motion come from the entity when it exists; an explicit type is kept; an automatic type becomes dynamic with a massive circle or polygon, else kinematic exactly when moving, else static |
| CollidableWorld.AddToWorld | branches/tinyxml2/Source/Core/Collidable.cpp:891-893 | the created body is recorded under the id; no other record changes |
| CollidableWorld.RemoveFromWorld | branches/tinyxml2/Source/Core/Collidable.cpp:907-916 | a body is destroyed exactly when there is one; the body and both contact records for the id go in every case, and nothing else |
| CollidableWorld.AddRemove | branches/tinyxml2/Source/Core/Collidable.cpp:857-916 | removing after adding restores the records of an entity that had none |
| CollidableWorld.EngineStep | branches/tinyxml2/Source/Core/Collidable.cpp:1064-1069 | the engine reports a fixture only while not stopped and within the clip; an answer of 0 stops the cast, a positive answer becomes the clip, a negative one keeps it |
| CollidableWorld.CastAsWritten | branches/tinyxml2/Source/Core/Collidable.cpp:1029-1046 | as written, the cast stops early only at a hittable fixture at the very start of the segment, the one answer of 0 the callback can give |
| CollidableWorld.CastCorrected | branches/tinyxml2/Source/Core/Collidable.cpp:1029-1046 | with skipped fixtures answering -1, the cast likewise stops early only at a hittable fixture at the start of the segment |
| CollidableWorld.SkippedFixtureLosesNearestHit | branches/tinyxml2/Source/Core/Collidable.cpp:1029-1042 | as written a skipped fixture between two hits lifts the clip back: hits at 0.3 and 0.6 around a skipped 0.1 report 0.6, while the corrected callback reports 0.3 |
| CollidableWorld.CastCorrectedFindsNearest | branches/tinyxml2/Source/Core/Collidable.cpp:1029-1057 | corrected: the reported hit is no farther than any hittable fixture and is one of them, or no hit at the end of the segment when there is none |
| CollidableWorld.TestSegment | branches/tinyxml2/Source/Core/Collidable.cpp:1029-1075 | as written: the result is (0, 1) or the entity and fraction of a hittable fixture, and (0, 1) when nothing is hittable; when no candidate is skipped the hit is the nearest one |
| CollidableWorld.TestSegmentCorrected | branches/tinyxml2/Source/Core/Collidable.cpp:1029-1075 | corrected: the segment test returns the nearest hittable fixture's entity and fraction, or (0, 1) when nothing is hittable |
| CollidableWorld.CastAsWrittenReportsCandidate | branches/tinyxml2/Source/Core/Collidable.cpp:1029-1069 | as written the cast still reports (0, 1) or one of the hittable fixtures, and (0, 1) when none is hittable |
| CollidableWorld.CastsAgreeWhenAllHittable | branches/tinyxml2/Source/Core/Collidable.cpp:1029-1046 | when no fixture is skipped the callback as written and the corrected one report the same hit |
| CollidableWorld.AsWrittenNearestWithoutSkips | branches/tinyxml2/Source/Core/Collidable.cpp:1029-1069 | as written, when every fixture on the segment is hittable, the reported fraction is no larger than any of theirs |
| CollidableTrunk.ProcessShapeItem | trunk/Source/Collidable.cpp:130-190 | exactly the seven fixture tags are handled and anything else leaves the shape alone; a category always sets a single layer (layer 0 when the value is missing); a mask overrides each of its 16 bits only where "bit<i>" is present; a group is narrowed to 16 bits and kept when absent; a sensor is an integer compared with zero |
| CollidableTrunk.ConfigureShape | trunk/Source/Collidable.cpp:192-200 | a shape element with no fixture children keeps the fixture fields it had; density, friction and the sensor flag each change only through a child of their own tag |
| CollidableTrunk.ConfigureCircle | trunk/Source/Collidable.cpp:202-207 | a circle has radius 1 unless "radius" is given, and its fixture fields come from its children |
| CollidableTrunk.ConfigureBox | trunk/Source/Collidable.cpp:209-238 | a box takes width and height from its element (0 when missing) and its fixture fields from its children; with no position child it sits at the origin; with one, as written it is placed by the box element's own x, y and angle, corrected by the child (see Findings) |
| CollidableTrunk.BoxIgnoresPositionChild | trunk/Source/Collidable.cpp:225-230 | a box whose position child says (2, 3) sits at the origin as written and at (2, 3) as corrected |
| CollidableTrunk.ProcessPolyItem | trunk/Source/Collidable.cpp:240-254 | a <vertex> child appends exactly one vertex, with 0 standing for a missing coordinate that the source leaves indeterminate (see Left out), and keeps the fixture fields; any other child goes to the shape items and keeps the vertices |
| CollidableTrunk.ConfigurePoly | trunk/Source/Collidable.cpp:256-264 | a polygon gets one vertex per <vertex> child, after the vertices it already had, which stay as they were |
| CollidableTrunk.PointOr | trunk/Source/Collidable.cpp:398-405 | an anchor, axis or target point changes each coordinate only when its attribute is present |
| CollidableTrunk.ProcessJointItem | trunk/Source/Collidable.cpp:362-392 | only body1, body2 and collideconnected are handled; a body name is the hash of "name" (0, the entity itself, when missing); collideconnected is an integer compared with zero |
| CollidableTrunk.ProcessRevoluteItem | trunk/Source/Collidable.cpp:394-432 | angles and motor speed are read in degrees and kept when absent; <limit> and <motor> enable the limit and motor even with no values; other tags fall through to the shared joint items and leave the revolute fields alone |
| CollidableTrunk.ProcessPrismaticItem | trunk/Source/Collidable.cpp:444-484 | as the revolute joint, with an axis, and translation limits, force and speed as plain numbers |
| CollidableTrunk.ProcessDistanceItem | trunk/Source/Collidable.cpp:496-514 | the two anchors are the only distance-specific items; other tags fall through to the shared joint items |
| CollidableTrunk.ProcessPulleyItem | trunk/Source/Collidable.cpp:526-566 | ground points, anchors, maximum lengths and ratio each change only their own field; other tags fall through |
| CollidableTrunk.ProcessMouseItem | trunk/Source/Collidable.cpp:578-601 | target, maximum force and the three tuning values each change only their own field; other tags fall through |
| CollidableTrunk.ProcessJointKindItem | trunk/Source/Collidable.cpp:434-442 | a joint's kind never changes while its children are read |
| CollidableTrunk.ConfigureJoint | trunk/Source/Collidable.cpp:362-442 | reading a joint's children never changes its kind; without a <body1> or <body2> child both body names are kept, so by default the joint joins the entity to itself |
| CollidableTrunk.JointItemKeepsNames | trunk/Source/Collidable.cpp:394-432 | a joint child other than body1 and body2 never changes the body names |
| CollidableTrunk.JointOfTag | trunk/Source/Collidable.cpp:633-690 | exactly the five joint tags create a joint (a gear joint creates none), and each new joint names no bodies |
| CollidableTrunk.NextShapeFresh | trunk/Source/Collidable.cpp:316-349 | the next shape sub-id, one past the count, is never in use, so storing under it adds a shape |
| CollidableTrunk.ProcessBodyItem | trunk/Source/Collidable.cpp:267-350 | exactly the nine body tags are handled; each shape tag adds one shape under the next sub-id of its store (boxes and polygons share one), a box as ConfigureBox reads it under the given reading; other tags leave the shapes alone; sleep flags are integers compared with zero |
| CollidableTrunk.ConfigureBodyKeepsNumbering | trunk/Source/Collidable.cpp:352-360 | reading a body never overwrites a shape: sub-ids stay 1..n, earlier ones survive, and each child adds at most one shape |
| CollidableTrunk.BodyItemKeepsNumbering | trunk/Source/Collidable.cpp:316-349 | one body child adds at most one shape and keeps both stores numbered |
| CollidableTrunk.JointElements | trunk/Source/Collidable.cpp:625-690 | the number of joint elements never exceeds the number of children |
| CollidableTrunk.OneJointPerElement | trunk/Source/Collidable.cpp:625-690 | configuring a collidable appends exactly one joint per joint element, after the joints already there; bodies add none |
| CollidableTrunk.ConfigureBody | trunk/Source/Collidable.cpp:352-360 | reading a body changes neither the joints nor the identifier, and without circle, box or poly children neither shape store |
| CollidableTrunk.Configure | trunk/Source/Collidable.cpp:614-693 | only a <collidable> element is accepted, and the result records the given identifier |
| CollidableTrunk.ConfigureItems | trunk/Source/Collidable.cpp:614-693 | no child of <collidable> changes the recorded identifier, and without joint elements the joints are unchanged |
| CollidableTrunk.SetupLinkJoint | trunk/Source/Collidable.cpp:695-718 | a link appends one revolute joint from the entity to its secondary, anchored at the link offset and at the secondary's origin, at the offset's angle; the limit is enabled, with zero width, exactly when the link holds its angle |
| CollidableTrunk.ResolveEnd | trunk/Source/Collidable.cpp:720-738 | the name "backlink" means the spawner, 0 or a missing spawner means the entity itself, and any other name is the entity of that identifier |
| CollidableTrunk.SetupJointDef | trunk/Source/Collidable.cpp:720-738 | a joint is set up exactly when both resolved ends are collidables with bodies, and then connects those two |
| CollidableTrunk.LinkJointConnects | trunk/Source/Collidable.cpp:695-738 | a link joint between two live bodies always connects the entity and its secondary, whichever entity id it is resolved against |
| CollidableTrunk.JointsCreated | trunk/Source/Collidable.cpp:1002-1009 | adding to the world creates at most one joint per template joint, each between two live bodies, and all of them when every joint resolves |
| CollidableTrunk.BodyForWorld | trunk/Source/Collidable.cpp:960-974 | the body is created at the entity's position and angle when there is an entity, else at the template's |
| CollidableTrunk.Activate | trunk/Source/Collidable.cpp:70-77 | activation creates the collidable with its body and touches no other collidable or contact signal |
| CollidableTrunk.Deactivate | trunk/Source/Collidable.cpp:79-88 | deactivation deletes the collidable and its contact-add signal when it exists, and otherwise does nothing |
| CollidableTrunk.ActivateDeactivate | trunk/Source/Collidable.cpp:70-88 | deactivating right after activating removes exactly that collidable and its signal, restoring a store that had neither |
| Command.Register | Source/Command.cpp:38-47 | the new handler answers for its tag, the registration remembers the handler it displaced (null when none), and every other tag is untouched |
| Command.Unregister | Source/Command.cpp:49-57 | ending a registration puts the remembered handler back, or removes the tag when it displaced nothing |
| Command.RegisterUnregister | Source/Command.cpp:38-57 | registering and then unregistering restores every lookup, and the registry itself unless the tag held a null entry |
| Command.NestedRegistrations | Source/Command.cpp:38-57 | two registrations of one tag ended in reverse order restore first the outer handler and then the original lookups |
| Command.ProcessOne | Source/Command.cpp:69-179 | with at least one parameter the setting becomes the parsed first parameter, the post-action runs when there is one, and one parameter is consumed; with none the setting is kept, no action runs and nothing is consumed |
| Command.ProcessCommandString | Source/Command.cpp:69-89 | a string setting takes the first parameter verbatim and consumes it; without parameters it is unchanged and 0 is returned |
| Command.ProcessCommandBool | Source/Command.cpp:91-111 | a boolean setting becomes the first parameter's integer value compared with zero |
| Command.ProcessCommandInt | Source/Command.cpp:113-133 | an integer setting becomes the first parameter's integer value |
| Command.ProcessCommandFloat | Source/Command.cpp:159-179 | a real setting becomes the first parameter's number |
| Command.ProcessCommandInt2 | Source/Command.cpp:135-157 | both settings change, the action runs and two parameters are consumed exactly when there are at least two; otherwise both are kept and 0 is returned |
| Command.ClampMotionBlur | Source/Command.cpp:214-218 | the motion-blur step count is at least one afterwards, and a count that already was is kept |
| Command.CommandMotionBlur | Source/Command.cpp:366-370 | a given step count is stored clamped to at least one and consumes one parameter; without a parameter the count is kept |
| Command.CommandLevel | Source/Command.cpp:196-205 | a level parameter replaces the level file and requests a reload exactly when the game is running and in play; nothing else is requested |
| Command.CommandSound | Source/Command.cpp:578-595 | min(count, 2) parameters are consumed; two name the entity and the cue, one names the entity and plays the default cue, none plays nothing |
| Command.CommandWithFile | Source/Command.cpp:296-334 | import, split and merge act on the first parameter and consume it exactly when there is one |
| Command.ProcessCommand | Source/Command.cpp:599-639 | a registered command runs its handler and returns its count; an unregistered one returns 0 |
| Command.UnregisteredCommandIdle | Source/Command.cpp:38-57 | a command whose registration has ended, and which displaced nothing, runs nothing again |
| Damagable.Configure | trunk/Source/Damagable.cpp:21-30 | only a "damagable" element is accepted; health changes only when given, and the death spawn is the hash of "spawnondeath" only when that attribute is present |
| Damagable.ConfigureIdempotent | trunk/Source/Damagable.cpp:21-30 | configuring twice from one element gives what configuring once gives |
| Damagable.NewDamagable | trunk/Source/Damagable.cpp:38-41 | a new damagable belongs to its entity and starts at the template's health |
| Damagable.NewIsAliveIffHealthy | trunk/Source/Damagable.h:35-43 | a new damagable is alive exactly when its template's health is positive, and reports that health; a default-constructed one is dead with health 0 |
| Damagable.IsAlive | trunk/Source/Damagable.h:40-43 | only a damagable with health is alive, so a blank component never is |
| Damagable.GetHealth | trunk/Source/Damagable.h:35-38 | the reported health is positive exactly when the damagable is alive |
| Damagable.Damage | trunk/Source/Damagable.cpp:47-67 | the amount is taken off exactly once; every listener is told once, in order, whether or not the entity dies; the entity is deleted exactly when health reaches 0 or below; a death spawn happens exactly on deletion with an existing entity and a named spawn, at the entity's angle and position with zero velocity |
| Damagable.DeletedIffDead | trunk/Source/Damagable.cpp:47-67 | a hit deletes the entity exactly when the damagable it leaves is no longer alive |
| Damagable.DamageAccumulates | trunk/Source/Damagable.cpp:49 | two hits leave the same health as one hit of their sum |
| Entity.Countdown | trunk/Source/Explosion.cpp:95-104 | a tick takes the step off the life, and the entity expires exactly when the step reaches the remaining life |
| Entity.RunClosedForm | trunk/Source/Explosion.cpp:95-104 | n ticks of one step leave life minus n steps |
| Entity.ExpiresWithin | trunk/Source/Explosion.cpp:95-104 | a finite life under a positive step runs out within floor(life / step) + 1 ticks |
| Explosion.Configure | trunk/Source/Explosion.cpp:68-76 | only an "explosion" element is accepted, and "life" replaces the life span only when present |
| Explosion.NewExplosion | trunk/Source/Explosion.cpp:85-89 | an explosion starts with its template's life span |
| Explosion.Simulate | trunk/Source/Explosion.cpp:95-104 | each step lowers the life by the step, and the explosion is deleted exactly when its life reaches 0 or below |
| Explosion.StepsDeleteOnExpiry | trunk/Source/Explosion.cpp:95-104 | a live explosion under a positive step is deleted on the first tick whose total time reaches its life, never earlier, and survives every shorter run |
| Explosion.Activate | trunk/Source/Explosion.cpp:37-42 | activation always stores a new explosion from the entity's template and touches no other record |
| Explosion.Deactivate | trunk/Source/Explosion.cpp:44-51 | deactivation removes the explosion when there is one and otherwise changes nothing |
| Explosion.ActivateDeactivate | trunk/Source/Explosion.cpp:37-51 | deactivating a freshly activated explosion restores the store |
| Links.Chain | Source/Resource.cpp:327-328 | a back-link walk visits the starting entity and then each spawner in turn, never 0, and stops at the entity with no spawner |
| Links.ChainFuelIrrelevant | Source/Resource.cpp:327-328 | the walk does not depend on how generous the bound on its length is |
| Links.ChainTail | trunk/Source/Weapon.cpp:110 | walking on from the spawner visits the same chain without its first entity |
| Filter.CheckFilterSymmetric | tags/Session10/Core/Collidable.h:127-134 | the collision filter gives the same answer with its two arguments swapped |
| Filter.CheckFilter | tags/Session10/Core/Collidable.h:127-134 | a shared positive group always collides and a shared negative group never; otherwise two filters collide exactly when each one's mask has a bit of the other's category |
| Filter.SharedGroupDecides | tags/Session10/Core/Collidable.h:129-130 | two filters sharing a nonzero group collide exactly when that group is positive, whatever their category and mask bits |
| Filter.DefaultFilterCollidesWithItself | tags/Session10/Core/Collidable.h:120-134 | the default filter (category bit 0, all mask bits, no group) collides with itself |
| Filter.EmptyBitsCollideWithNothing | tags/Session10/Core/Collidable.h:131-133 | without a group, a filter with no category bits or no mask bits collides with nothing, in either argument position |
| Filter.ToShort | branches/tinyxml2/Source/Core/Collidable.cpp:209 | the group is narrowed to a 16-bit signed value congruent to the integer read |
| Filter.ToShortKeepsShorts | branches/tinyxml2/Source/Core/Collidable.cpp:205-210 | a group already in the 16-bit range is stored unchanged |
| Filter.CategoryBits | branches/tinyxml2/Source/Core/Collidable.cpp:181 | a layer number c sets exactly bit c of the category word, so a negative layer or one past bit 15 sets no bit |
| Filter.ApplyBitsEffect | branches/tinyxml2/Source/Core/Collidable.cpp:190-202 | each present "bit<i>" sets or clears exactly bit i, an absent one keeps it, and bits past the overrides are untouched |
| Filter.ConfigureCategory | branches/tinyxml2/Source/Core/Collidable.cpp:177-182 | the category changes only when the attribute is present, to the word for that layer; mask and group never change |
| Filter.BitOverrides | branches/tinyxml2/Source/Core/Collidable.cpp:190-195 | one override per mask bit 0..15 |
| Filter.ConfigureMask | branches/tinyxml2/Source/Core/Collidable.cpp:184-203 | "default" first resets the whole mask to all ones or all zeros, then each present bit attribute sets or clears its own bit; category and group never change |
| Filter.ConfigureGroup | branches/tinyxml2/Source/Core/Collidable.cpp:205-210 | the group changes only when the attribute is present, to its 16-bit value; category and mask never change |
| Filter.ConfigureChildrenAppend | branches/tinyxml2/Source/Core/Collidable.cpp:221-237 | filter children are applied one after another in document order |
| Filter.OtherChildrenIgnored | branches/tinyxml2/Source/Core/Collidable.cpp:223-236 | children other than category, mask and group change nothing |
| Filter.LastCategoryChildWins | branches/tinyxml2/Source/Core/Collidable.cpp:212-238 | later input wins: a category child with a value that no later category child follows decides the category, whatever the base filter and attributes said |
| Filter.ConfigureChildren | branches/tinyxml2/Source/Core/Collidable.cpp:221-237 | category, mask and group each keep their value unless a child of their own tag is present |
| Filter.StartFilter | branches/tinyxml2/Source/Core/Collidable.cpp:212-215 | a description starts from the named filter, from the default filter when the name is unknown, and from the current filter when no name is given |
| Filter.ConfigureFilterData | branches/tinyxml2/Source/Core/Collidable.cpp:212-238 | without category children the category is the element's layer attribute, else the base filter's; the group likewise in 16 bits; without mask children each mask bit is its own bit attribute, else "default", else the base filter's bit |
| Filter.PlainElementKeepsFilter | branches/tinyxml2/Source/Core/Collidable.cpp:212-238 | an element with no base filter, no filter attributes and no children leaves the filter as it was |
| Filter.LoadFilter | branches/tinyxml2/Source/Core/Collidable.cpp:123-130 | loading a filter touches only its own entry, which starts from the default filter when it did not exist yet and is then configured by the element |
| MathUtil.Clamp | Session5-DreadnoughtCrisis/stdafx.h:113-120 | below the minimum gives the minimum, else above the maximum gives the maximum, else the value; with min <= max the result lies in [min, max] |
| MathUtil.ClampIdempotent | Session5-DreadnoughtCrisis/stdafx.h:113-120 | with min <= max, clamping twice is clamping once |
| MathUtil.ClampNotIdempotentWhenInverted | Session5-DreadnoughtCrisis/stdafx.h:113-120 | with min above max a second clamp can change the result (0 in [1, -1] gives 1, then -1) |
| MathUtil.Lerp | Session5-DreadnoughtCrisis/stdafx.h:106-110 | interpolating at 0 gives the first value and at 1 the second, and the result moves from the first value by the fraction of the difference |
| MathUtil.LerpBetween | Session5-DreadnoughtCrisis/stdafx.h:106-110 | for a fraction in [0, 1] the result lies between the endpoints |
| Geometry.FromAngle | Source/Matrix2.h:21-24 | the angle constructor's axes are perpendicular and of equal length, at the given position |
| Geometry.Rotate | Source/Matrix2.h:52-55 | rotating sends the unit vectors to the frame's two axes and the zero vector to itself |
| Geometry.Transform | Source/Matrix2.h:47-50 | transforming sends the origin to the frame's position and the unit vectors to the position plus each axis |
| Geometry.Mul | Source/Matrix2.h:62-69 | the product's axes are a's axes rotated by b, and its position is a's position transformed by b |
| Geometry.Inverse | Source/Matrix2.h:35-45 | the position is the frame's own position rotated and negated; for a rotation frame the axes stay as they were and the frame's position maps to the origin |
| Geometry.TransformIsRotatePlusOffset | Source/Matrix2.h:47-55 | transforming a vector is rotating it and adding the position |
| Geometry.RotateLinear | Source/Matrix2.h:52-55 | rotation distributes over vector addition |
| Geometry.RotateScale | Source/Matrix2.h:52-55 | rotation commutes with scaling |
| Geometry.ScaleLengthSq | Source/Matrix2.h:47-55 | scaling a vector by k scales its squared length by k squared |
| Geometry.MulComposes | Source/Matrix2.h:62-69 | the product of a and b transforms every vector as a followed by b |
| Geometry.MulAssign | Source/Matrix2.h:71-75 | m *= n leaves a frame that transforms as m followed by n |
| Geometry.RotationFrameDet | Source/Matrix2.h:21-24 | a frame built from an angle has determinant 1 |
| Geometry.InverseKeepsRotation | Source/Matrix2.h:35-45 | for a rotation frame the Inverse keeps the same axes, so it is not a true inverse |
| Geometry.InverseMapsPositionToOrigin | Source/Matrix2.h:35-45 | for a rotation frame the Inverse sends the frame's own position to the origin |
| Geometry.RotationPreservesLength | Source/Matrix2.h:52-55 | rotating by a rotation frame keeps squared lengths |
| Geometry.InversePreservesDistance | Source/Matrix2.h:35-50 | for a rotation frame, the Inverse's transform of a point is as far from the origin as the point is from the frame's position, the range fact target selection relies on |
| Resource.Configure | Source/Resource.cpp:184-218 | each attribute replaces its field only when present, and a "rate" attribute replaces the add with rate times the cycle |
| Resource.NewResource | Source/Resource.cpp:229-239 | a new meter starts at the initial value with a zero timer, and is scheduled for updates exactly when the template adds or drains |
| Resource.Set | Source/Resource.cpp:256-311 | the stored value is the request clamped to [0, maximum]; empty listeners run on every request at or below zero and full listeners whenever the stored value sits at the maximum, even when nothing moved; change listeners run exactly when the value moved; a move against the regeneration direction restarts the delay and reschedules updating, and otherwise the timer is kept |
| Resource.Add | Source/Resource.cpp:313-317 | adding is setting the current value plus the amount; adding nothing to a meter strictly inside its bounds changes nothing and notifies nobody |
| Resource.FullIsLevelTriggered | Source/Resource.cpp:275-288 | a meter already full that is set at or above its maximum notifies its full listeners again without changing |
| Resource.EmptyIsLevelTriggered | Source/Resource.cpp:261-273 | an empty meter set at or below zero notifies its empty listeners again without changing |
| Resource.SetIdempotent | Source/Resource.cpp:256-311 | repeating a set stores the same value and reports no change |
| Resource.Update | Source/Resource.cpp:245-254 | the timer runs down by the step; while it stays positive nothing else happens; once it reaches zero the template's add is applied once, clamped, and one cycle is added to the timer |
| Resource.UpdateRegenerates | Source/Resource.cpp:245-254 | a regenerating meter within its bounds never goes down on update and never passes its maximum |
| Resource.UpdateDrains | Source/Resource.cpp:245-254 | a draining meter within its bounds never goes up on update and never below zero |
| Resource.FindResource | Source/Resource.cpp:321-350 | an unnamed resource is found nowhere; otherwise the result is the first entity along the back-link chain, starting at the entity itself, that holds the resource; failing that the owner when it holds it, else 0 |
| Resource.Activate | Source/Resource.cpp:66-76 | activation adds one new meter per resource template of the entity to its store and touches no other entity or listener |
| Resource.Deactivate | Source/Resource.cpp:78-90 | deactivation drops the entity's meters and its change, empty and full listener records, and nothing of any other entity |
| Resource.ActivateDeactivate | Source/Resource.cpp:66-90 | activating then deactivating an entity that had no records restores every store |
| Sound.Play | Source/Sound.cpp:242-261 | playing a stopped sound links it in at the tail after the old tail (so an empty list gains it as head too) and sets its offset; playing a playing sound only sets its offset |
| Sound.Stop | Source/Sound.cpp:263-286 | stopping a playing sound clears its own links and playing flag; stopping a stopped sound changes nothing |
| Sound.PlayOther | Source/Sound.cpp:244-255 | linking a sound in changes no other sound except the old tail, which gains it as its next |
| Sound.StopOther | Source/Sound.cpp:266-282 | unlinking a sound changes no other sound except its two neighbours, which are linked to each other |
| Sound.PlayAppends | Source/Sound.cpp:242-261 | on a well-formed list, playing a stopped sound leaves a well-formed list with that sound appended at the end, and exactly the listed sounds playing |
| Sound.PlayRewinds | Source/Sound.cpp:242-261 | on a well-formed list, playing a playing sound keeps the list as it was |
| Sound.StopRemoves | Source/Sound.cpp:263-286 | on a well-formed list, stopping the sound at any position leaves a well-formed list of the others in their order |
| Sound.StopMembers | Source/Sound.cpp:263-286 | after a stop the remaining sounds are distinct and are exactly the playing ones, and every stopped sound is unlinked |
| Sound.StopEnds | Source/Sound.cpp:269-274 | after a stop, head, tail and the mixer's cursor agree with the remaining list (the cursor moves past the stopped sound) |
| Sound.Walk | Source/Sound.cpp:349-350 | the mixer's walk along next links visits only existing sounds |
| Sound.WalkVisitsOrder | Source/Sound.cpp:349-350 | walking a well-formed list from its head visits exactly the playing sounds in list order |
| Sound.Update | Source/Sound.cpp:290-302 | a one-shot sound at or past its end is stopped; any other sound follows its entity, or the listener when the entity is gone, and the list is untouched |
| Sound.UpdateKeepsList | Source/Sound.cpp:290-302 | an update keeps the list well formed, dropping exactly a finished one-shot sound |
| Sound.AdvanceOffset | Source/Sound.cpp:434-457 | after a mix a repeating sound's offset wraps modulo its length and a one-shot sound's offset moves on by the bytes mixed, clamped at its length |
| Sound.AdvanceTwice | Source/Sound.cpp:434-457 | two mixer passes move an offset exactly as one pass over the bytes of both |
| Sound.AdvanceAll | Source/Sound.cpp:434-457 | the offset pass over the list keeps every sound |
| Sound.AdvanceAllEffect | Source/Sound.cpp:434-457 | each listed sound advances once and nothing else about any sound changes |
| Sound.AdvanceKeepsList | Source/Sound.cpp:434-457 | advancing offsets keeps the list well formed and its links unchanged |
| Sound.Falloff | Source/Sound.cpp:355-356 | the distance fall-off never raises a sound's volume and leaves it whole at the listener's position |
| Sound.Weight | Source/Sound.cpp:358-366 | a repeating sound weighs its volume; a one-shot sound weighs its volume at the start and nothing at its end, in between within [0, volume] (corrected, see Findings) |
| Sound.WeightAsWritten | Source/Sound.cpp:358-366 | as written a repeating sound, or a one-shot one before its end, weighs its whole volume; a one-shot sound at its end weighs nothing (see Findings) |
| Sound.WeightDiminishes | Source/Sound.cpp:363-365 | the corrected weight of a one-shot sound strictly falls as it plays on |
| Sound.WeightNeverDiminishes | Source/Sound.cpp:363-365 | as written, with the offset divided by the length in whole numbers, a one-shot sound keeps its full weight until its very end |
| Sound.VoiceOf | Source/Sound.cpp:352-366 | under either reading the mixed volume lies between 0 and the sound's own and is whole at the listener; a looping or just-started sound weighs its volume and a finished one-shot sound nothing; as written a one-shot sound keeps its whole volume until its end; corrected its weight lies in [0, volume] |
| Sound.ReadingsRankDifferently | Source/Sound.cpp:358-389 | a one-shot sound half way through and a quieter one just started: as written the first outweighs the second, corrected the second outweighs the first, so the two readings can choose different channels |
| Sound.Slot | Source/Sound.cpp:369-378 | the shift loop stops at a position within the channel list |
| Sound.SlotSplits | Source/Sound.cpp:369-378 | the new channel goes just after the last channel at least as heavy: everything from its slot on is lighter |
| Sound.Offer | Source/Sound.cpp:367-389 | a channel list with room grows by one and a full one stays at the 4-channel limit |
| Sound.InsertChannel | Source/Sound.cpp:367-389 | the insertion loop computes exactly the offered channel list |
| Sound.ShiftLighter | Source/Sound.cpp:369-378 | the shift loop moves every channel lighter than the new one up one place and stops just before the new one's slot |
| Sound.OfferAt | Source/Sound.cpp:367-389 | a new channel is inserted at its slot when that slot is below the limit, the list cut to the limit; past the limit the list is unchanged |
| Sound.OfferSorted | Source/Sound.cpp:367-389 | offering a channel keeps the list heaviest first |
| Sound.OfferContents | Source/Sound.cpp:367-389 | every channel after an offer is the new one or was there before |
| Sound.OfferRetains | Source/Sound.cpp:367-389 | an offer drops nothing from a list with room, and at most the lightest channel of a full one |
| Sound.OfferAdmits | Source/Sound.cpp:379-389 | a new channel is refused only by a full list whose lightest channel is at least as heavy |
| Sound.OfferRaisesFloor | Source/Sound.cpp:367-389 | the lightest weight of a full channel list never goes down |
| Sound.AudibleCount | Source/Sound.cpp:353-354 | the audible sounds are at most all the sounds |
| Sound.SelectChannels | Source/Sound.cpp:349-390 | the mixer never chooses more than 4 channels |
| Sound.SelectionKeepsHeaviest | Source/Sound.cpp:349-390 | the mixer keeps the heaviest audible sounds, heaviest first: each channel is an audible sound at its own volume and weight, there are as many channels as audible sounds up to 4, and any audible sound left out weighs no more than the lightest channel of a full list |
| Sound.MixChannels | Source/Sound.cpp:349-390 | the channel loop over all sounds computes exactly the selection |
| Sound.CopyTemplate | Source/Sound.cpp:189-196 | a copied template has the same length, volume and repeat flag and a fresh buffer holding the first length bytes of the original's |
| Sound.CopyDuplicates | Source/Sound.cpp:189-196 | copying a template whose buffer holds exactly its length gives an equal template, and copying a copy changes nothing more |
| Sound.NewSound | Source/Sound.cpp:221-233 | a new sound is stopped and unlinked at offset 0, with its template's length, volume and repeat flag |
| Sound.PlaySound | Source/Sound.cpp:479-501 | a cue without data does nothing; otherwise the sound filed under the entity and cue is restarted from 0, or a new one is made, filed and started; no other sound is made |
| Sound.PlaySoundKeepsList | Source/Sound.cpp:479-501 | playing a cue keeps the playing list well formed |
| Sound.RetriggerMakesNoSecondSound | Source/Sound.cpp:486-491 | playing the same cue again makes no second sound and files nothing new |
| Sound.ConfigureCues | Source/Sound.cpp:112-142 | configuring cues touches only the entity's own cue table, and an entity with its own sound gets the default cue 0 |
| Sound.CueItems | Source/Sound.cpp:124-139 | cue children only ever add or replace names |
| Sound.LastCueWins | Source/Sound.cpp:124-139 | the last cue child with a given name decides which sound that name plays |
| Sound.Activate | Source/Sound.cpp:159-162 | activating an entity with a default sound leaves that sound filed and playing |
| Sound.Delete | Source/Sound.cpp:235-238 | deleting a sound removes exactly it |
| Sound.FreeStopped | Source/Sound.cpp:235-238 | freeing a sound that is not in the playing list keeps the list well formed |
| Sound.DeleteKeepsList | Source/Sound.cpp:235-238 | deleting a sound first unlinks it when playing, so the list stays well formed without it |
| Sound.Deactivate | Source/Sound.cpp:164-175 | deactivation deletes every sound filed for the entity and its record, and no other sound |
| Sound.DeleteAll | Source/Sound.cpp:168-172 | deleting a run of sounds removes exactly those sounds |
| Sound.DeleteAllKeepsList | Source/Sound.cpp:164-175 | after deactivation the playing list is still well formed |
| Sound.Voices | Source/Sound.cpp:349-366 | one mixer voice per sound visited, under either weight reading |
| Sound.MixPass | Source/Sound.cpp:317-457 | under either weight reading, one mixing pass chooses at most 4 channels and keeps the list ends and every sound |
| Sound.MixPassPlaysList | Source/Sound.cpp:317-457 | under either weight reading, on a well-formed list, one mixing pass selects its channels from exactly the playing sounds in list order, advances exactly those sounds' offsets, leaves every other sound alone and keeps the list well formed |
| SoundUtilities.OutputPulse | Source/Sound/SoundUtilities.cpp:8-20 | the whole number of samples the carried time plus the ticks make is appended, all of the pulse's value, when positive, leaving a fraction in [0, 1); otherwise nothing is appended and the carried time is returned; appended plus returned always equals the time available |
| SoundUtilities.DurationOfTicks | Source/Sound/SoundUtilities.cpp:10 | a run of pulses is worth its total ticks times the samples per tick |
| SoundUtilities.PulsesKeepTime | Source/Sound/SoundUtilities.cpp:8-20 | over any run of pulses no time is lost: samples appended plus the final fraction equal the starting fraction plus all ticks' worth |
| SoundUtilities.PulsesKeepDuration | Source/Sound/SoundUtilities.cpp:8-20 | over any run of pulses, samples appended plus the final fraction equal the starting fraction plus the pulses' duration |
| SoundUtilities.PulsesAppend | Source/Sound/SoundUtilities.cpp:13-17 | pulses only ever append: samples already written are never changed |
| SoundUtilities.ApplyConstant | Source/Sound/SoundUtilities.cpp:23-27 | the key's values after its time stamp become the first width entries, the rest is kept, and the result is true |
| SoundUtilities.ApplyConstantIdempotent | Source/Sound/SoundUtilities.cpp:23-27 | applying a constant key twice is applying it once |
| Weapon.ConfigureChild | trunk/Source/Weapon.cpp:161-268 | an unknown child tag changes nothing; offset, scatter, inherit, velocity and variance each set only their own transform; recoil sets only the recoil, when given; flash and ordnance take the name's hash only when the attribute is present; a trigger channel is stored one lower when present; ammo sets type and cost, each only when given; shot reads delay, phase, cycle and track, each kept when absent; no tag touches any other field |
| Weapon.ConfigureChildrenAppend | trunk/Source/Weapon.cpp:161-269 | the children are applied one after another: configuring from a split list is configuring from each part in turn |
| Weapon.ConfigureTransform | trunk/Source/Weapon.cpp:166-173 | x and y change only when given; the angle changes only when given, and is then read in degrees |
| Weapon.ConfigureChildren | trunk/Source/Weapon.cpp:161-268 | children with unknown tags leave the template alone, and without <shot> children delay, phase, cycle and track are kept |
| Weapon.Configure | trunk/Source/Weapon.cpp:158-272 | a definition whose children all have unknown tags leaves the template as it was, and only <shot> children change the cadence |
| Weapon.LastShotWins | trunk/Source/Weapon.cpp:252-259 | when the last child is a shot element, its cycle and delay (when present) are the template's, whatever came before |
| Weapon.NewWeapon | trunk/Source/Weapon.cpp:287-296 | a new weapon starts with an idle timer, no tracked ordnance, and the template's channel and phase |
| Weapon.CadenceClosedForm | trunk/Source/Weapon.cpp:366-491 | from phase p the first shot comes after p rounds and then one every cycle rounds; the phase counts down p, then from cycle - 1 |
| Weapon.CadencePhaseInRange | trunk/Source/Weapon.cpp:366-491 | a phase that starts within [0, cycle - 1] stays there, and no more shots are fired than rounds run |
| Weapon.Draw | trunk/Source/Weapon.cpp:369-370 | a positive cost that the meter can pay leaves exactly the difference, still within the meter's bounds |
| Weapon.Round | trunk/Source/Weapon.cpp:366-494 | one round gives up delay / cycle of the timer; on phase 0 it draws the cost when ammo is used, counts a tracked shot and restarts the phase at cycle - 1, otherwise it only counts the phase down; nothing else changes |
| Weapon.RoundKeeps | trunk/Source/Weapon.cpp:350-495 | one paid-for round keeps the fire loop's invariant: timer, phase and shot count follow the cadence and the meter has paid the cost of every shot |
| Weapon.FireLoop | trunk/Source/Weapon.cpp:350-495 | after the loop the timer has paid one round time per round, shots and phase follow the cadence, the track count grew by the shots, and the loop ended on a spent timer, the track cap, or a meter short of the cost |
| Weapon.Update | trunk/Source/Weapon.cpp:333-505 | without a controller nothing changes; not firing clamps the grown timer to at most 0; firing runs the fire loop on the timer grown by the step; binding, channel and ammo holder never change |
| Weapon.FindAmmo | trunk/Source/Weapon.cpp:298-325 | without a cost there is no ammo holder; otherwise the last entity on the back-link chain that holds the ammo type, else the owner when it holds it, else none |
| Weapon.BindControl | trunk/Source/Weapon.cpp:108-117 | the weapon is bound to the nearest entity on its back-link chain that has a controller, or to itself when none has |
| Weapon.Activate | trunk/Source/Weapon.cpp:104-119 | the new weapon is stored under the entity with the template's phase and channel and an idle timer; its ammo holder is the one the ammo search defines (none without a cost, else the farthest holder on the back-link chain, else the owner) and its binding the nearest controller on the chain, else itself; every other weapon is untouched |
| Weapon.Deactivate | trunk/Source/Weapon.cpp:121-128 | the entity's weapon is removed and every other weapon is untouched |
| Weapon.Bump | trunk/Source/Weapon.cpp:34-38 | a tracker change adjusts only the named weapon's count, and only when that weapon exists |
| Weapon.NewTracker | trunk/Source/Weapon.cpp:34-39 | a new tracker names its weapon, and counts that agree with the live trackers still agree after adding it |
| Weapon.CopyTracker | trunk/Source/Weapon.cpp:41-46 | a copied tracker names the same weapon, and the counts still agree with the live trackers after adding the copy |
| Weapon.DestroyTracker | trunk/Source/Weapon.cpp:48-52 | destroying a live tracker keeps the counts in agreement with the trackers that remain |
| Weapon.AssignTrackerAsWritten | trunk/Source/Weapon.cpp:54-61 | as written, assignment leaves the target naming its old weapon and every count as it was (see Findings) |
| Weapon.AssignTrackerAsWrittenKeepsOldWeapon | trunk/Source/Weapon.cpp:54-61 | assigning a tracker of weapon 2 to a tracker of weapon 1 leaves it naming weapon 1 |
| Weapon.AssignTracker | trunk/Source/Weapon.cpp:54-61 | corrected assignment: the target names the source's weapon, and the counts agree with the live trackers after the swap (see Findings) |
| Weapon.PutTrackerCountsOne | trunk/Source/Weapon.cpp:476-481 | storing a new tracker for fired ordnance leaves exactly one more count on the weapon once the temporary is gone |
| World.ConfigureTile | Source/World.cpp:68-81 | a tile without a name or with an empty name changes nothing; otherwise the tile of the name's first character spawns the hash of "spawn", keeps its offset and angle where not given, and takes the angle in degrees converted to radians |
| World.StepsScale | Source/World.cpp:93-104 | moving the cursor n times by d moves it by n times d |
| World.Spawning | Source/World.cpp:93-99 | no more characters spawn than the row has |
| World.RowSpawnCount | Source/World.cpp:93-102 | a row makes one spawn request per character whose tile spawns, each for a nonzero template and at rest |
| World.RowSpawnsStep | Source/World.cpp:93-102 | one more character adds exactly that cell's request, when its tile spawns |
| World.SpawnRow | Source/World.cpp:93-102 | the row loop makes the column-ordered requests of the row, each at the cell position plus the tile offset, and leaves x advanced once per character |
| World.GridOf | Source/World.cpp:43-48 | the tilemap origin defaults to (0, 0) and the spacing to (1, 1), each overridden only by its own attribute |
| World.TilemapItem | Source/World.cpp:64-110 | other tags change nothing; a tile element reconfigures the tiles; a row returns x to the origin, a row without text stops there, and a row with text appends its requests and moves y down by dy |
| World.TilemapItems | Source/World.cpp:63-111 | only rows add spawn requests, and every request is for a spawning tile at rest; without rows the requests stay as they were |
| World.ConfigureTilemap | Source/World.cpp:40-111 | a tilemap requests spawns only for tiles that spawn something, each at rest, and a tilemap without rows requests none |
| World.RowsWithText | Source/World.cpp:83-91 | no more rows with text than children |
| World.RowsAdvanceY | Source/World.cpp:83-105 | after the children the height is the origin moved down by dy once per row with text |
| World.ItemY | Source/World.cpp:83-105 | a child moves the height by dy exactly when it is a row with text |
| World.SpawnsOnlyGrow | Source/World.cpp:64-111 | spawn requests are only appended: the earlier ones stay in order |
| World.Dispatch | Source/Core/World.cpp:107-125 | a configure call is made exactly when the tag is registered, with the hash of the name as the key (0 without a name) |
| World.ConfigureWorldItem | Source/Core/World.cpp:107-130 | a registered item appends its call; the name is recorded under the key whenever the element has one, registered or not |
| World.ConfigureWorldItems | Source/Core/World.cpp:132-138 | calls are only appended, the earlier ones kept in order; names are only added; without registered children no call is made |
| World.RegisteredChildren | Source/Core/World.cpp:132-138 | the registered children form an in-order selection of the children |
| World.OneCallPerRegisteredChild | Source/Core/World.cpp:132-138 | the children make one call per registered child in document order, each keyed by the child's name hash, after the earlier calls; every named child's key gets a name |
| World.WorldBounds | Source/Core/World.cpp:13-20 | the bounds default to plus or minus 2048 with walls, each overridden only by its own attribute |
| World.WorldConfigure | Source/Core/World.cpp:10-24 | the bounds default to plus or minus 2048 with walls, each overridden only by its own attribute; then one configure call per registered child in document order, keyed by its name hash, after the earlier calls; every named child's name is recorded |

## Left out

- The Box2D engine: world stepping, body, fixture and joint creation, mass computation, polygon hulls, contact dispatch and the ray-cast engine are a library outside this model. The shapes a query returns and the engine's clipping of a ray are parameters.
- Rendering, OpenGL and debug drawing, including the fog set-up of Source/Core/World.cpp and the flash and ordnance renderables' fractional turn.
- Audio input and output: WAV loading and conversion, the DC filter, level compression and atan output stage of the mixer, sample writing, and the SDL audio lock. The list operations are modelled as sequential code.
- Floating point: floats are reals, so rounding, `float(M_PI)`, FLT_EPSILON normalisation and the fast inverse square root are not modelled. Square roots, atan2, sine and cosine enter as inputs tied to their arguments where needed, for example `dist * dist == distSq`.
- Randomness: the weapon's scatter and variance (`RandValue`) and the keyframe interpolators (`ApplyInterpolator`, `ProcessInterpolatorItem`) are left out. They only perturb the spawn transform of ordnance, which is not modelled.
- Spawning itself (`Database::Instantiate`) and deletion are recorded as requests (`Entity.Spawn`, a deleted flag) rather than performed. The weapon's recoil impulse, sound cue, flash link and ordnance spawn are counted as shots.
- The expression virtual machine and its registration glue, which are other components.
- Hash: tags are compared as strings and attribute hashes are carried by the parsed attributes. Hash collisions are not modelled.
- The internals of the typed component store (Open, Put, Close, Delete) beyond map reads and updates, and the declaration-only deferred-remove queue of Simulatable and Updatable. An Updatable's active state is folded into the component records.
- Pool allocators, console printing and the window and input side effects of commands. The `USE_VARIABLE` fallback of `ProcessCommand` is not modelled either.
- The Shell, Play, Reload and Quit commands, which each only set the requested game state. The Record, FixedStep and other one-line setting wrappers are left out as well; they are instances of the parameter processors that are modelled.
- Import loading: the import configure functions read another file, which is I/O. `SplitLevel` and `MergeLevel` are left out too.
- The older Source/Bullet.cpp, the older Source/Weapon.h declaration, Cloud.cpp and the header-only files that have no logic.
- Bytes as characters: tile names and row text are byte strings in the source (Source/World.cpp:73,95 index the tile table with `name[0]-CHAR_MIN` and `*t`). The model reads them as Dafny characters, so a non-ASCII character is one cell here and one cell per byte of its encoding in the source.
- Absent attributes hash to 0: `Xml.HashAttr` gives 0 for a missing attribute, which is how the model reads `Hash` of a null string; the hash function itself is not part of this model. The tile and joint readers rely on this. A tile without "spawn" spawns nothing. A joint end without a name resolves to the entity itself. A world item without a name is configured under id 0.
- Fixed capacities: the polygon vertex capacity of Box2D is not modelled, so poly shapes and chains take any number of vertices.
- Shift width: a category bit beyond bit 15 is 0 here. In C++, a shift of 32 or more is undefined.
- Unsigned wrap-around: sound offsets are naturals, and the 32-bit wrap-around of the byte offset is not modelled.
- Empty templates: the `malloc(0)` of copying an empty sound template is not modelled.
- The trunk Collidable's box and poly branches do not close the shape they opened. The effect depends on the component store's internals, so nothing is claimed about it.
- Links.Chain: walks along the back-link relation carry a fuel that must cover the chain. This stands for the acyclicity the source takes for granted, so a cyclic back-link relation, on which the source would loop forever, is outside the model.
- Sound.Walk: the mixer's traversal is bounded by the number of sounds. On a well-formed list that bound is never reached.
- Sound.MixPass: requires every sound to have a positive length. The source divides by the length for one-shot sounds and takes it as a modulus for repeating ones; a sound without data is never created by `PlaySound`.
- Sound.Weight: requires a positive length, for the same reason.
- Sound.AdvanceOffset: requires a positive length for a repeating sound, because the source takes the offset modulo the length.
- Sound.CopyTemplate: requires the data buffer to hold at least `length` bytes, as the `memcpy` of the source reads that many.
- Geometry.Inverse: requires a nonzero determinant. A singular frame gives IEEE infinities in the source.
- Weapon.FireLoop: requires a nonzero cycle and a positive round time, the `mDelay / mCycle` that trunk/Source/Weapon.cpp:494 takes off the timer each round. Outside that range the float division decides. With cycle 0, a positive delay gives +inf, so the timer drops to -inf and the loop ends after one round; delay 0 gives NaN, and the loop ends because NaN > 0 is false; a negative delay gives -inf, so the timer becomes +inf and the loop never ends. With a nonzero cycle and a delay of 0 or less the timer never falls, so the loop runs forever while firing unless the track cap or the ammo meter stops it. None of these cases is modelled.
- Weapon.Update: requires the same nonzero cycle and positive round time, but only when the controller exists and the trigger is held, because only then does it run the fire loop.
- Weapon.PutTrackerCountsOne: assumes that `Database::weapontracker.Put` (trunk/Source/Weapon.cpp:480) copy-constructs the stored tracker from the temporary exactly once. The code of `Put` is not part of this model. If it default-constructs the slot and then assigns, the `operator=` defect under Findings applies and the count is not the one stated. The `tracked + shots` count of Weapon.FireLoop rests on the same assumption.
- Collidable.ConfigurePolyItem: a <vertex> child without "x" or "y" gives 0 for that coordinate. In the source (branches/tinyxml2/Source/Core/Collidable.cpp:350-351) `QueryFloatAttribute` then leaves `m_vertices[m_count]` as it was. The engine's polygon shape does not initialise its vertex array, because the `CollisionPolygonDef` constructor (Collidable.cpp:35-38) sets only the fixture's shape pointer. So the coordinate is indeterminate. This is the chain defect under Findings. For polygons the model reads 0, as the corrected chain reader does, instead of carrying an unset coordinate through the polygon facts.
- Collidable.PolyCountsVertices: states 0 for a missing coordinate, for the reason given under Collidable.ConfigurePolyItem.
- Collidable.ShapeOf: a fresh edge slot starts at (0, 0)-(0, 0), and a <vertex1> or <vertex2> child without "x" or "y" keeps that coordinate. In the source, the `CollisionEdgeDef` constructor (Collidable.cpp:57-60) leaves the engine edge's endpoints uninitialised. `QueryFloatAttribute` (Collidable.cpp:383-389) leaves them untouched, so an endpoint coordinate that no child sets is indeterminate there.
- CollidableTrunk.ProcessPolyItem: a <vertex> child without "x" or "y" gives 0 for that coordinate. The trunk source (trunk/Source/Collidable.cpp:246-247) queries into `b2PolygonDef.vertices[vertexCount]`, which the engine does not initialise, so the coordinate is indeterminate there.
- Collidable.ShapeOf: a poly element that reopens a sub-id holding a box starts from no vertices. In the source, boxes and polygons share one store, so the poly's vertices are appended after the box's four corners. Those corners come from the engine's `SetAsBox`, whose trigonometry is not modelled.
- AimBehavior.ConeStep: requires a positive distance to the target. At distance 0 the source normalises the direction with `InvSqrt(0)`, so the aim angle is NaN and no cone fires; that case is not modelled.
- AimBehavior.ConeStep: requires the cone's channel to be a valid index. A cone without a "channel" attribute keeps the default channel -1, and the source then reads and writes `mFire[-1]`, outside the array; that case is not modelled.
- AimBehavior.FireCones: requires a positive distance and valid channels, for the reasons given under AimBehavior.ConeStep.
- AimBehavior.Execute: requires a positive distance and valid channels when there is a target. At distance 0 the source's aim is NaN, and with a nonzero strength and turn rate so is the turn it adds; that case is not modelled.

## Findings

| source | as written | input that shows it | evidently intended | confidence | as-written member | corrected member |
|---|---|---|---|---|---|---|
| trunk/Source/Weapon.cpp:54-61 | `WeaponTracker::operator=` releases and re-acquires the weapon the target already names and never copies `mId` | assigning a tracker of weapon 2 to a tracker of weapon 1 leaves it naming weapon 1 with both counts unchanged | the target takes the source's weapon: one count fewer on the old weapon and one more on the new one | high, not executed | Weapon.AssignTrackerAsWrittenKeepsOldWeapon | Weapon.AssignTracker |
| branches/tinyxml2/Source/Core/Collidable.cpp:331-336 | a box's `<position>` child is read from the box element's own attributes, not the child's | `<box><position x="2" y="3"/></box>` gives a box centred at the origin rather than at (2, 3) | the centre and rotation come from the position child | high, not executed | Collidable.BoxIgnoresPositionChild, Collidable.ConfigureBoxAsWritten | Collidable.BoxPlacementFromChild, Collidable.ConfigureBox |
| trunk/Source/Collidable.cpp:225-230 | the trunk reader has the same defect: the `<position>` case reads x, y and angle from the box element, not from the child | `<box><position x="2" y="3"/></box>` gives a box centred at the origin rather than at (2, 3) | the centre and rotation come from the position child | high, not executed | CollidableTrunk.BoxIgnoresPositionChild | CollidableTrunk.ConfigureBox |
| branches/tinyxml2/Source/Core/Collidable.cpp:1029-1046 | the ray-cast callback returns 1 for a skipped fixture (sensor, filtered out, or the caster itself), which resets the ray's clip to its full length | fixture 5 at fraction 0.3, then the caster's own fixture 9 at 0.1, then fixture 7 at 0.6: the skip resets the clip, and 7 at 0.6 is reported instead of 5 at 0.3 | return -1 so that a skipped fixture leaves the clip alone and the nearest qualifying hit is kept | medium, not executed | CollidableWorld.SkippedFixtureLosesNearestHit, CollidableWorld.TestSegment | CollidableWorld.CastCorrectedFindsNearest, CollidableWorld.TestSegmentCorrected |
| branches/tinyxml2/Source/Core/Collidable.cpp:410-417 | chain vertices live in an uninitialised `_alloca` buffer, and a vertex child without x or y leaves that coordinate unset | `<edgechain><vertex x="1"/><vertex x="2" y="0"/></edgechain>` gives a first vertex whose y is whatever the stack held | a missing coordinate reads as 0 | medium, not executed | Collidable.ChainCoordinateUnset | Collidable.ConfigureChain |
| Source/Sound.cpp:363-365 | the weight of a one-shot sound multiplies its volume by 1 - offset / length with both operands integers (line 449 takes one modulo the other), so the quotient is 0 until the end | offset 1 and length 2 give weight 1.0 instead of 0.5 | a floating-point quotient, so that the weight falls linearly from the volume to 0 over the sound | high, not executed | Sound.WeightNeverDiminishes, Sound.ReadingsRankDifferently | Sound.WeightDiminishes |

=== FILE: aimbehavior.dfy ===
/** The aim behaviour of the bot behaviour tree: turn towards the target at a bounded rate
    and open the fire channels whose cones contain the target. Angles (atan2 of the local
    target direction) and the square root of the distance enter as inputs. */
module AimBehavior {
  import opened Base
  import Xml
  import Geometry
  import MathUtil

  datatype FireCone = FireCone(range: real, direction: real, angle: real, channel: int)

  /** The cone a default-constructed FireConeTemplate holds: zero range, straight ahead,
      0.3 radians wide, and no channel (-1). */
  const DefaultCone := FireCone(0.0, 0.0, 0.3, -1)

  /** FireConeTemplate::Configure: channel numbers are 1-based in XML; direction and angle are
      in degrees and converted only when present. */
  function ConfigureCone(c: FireCone, e: Xml.Element): (r: FireCone)
    ensures r.channel == (match Xml.QueryInt(e, "channel") case Some(n) => n - 1 case None => c.channel)
    ensures r.range == Xml.FloatOr(e, "range", c.range)
    ensures Xml.QueryFloat(e, "direction").Some? ==> r.direction == DegToRad(Xml.QueryFloat(e, "direction").value)
    ensures Xml.QueryFloat(e, "direction").None? ==> r.direction == c.direction
    ensures Xml.QueryFloat(e, "angle").Some? ==> r.angle == DegToRad(Xml.QueryFloat(e, "angle").value)
    ensures Xml.QueryFloat(e, "angle").None? ==> r.angle == c.angle
  {
    FireCone(Xml.FloatOr(e, "range", c.range), Xml.AngleOr(e, "direction", c.direction),
             Xml.AngleOr(e, "angle", c.angle),
             match Xml.QueryInt(e, "channel") case Some(n) => n - 1 case None => c.channel)
  }

  datatype AimTemplate = AimTemplate(strength: real, leading: real)

  const DefaultAim := AimTemplate(0.0, 0.0)

  /** AimBehaviorTemplate::Configure. */
  function ConfigureAim(t: AimTemplate, e: Xml.Element): (r: AimTemplate)
    ensures r.strength == Xml.FloatOr(e, "strength", t.strength)
    ensures r.leading == Xml.FloatOr(e, "leading", t.leading)
  {
    AimTemplate(Xml.FloatOr(e, "strength", t.strength), Xml.FloatOr(e, "leading", t.leading))
  }

  /** The single +-2 pi correction of the cone test. */
  function Wrap(x: real): (r: real)
    ensures r == x || r == x - 2.0 * PI || r == x + 2.0 * PI
    ensures -PI <= x <= PI ==> r == x
  {
    if x > PI then x - 2.0 * PI else if x < -PI then x + 2.0 * PI else x
  }

  /** One correction suffices for the difference of two angles in [-pi, pi]. */
  lemma WrapInRange(a: real, d: real)
    requires -PI <= a <= PI && -PI <= d <= PI
    ensures -PI <= Wrap(a - d) <= PI
  {
  }

  /** It does not suffice beyond that: 3 pi stays out of range after one correction. */
  lemma WrapIsSingleCorrection()
    ensures Wrap(3.0 * PI) == PI && Wrap(5.0 * PI) == 3.0 * PI
  {
  }

  /** The turn increment: strength times the clamped ratio of the aim angle to the largest
      turn one step allows. Zero strength or zero maximum turn rate leaves the turn alone. */
  function TurnIncrement(strength: real, aimAngle: real, maxOmega: real, simStep: real): (inc: real)
    requires simStep > 0.0
    ensures strength == 0.0 || maxOmega == 0.0 ==> inc == 0.0
    ensures -MathUtil.Abs(strength) <= inc <= MathUtil.Abs(strength)
    ensures strength > 0.0 && maxOmega > 0.0 ==> (inc > 0.0 <==> aimAngle > 0.0)
  {
    if strength != 0.0 && maxOmega != 0.0 then
      var s := MathUtil.Clamp(aimAngle / (maxOmega * simStep), -1.0, 1.0);
      MathUtil.ScaleWithinUnit(strength, s);
      assert strength > 0.0 && maxOmega > 0.0 ==> (strength * s > 0.0 <==> aimAngle > 0.0) by {
        if strength > 0.0 && maxOmega > 0.0 {
          MathUtil.MulPos(maxOmega, simStep);
          MathUtil.DivSign(aimAngle, maxOmega * simStep);
          MathUtil.ProductSign(strength, s);
        }
      }
      strength * s
    else 0.0
  }

  /** The controller fields the behaviour writes. fire holds one value per channel; a nonzero
      value means the channel is firing. */
  datatype Control = Control(aim: Geometry.Vec2, turn: real, fire: seq<real>)

  predicate ChannelsValid(cones: seq<FireCone>, c: Control) {
    forall i :: 0 <= i < |cones| ==> 0 <= cones[i].channel < |c.fire|
  }

  /** A cone that sees the target: in range, and within the cone angle after the wrap. */
  predicate Sees(cone: FireCone, aimAngle: real, distSq: real) {
    distSq <= cone.range * cone.range && MathUtil.Abs(Wrap(aimAngle - cone.direction)) <= cone.angle
  }

  /** The value a cone writes to its channel: the distance as a fraction of the cone range. */
  predicate Encodes(v: real, cone: FireCone, dist: real) {
    v * cone.range == dist && (cone.range > 0.0 ==> 0.0 < v <= 1.0)
  }

  /** What the first n cones may have done to channel ch: nothing, or written the value
      encoding the distance for one of them on that channel that sees the target. */
  ghost predicate Explained(cones: seq<FireCone>, n: nat, aimAngle: real, distSq: real, dist: real,
                            old_: real, v: real, ch: int)
    requires n <= |cones|
  {
    v == old_ ||
    exists j :: 0 <= j < n && cones[j].channel == ch && Sees(cones[j], aimAngle, distSq) && Encodes(v, cones[j], dist)
  }

  /** What the first n cones leave on a channel that was clear: still 0 when none of them on
      that channel sees the target, otherwise the value of the first one that does, since
      every later cone finds the channel firing and skips it. */
  ghost predicate First(cones: seq<FireCone>, n: nat, aimAngle: real, distSq: real, dist: real, v: real, ch: int)
    requires n <= |cones|
  {
    (v == 0.0 && forall k :: 0 <= k < n && cones[k].channel == ch ==> !Sees(cones[k], aimAngle, distSq)) ||
    exists j :: 0 <= j < n && cones[j].channel == ch && Sees(cones[j], aimAngle, distSq) && Encodes(v, cones[j], dist) &&
                forall k :: 0 <= k < j && cones[k].channel == ch ==> !Sees(cones[k], aimAngle, distSq)
  }

  /** One cone of the fire-cone loop: if its channel is still clear and it sees the target,
      the channel gets dist / range. */
  function ConeStep(fire: seq<real>, cone: FireCone, aimAngle: real, distSq: real, dist: real): (r: seq<real>)
    requires 0 <= cone.channel < |fire|
    requires dist > 0.0 && distSq > 0.0 && dist * dist == distSq
    ensures |r| == |fire|
    ensures forall ch :: 0 <= ch < |fire| && ch != cone.channel ==> r[ch] == fire[ch]
    ensures fire[cone.channel] != 0.0 || !Sees(cone, aimAngle, distSq) ==> r == fire
    ensures fire[cone.channel] == 0.0 && Sees(cone, aimAngle, distSq) ==>
              r[cone.channel] != 0.0 && Encodes(r[cone.channel], cone, dist)
  {
    var ch := cone.channel;
    if fire[ch] == 0.0 && distSq <= cone.range * cone.range then
      var local := Wrap(aimAngle - cone.direction);
      if MathUtil.Abs(local) <= cone.angle then
        MathUtil.DistanceFraction(dist, cone.range, distSq);
        fire[ch := dist / cone.range]
      else fire
    else fire
  }

  /** The fire-cone loop of AimBehavior::Execute over the entity's cones in order. `dist` is
      the square root of `distSq`. */
  method FireCones(cones: seq<FireCone>, fire: seq<real>, aimAngle: real, distSq: real, dist: real)
    returns (fire': seq<real>)
    requires forall i :: 0 <= i < |cones| ==> 0 <= cones[i].channel < |fire|
    requires dist > 0.0 && distSq > 0.0 && dist * dist == distSq
    ensures |fire'| == |fire|
    // a channel already firing is never overwritten
    ensures forall ch :: 0 <= ch < |fire| && fire[ch] != 0.0 ==> fire'[ch] == fire[ch]
    // a channel changes only to the distance fraction of a cone on it that sees the target
    ensures forall ch :: 0 <= ch < |fire| ==> Explained(cones, |cones|, aimAngle, distSq, dist, fire[ch], fire'[ch], ch)
    // every cone that sees the target leaves its channel firing
    ensures forall i :: 0 <= i < |cones| && Sees(cones[i], aimAngle, distSq) ==> fire'[cones[i].channel] != 0.0
    // a clear channel ends with the value of the first cone on it that sees the target
    ensures forall ch :: 0 <= ch < |fire| && fire[ch] == 0.0 ==> First(cones, |cones|, aimAngle, distSq, dist, fire'[ch], ch)
  {
    fire' := fire;
    var i := 0;
    while i < |cones|
      invariant 0 <= i <= |cones|
      invariant |fire'| == |fire|
      invariant forall ch :: 0 <= ch < |fire| && fire[ch] != 0.0 ==> fire'[ch] == fire[ch]
      invariant forall ch :: 0 <= ch < |fire| ==> Explained(cones, i, aimAngle, distSq, dist, fire[ch], fire'[ch], ch)
      invariant forall j :: 0 <= j < i && Sees(cones[j], aimAngle, distSq) ==> fire'[cones[j].channel] != 0.0
      invariant forall ch :: 0 <= ch < |fire| && fire[ch] == 0.0 ==> First(cones, i, aimAngle, distSq, dist, fire'[ch], ch)
    {
      var prev := fire';
      fire' := ConeStep(fire', cones[i], aimAngle, distSq, dist);
      forall ch | 0 <= ch < |fire|
        ensures Explained(cones, i + 1, aimAngle, distSq, dist, fire[ch], fire'[ch], ch)
      {
        if fire'[ch] != prev[ch] {
          assert ch == cones[i].channel;
        }
      }
      i := i + 1;
    }
  }

  datatype Status = Running | Completed | Failed

  /** AimBehavior::Execute. `target` says whether the target entity exists; `localAim` is the
      normalised target direction in the entity's frame, `aimAngle` its angle, `distSq` the
      squared distance to the (led) target and `dist` its square root. */
  method Execute(c: Control, t: AimTemplate, maxOmega: real, simStep: real, cones: seq<FireCone>,
                 target: bool, localAim: Geometry.Vec2, aimAngle: real, distSq: real, dist: real)
    returns (c': Control, status: Status)
    requires simStep > 0.0
    requires target ==> ChannelsValid(cones, c) && distSq > 0.0 && dist > 0.0 && dist * dist == distSq
    ensures status == Running
    ensures !target ==> c' == c
    ensures target ==> c'.aim == localAim && |c'.fire| == |c.fire|
    ensures target ==> c'.turn == c.turn + TurnIncrement(t.strength, aimAngle, maxOmega, simStep)
    ensures target ==> forall ch :: 0 <= ch < |c.fire| && c.fire[ch] != 0.0 ==> c'.fire[ch] == c.fire[ch]
    ensures target ==> forall i :: 0 <= i < |cones| && Sees(cones[i], aimAngle, distSq) ==> c'.fire[cones[i].channel] != 0.0
    ensures target ==> forall ch :: 0 <= ch < |c.fire| ==>
              Explained(cones, |cones|, aimAngle, distSq, dist, c.fire[ch], c'.fire[ch], ch)
    ensures target ==> forall ch :: 0 <= ch < |c.fire| && c.fire[ch] == 0.0 ==>
              First(cones, |cones|, aimAngle, distSq, dist, c'.fire[ch], ch)
  {
    status := Running;
    if !target {
      return c, status;
    }
    var fire := FireCones(cones, c.fire, aimAngle, distSq, dist);
    c' := Control(localAim, c.turn + TurnIncrement(t.strength, aimAngle, maxOmega, simStep), fire);
  }
}

=== FILE: aimer.dfy ===
/** The Aimer controller: a throttled search over nearby shapes for the nearest hostile
    target (with a focus bias towards the current one), then aim, move and fire controls
    towards it, leading a moving target when the linked weapon's shots have a speed. */
module Aimer {
  import opened Base
  import Xml
  import Geometry
  import Weapon
  import MathUtil

  datatype AimerTemplate = AimerTemplate(range: real, attack: real, focus: real)

  const DefaultTemplate := AimerTemplate(256.0, 256.0, 1.0)

  /** AimerTemplate::Configure: only an "aimer" element is accepted; each attribute overrides
      its field when present. */
  function Configure(t: AimerTemplate, e: Xml.Element): (r: Option<AimerTemplate>)
    ensures r.Some? <==> e.tag == "aimer"
    ensures r.Some? ==> r.value.range == Xml.FloatOr(e, "range", t.range)
    ensures r.Some? ==> r.value.attack == Xml.FloatOr(e, "attack", t.attack)
    ensures r.Some? ==> r.value.focus == Xml.FloatOr(e, "focus", t.focus)
  {
    if e.tag != "aimer" then None
    else Some(AimerTemplate(Xml.FloatOr(e, "range", t.range), Xml.FloatOr(e, "attack", t.attack),
                            Xml.FloatOr(e, "focus", t.focus)))
  }

  /** A live aimer: current target, search countdown, and the shot speed used for leading. */
  datatype Aimer = Aimer(target: nat, delay: real, leading: real)

  /** Aimer(template, id): the shot speed is the velocity y of the last linked secondary that
      has a weapon template (link templates in iteration order), else 0. */
  function Leading(secondaries: seq<nat>, weapons: map<nat, Weapon.WeaponTemplate>): (s: real)
    ensures (forall i :: 0 <= i < |secondaries| ==> secondaries[i] !in weapons) ==> s == 0.0
    ensures forall i :: (0 <= i < |secondaries| && secondaries[i] in weapons &&
                         (forall j :: i < j < |secondaries| ==> secondaries[j] !in weapons)) ==>
                        s == weapons[secondaries[i]].velocity.p.y
    decreases |secondaries|
  {
    if secondaries == [] then 0.0
    else
      var last := secondaries[|secondaries| - 1];
      if last in weapons then weapons[last].velocity.p.y
      else Leading(secondaries[..|secondaries| - 1], weapons)
  }

  function NewAimer(t: AimerTemplate, secondaries: seq<nat>, weapons: map<nat, Weapon.WeaponTemplate>): (a: Aimer)
    ensures a.target == 0 && a.delay == 0.0
  {
    Aimer(0, 0.0, Leading(secondaries, weapons))
  }

  /** The search period in seconds. */
  const SearchPeriod: real := 0.25

  /** At most this many shapes come back from the area query. */
  const MaxCandidates: nat := 256

  /** The search throttle: the countdown drops by the step; when it reaches 0 a search runs
      and the countdown gains one period. Result: (new countdown, whether to search). */
  function Throttle(delay: real, step: real): (r: (real, bool))
    ensures r.1 <==> delay - step <= 0.0
    ensures r.0 == (if r.1 then delay - step + SearchPeriod else delay - step)
    ensures delay > -SearchPeriod && 0.0 <= step <= SearchPeriod ==> r.0 > -SearchPeriod
  {
    var d := delay - step;
    if d <= 0.0 then (d + SearchPeriod, true) else (d, false)
  }

  /** A shape returned by the area query: the id of its body's entity and its world position. */
  datatype Candidate = Candidate(id: nat, pos: Geometry.Vec2)

  /** Squared distance in the aimer's local frame (the frame's Inverse applied to the shape position). */
  function LocalRangeSq(frame: Geometry.Matrix2, pos: Geometry.Vec2): real
    requires Geometry.Det(frame) != 0.0
  {
    Geometry.LengthSq(Geometry.Transform(Geometry.Inverse(frame), pos))
  }

  /** In a rotation frame the local squared range is the squared distance between centres. */
  lemma LocalRangeIsDistance(frame: Geometry.Matrix2, pos: Geometry.Vec2)
    requires Geometry.RotationFrame(frame)
    ensures Geometry.Det(frame) == 1.0
    ensures LocalRangeSq(frame, pos) == Geometry.DistSq(frame.p, pos)
  {
    Geometry.InversePreservesDistance(frame, pos);
  }

  /** Everything the search needs about the aimer's own entity and the world. */
  datatype SearchContext = SearchContext(self: nat, team: nat, teams: map<nat, nat>,
                                         frame: Geometry.Matrix2, current: nat, tmpl: AimerTemplate)

  /** The search filters: an entity, not the aimer itself, on a team, not the aimer's team,
      and within range. */
  predicate Eligible(ctx: SearchContext, c: Candidate)
    requires Geometry.Det(ctx.frame) != 0.0
  {
    && c.id != 0 && c.id != ctx.self
    && Get(ctx.teams, c.id, 0) != 0 && Get(ctx.teams, c.id, 0) != ctx.team
    && LocalRangeSq(ctx.frame, c.pos) <= ctx.tmpl.range * ctx.tmpl.range
  }

  /** The range used for comparison: anyone but the current target has it scaled by the focus. */
  function Biased(ctx: SearchContext, c: Candidate): real
    requires Geometry.Det(ctx.frame) != 0.0
  {
    if c.id != ctx.current then LocalRangeSq(ctx.frame, c.pos) * ctx.tmpl.focus
    else LocalRangeSq(ctx.frame, c.pos)
  }

  /** A candidate the search can pick: eligible and with a biased range below FLT_MAX,
      the starting best range. */
  predicate Pickable(ctx: SearchContext, c: Candidate)
    requires Geometry.Det(ctx.frame) != 0.0
  {
    Eligible(ctx, c) && Biased(ctx, c) < FLT_MAX
  }

  /** The target search of Aimer::Control over the first 256 query results: the first
      candidate with the least biased range among those that pass the filters, or 0. */
  method Search(ctx: SearchContext, cands: seq<Candidate>) returns (target: nat)
    requires Geometry.Det(ctx.frame) != 0.0
    ensures var n := if |cands| < MaxCandidates then |cands| else MaxCandidates;
      && (target == 0 <==> forall i :: 0 <= i < n ==> !Pickable(ctx, cands[i]))
      && (target != 0 ==>
            exists i :: (0 <= i < n && cands[i].id == target && Pickable(ctx, cands[i]) &&
              (forall j :: 0 <= j < i && Pickable(ctx, cands[j]) ==> Biased(ctx, cands[j]) > Biased(ctx, cands[i])) &&
              (forall j :: i < j < n && Pickable(ctx, cands[j]) ==> Biased(ctx, cands[j]) >= Biased(ctx, cands[i]))))
  {
    var n := if |cands| < MaxCandidates then |cands| else MaxCandidates;
    target := 0;
    var bestRange := FLT_MAX;
    ghost var at := -1;
    var i := 0;
    while i < n
      invariant 0 <= i <= n
      invariant -1 <= at < i
      invariant at == -1 <==> target == 0
      invariant at == -1 ==> bestRange == FLT_MAX && forall j :: 0 <= j < i ==> !Pickable(ctx, cands[j])
      invariant at >= 0 ==> cands[at].id == target && Pickable(ctx, cands[at]) && bestRange == Biased(ctx, cands[at])
      invariant at >= 0 ==> forall j :: 0 <= j < at && Pickable(ctx, cands[j]) ==> Biased(ctx, cands[j]) > bestRange
      invariant at >= 0 ==> forall j :: at < j < i && Pickable(ctx, cands[j]) ==> Biased(ctx, cands[j]) >= bestRange
    {
      var c := cands[i];
      if Eligible(ctx, c) {
        var range := Biased(ctx, c);
        if bestRange > range {
          bestRange := range;
          target := c.id;
          at := i;
        }
      }
      i := i + 1;
    }
  }

  /** LeadTarget: the offset to the target plus the target's velocity scaled by the time a shot
      at speed `speed` needs to cover the distance. `dist` is the length of the offset. */
  function LeadTarget(start: Geometry.Vec2, speed: real, targetPos: Geometry.Vec2, targetVel: Geometry.Vec2, dist: real): (r: Geometry.Vec2)
    requires speed != 0.0
    requires dist >= 0.0 && dist * dist == Geometry.DistSq(start, targetPos)
    ensures targetVel == Geometry.Zero ==> r == Geometry.Sub(targetPos, start)
    ensures Geometry.Sub(r, Geometry.Sub(targetPos, start)) == Geometry.Scale(targetVel, dist / speed)
  {
    var delta := Geometry.Sub(targetPos, start);
    Geometry.Add(delta, Geometry.Scale(targetVel, dist / speed))
  }

  /** v /= (|v| + FLT_EPSILON): a vector of the same direction, strictly shorter than 1. */
  function Normalize(v: Geometry.Vec2, len: real): (r: Geometry.Vec2)
    requires len >= 0.0 && len * len == Geometry.LengthSq(v)
    ensures Geometry.LengthSq(r) < 1.0
    ensures exists k: real :: k > 0.0 && r == Geometry.Scale(v, k)
    ensures Geometry.Dot(r, v) >= 0.0
  {
    var k := 1.0 / (len + FLT_EPSILON);
    var q := len * k;
    var r := Geometry.Scale(v, k);
    assert Geometry.LengthSq(r) == q * q by {
      Geometry.ScaleLengthSq(v, k);
      assert Geometry.LengthSq(v) * (k * k) == (len * len) * (k * k);
      assert (len * len) * (k * k) == q * q;
    }
    MathUtil.Shrink(len, FLT_EPSILON);
    MathUtil.SquareBelow(q);
    MathUtil.MulNonneg(k, Geometry.LengthSq(v));
    assert Geometry.Dot(r, v) == k * Geometry.LengthSq(v);
    r
  }

  /** What the aimer sets each tick. */
  datatype Controls = Controls(move: Geometry.Vec2, aim: Geometry.Vec2, fire: bool)

  const Cleared := Controls(Geometry.Zero, Geometry.Zero, false)

  /** The fire decision: lined up within the cosine 0.95 and closer than the attack range. */
  predicate FireOn(heading: Geometry.Vec2, aim: Geometry.Vec2, distSq: real, attack: real) {
    Geometry.Dot(heading, aim) > 0.95 && distSq < attack * attack
  }

  /** The aim before normalisation: the lead position when leading, else the plain offset. */
  function RawAim(leading: real, pos: Geometry.Vec2, targetPos: Geometry.Vec2, targetVel: Geometry.Vec2, dist: real): Geometry.Vec2
    requires dist >= 0.0 && dist * dist == Geometry.DistSq(pos, targetPos)
  {
    if leading > 0.0 then LeadTarget(pos, leading, targetPos, targetVel, dist)
    else Geometry.Sub(targetPos, pos)
  }

  /** A target entity as the steering part sees it. */
  datatype Body = Body(pos: Geometry.Vec2, vel: Geometry.Vec2)

  /** The steering part of Aimer::Control once the target is known: controls stay cleared with
      no target or no target entity; otherwise move and aim point along the normalised
      (lead) offset and fire follows FireOn. `dist` and `aimLen` are the lengths of the
      target offset and of the raw aim. */
  function Steer(a: Aimer, t: AimerTemplate, self: Geometry.Matrix2, target: Option<Body>, dist: real, aimLen: real): (c: Controls)
    requires target.Some? ==> dist >= 0.0 && dist * dist == Geometry.DistSq(self.p, target.value.pos)
    requires target.Some? ==>
               (aimLen >= 0.0 &&
                aimLen * aimLen == Geometry.LengthSq(RawAim(a.leading, self.p, target.value.pos, target.value.vel, dist)))
    ensures a.target == 0 || target.None? ==> c == Cleared
    ensures c.move == c.aim
    ensures c.fire ==>
              (a.target != 0 && target.Some? &&
               Geometry.DistSq(self.p, target.value.pos) < t.attack * t.attack && Geometry.Dot(self.y, c.aim) > 0.95)
    ensures a.target != 0 && target.Some? ==>
              Geometry.LengthSq(c.aim) < 1.0 &&
              (c.fire <==> FireOn(self.y, c.aim, Geometry.DistSq(self.p, target.value.pos), t.attack))
  {
    if a.target == 0 || target.None? then Cleared
    else
      var raw := RawAim(a.leading, self.p, target.value.pos, target.value.vel, dist);
      var aim := Normalize(raw, aimLen);
      Controls(aim, aim, FireOn(self.y, aim, Geometry.DistSq(self.p, target.value.pos), t.attack))
  }

  /** With no leading the aim points straight at the target. */
  lemma SteerWithoutLeadingAimsAtTarget(a: Aimer, t: AimerTemplate, self: Geometry.Matrix2, b: Body, dist: real, aimLen: real)
    requires a.target != 0 && a.leading <= 0.0
    requires dist >= 0.0 && dist * dist == Geometry.DistSq(self.p, b.pos)
    requires aimLen == dist
    ensures exists k: real :: k > 0.0 && Steer(a, t, self, Some(b), dist, aimLen).aim == Geometry.Scale(Geometry.Sub(b.pos, self.p), k)
  {
    var raw := Geometry.Sub(b.pos, self.p);
    assert Steer(a, t, self, Some(b), dist, aimLen).aim == Normalize(raw, aimLen);
  }

  /** The search half of Aimer::Control: the throttle, then (when due) a new target. */
  method SearchStep(a: Aimer, ctx: SearchContext, cands: seq<Candidate>, step: real) returns (a': Aimer)
    requires Geometry.Det(ctx.frame) != 0.0 && ctx.current == a.target
    ensures a'.leading == a.leading
    ensures a'.delay == Throttle(a.delay, step).0
    ensures !Throttle(a.delay, step).1 ==> a'.target == a.target
    ensures Throttle(a.delay, step).1 && a'.target != 0 ==>
              exists i :: 0 <= i < |cands| && i < MaxCandidates && cands[i].id == a'.target && Pickable(ctx, cands[i])
  {
    var (delay, due) := Throttle(a.delay, step);
    a' := a.(delay := delay);
    if due {
      var target := Search(ctx, cands);
      a' := a'.(target := target);
    }
  }
}

=== FILE: base.dfy ===
/** Shared vocabulary: optional values, the float constants the game code uses,
    and the "Get with a default" read of a typed component store. */
module Base {

  datatype Option<+T> = None | Some(value: T) {
    function GetOr(default: T): T {
      match this
      case Some(v) => v
      case None => default
    }
  }

  /** FLT_MAX, the largest finite single-precision value. */
  const FLT_MAX: real := 340282346638528859811704183484516925440.0

  /** FLT_EPSILON, the single-precision machine epsilon (2^-23). */
  const FLT_EPSILON: real := 0.00000011920928955078125

  /** pi to twenty decimal places; float(M_PI) rounding is not modelled. */
  const PI: real := 3.14159265358979323846

  /** Degrees to radians, as every configuration reader converts angles. */
  function DegToRad(deg: real): real {
    deg * PI / 180.0
  }

  /** A typed store read that never creates: the stored value or the store's default. */
  function Get<K, V>(store: map<K, V>, key: K, default: V): (v: V)
    ensures key in store ==> v == store[key]
    ensures key !in store ==> v == default
  {
    if key in store then store[key] else default
  }

  /** The default-singleton read of a nested store: an absent outer key reads as an empty inner store. */
  function Inner<K, J, V>(store: map<K, map<J, V>>, key: K): (m: map<J, V>)
    ensures key in store ==> m == store[key]
    ensures key !in store ==> m == map[]
  {
    if key in store then store[key] else map[]
  }
}

=== FILE: bullet.dfy ===
/** Bullets: a life countdown with an optional expiry spawn, and the collision response
    that damages (or heals) what was hit, ricochets, or dies with an optional death spawn. */
module Bullet {
  import opened Base
  import Xml
  import Geometry
  import Entity
  import Damagable

  datatype BulletTemplate = BulletTemplate(
    life: real, damage: real, ricochet: bool, spawnOnDeath: nat, spawnOnExpire: nat)

  /** A default-constructed template: lives practically forever, does nothing on contact. */
  const DefaultTemplate := BulletTemplate(FLT_MAX, 0.0, false, 0, 0)

  /** BulletTemplate::Configure: only a "bullet" element is accepted; life and damage are read
      in place, "ricochet" is an integer flag seeded with the current one, and each spawn is
      the hash of its attribute only when that attribute exists. */
  function Configure(t: BulletTemplate, e: Xml.Element): (r: Option<BulletTemplate>)
    ensures r.Some? <==> e.tag == "bullet"
    ensures r.Some? ==> r.value.life == Xml.QueryFloat(e, "life").GetOr(t.life)
    ensures r.Some? ==> r.value.damage == Xml.QueryFloat(e, "damage").GetOr(t.damage)
    ensures r.Some? && Xml.QueryInt(e, "ricochet").None? ==> r.value.ricochet == t.ricochet
    ensures r.Some? && Xml.QueryInt(e, "ricochet").Some? ==> (r.value.ricochet <==> Xml.QueryInt(e, "ricochet").value != 0)
    ensures r.Some? ==> r.value.spawnOnExpire == (if "spawnonexpire" in e.attrs then e.attrs["spawnonexpire"].key else t.spawnOnExpire)
    ensures r.Some? ==> r.value.spawnOnDeath == (if "spawnondeath" in e.attrs then e.attrs["spawnondeath"].key else t.spawnOnDeath)
  {
    if e.tag != "bullet" then None
    else
      var expire := if "spawnonexpire" in e.attrs then Xml.HashAttr(e, "spawnonexpire") else t.spawnOnExpire;
      var death := if "spawnondeath" in e.attrs then Xml.HashAttr(e, "spawnondeath") else t.spawnOnDeath;
      Some(BulletTemplate(Xml.FloatOr(e, "life", t.life), Xml.FloatOr(e, "damage", t.damage),
                          Xml.IntFlagOr(e, "ricochet", t.ricochet), death, expire))
  }

  /** Configuring twice with the same element gives what configuring once gives. */
  lemma ConfigureIdempotent(t: BulletTemplate, e: Xml.Element)
    requires e.tag == "bullet"
    ensures Configure(Configure(t, e).value, e) == Configure(t, e)
  {
  }

  datatype Bullet = Bullet(id: nat, life: real)

  function NewBullet(t: BulletTemplate, id: nat): (b: Bullet)
    ensures b.id == id && b.life == t.life
  {
    Bullet(id, t.life)
  }

  /** What one Simulate or Collide call did to the world. */
  datatype Outcome = Outcome(b: Bullet, spawn: Option<Entity.Spawn>, deleted: bool)

  /** Bullet::Simulate(step): the shared life countdown; on expiry the expire spawn appears
      with the entity's angle, position and velocity (when the entity still exists), and the
      bullet is deleted. */
  function Simulate(t: BulletTemplate, b: Bullet, entity: Option<Entity.Pose>, step: real): (o: Outcome)
    ensures o.b.id == b.id && o.b.life + step == b.life
    ensures o.deleted <==> step >= b.life
    ensures o.spawn.Some? <==> o.deleted && t.spawnOnExpire != 0 && entity.Some?
    ensures o.spawn.Some? ==> o.spawn.value == Entity.Spawn(t.spawnOnExpire, entity.value.angle, entity.value.pos, entity.value.vel)
  {
    var tick := Entity.Countdown(b.life, step);
    var spawn := if tick.expired && t.spawnOnExpire != 0 && entity.Some?
      then Some(Entity.Spawn(t.spawnOnExpire, entity.value.angle, entity.value.pos, entity.value.vel))
      else None;
    Outcome(b.(life := tick.life), spawn, tick.expired)
  }

  /** A bullet with the default (FLT_MAX) life survives any single step below that life. */
  lemma DefaultLifeSurvives(id: nat, entity: Option<Entity.Pose>, step: real)
    requires step < FLT_MAX
    ensures !Simulate(DefaultTemplate, NewBullet(DefaultTemplate, id), entity, step).deleted
  {
  }

  /** The damagable side of a hit entity, when it has one: its component, its template and
      its damage listeners (in iteration order). */
  datatype Target = Target(d: Damagable.Damagable, t: Damagable.DamagableTemplate, listeners: seq<nat>,
                           entity: Option<Entity.Pose>)

  /** The damage test of Bullet::Collide: the hit entity is damagable and the bullet either
      hurts, or heals a target below its template health. */
  predicate Applies(t: BulletTemplate, hit: Option<Target>) {
    hit.Some? && (t.damage >= 0.0 || hit.value.d.health < hit.value.t.health)
  }

  /** The result of a hit: the bullet's own outcome, and the damage outcome of the hit entity
      when damage was applied. */
  datatype CollideOutcome = CollideOutcome(bullet: Outcome, damage: Option<Damagable.DamageOutcome>)

  /** Bullet::Collide(hitId, time, manifold). `impact` is the estimated point of impact. */
  function Collide(t: BulletTemplate, b: Bullet, hit: Option<Target>, impact: Geometry.Vec2): (o: CollideOutcome)
    // damage (positive or healing) is dealt exactly when the damage test passes, from this bullet
    ensures o.damage.Some? <==> Applies(t, hit)
    ensures o.damage.Some? ==>
              o.damage.value.d.health + t.damage == hit.value.d.health &&
              forall i :: 0 <= i < |o.damage.value.notices| ==>
                o.damage.value.notices[i].source == b.id && o.damage.value.notices[i].amount == t.damage
    // a ricochet bullet that dealt nothing bounces off untouched
    ensures !Applies(t, hit) && t.ricochet ==> o.bullet == Outcome(b, None, false)
    // in every other case the bullet dies, spawning its death template at the point of impact
    ensures Applies(t, hit) || !t.ricochet ==> o.bullet.deleted && o.bullet.b == b
    ensures o.bullet.spawn.Some? <==> (Applies(t, hit) || !t.ricochet) && t.spawnOnDeath != 0
    ensures o.bullet.spawn.Some? ==> o.bullet.spawn.value == Entity.Spawn(t.spawnOnDeath, 0.0, impact, Geometry.Zero)
  {
    var damage := if Applies(t, hit)
      then Some(Damagable.Damage(hit.value.d, hit.value.t, hit.value.listeners, hit.value.entity, b.id, t.damage))
      else None;
    if !Applies(t, hit) && t.ricochet then
      CollideOutcome(Outcome(b, None, false), damage)
    else
      var spawn := if t.spawnOnDeath != 0 then Some(Entity.Spawn(t.spawnOnDeath, 0.0, impact, Geometry.Zero)) else None;
      CollideOutcome(Outcome(b, spawn, true), damage)
  }

  /** A healing bullet never touches a target at or above its template health. */
  lemma HealingNeedsWound(t: BulletTemplate, b: Bullet, hit: Target, impact: Geometry.Vec2)
    requires t.damage < 0.0 && hit.d.health >= hit.t.health
    ensures Collide(t, b, Some(hit), impact).damage.None?
  {
  }

  /** A bullet survives a hit exactly when it ricochets and dealt no damage. */
  lemma SurvivesIffRicochet(t: BulletTemplate, b: Bullet, hit: Option<Target>, impact: Geometry.Vec2)
    ensures !Collide(t, b, hit, impact).bullet.deleted <==> t.ricochet && !Applies(t, hit)
  {
  }

  /** The collidable listeners: per entity id, the listener keys registered for it. */
  type Listeners = map<nat, set<nat>>

  /** The listener keys of one entity; an entity without a store has none. */
  function Keys(ls: Listeners, id: nat): set<nat> {
    Get(ls, id, {})
  }

  /** The Bullet constructor's registration: the entity's listener store is opened (created
      when absent) and the bullet's key is bound in it. */
  function Register(ls: Listeners, id: nat, key: nat): (r: Listeners)
    ensures id in r && key in r[id]
    ensures r[id] - {key} == Keys(ls, id) - {key}
    ensures forall other :: other != id ==> (other in r <==> other in ls) && (other in ls ==> r[other] == ls[other])
  {
    ls[id := Keys(ls, id) + {key}]
  }

  /** The Bullet destructor: the bullet's key goes from the entity's listener store. */
  function Unregister(ls: Listeners, id: nat, key: nat): (r: Listeners)
    ensures id in r && key !in r[id]
    ensures r[id] == Keys(ls, id) - {key}
    ensures forall other :: other != id ==> (other in r <==> other in ls) && (other in ls ==> r[other] == ls[other])
  {
    ls[id := Keys(ls, id) - {key}]
  }

  /** Constructing then destroying a bullet removes exactly the listener it added: the store
      is as before, except that the entity's (possibly empty) listener store now exists. */
  lemma RegisterUnregister(ls: Listeners, id: nat, key: nat)
    requires key !in Keys(ls, id)
    ensures Unregister(Register(ls, id, key), id, key) == ls[id := Keys(ls, id)]
    ensures id in ls ==> Unregister(Register(ls, id, key), id, key) == ls
  {
    assert Keys(ls, id) + {key} - {key} == Keys(ls, id);
  }

  /** The bullet initializer's stores. */
  datatype Stores = Stores(bullets: map<nat, Bullet>, listeners: Listeners)

  /** BulletInitializer::Activate: a new bullet from the entity's template, which registers
      its collision listener under `key` (the bullet's address). */
  function Activate(s: Stores, templates: map<nat, BulletTemplate>, id: nat, key: nat): (s': Stores)
    ensures id in s'.bullets && s'.bullets[id] == NewBullet(Get(templates, id, DefaultTemplate), id)
    ensures forall other :: other != id ==> (other in s'.bullets <==> other in s.bullets)
    ensures s'.listeners == Register(s.listeners, id, key)
  {
    Stores(s.bullets[id := NewBullet(Get(templates, id, DefaultTemplate), id)], Register(s.listeners, id, key))
  }

  /** BulletInitializer::Deactivate: only an existing bullet is destroyed (unregistering its
      listener) and removed. */
  function Deactivate(s: Stores, id: nat, key: nat): (s': Stores)
    ensures id !in s'.bullets
    ensures id !in s.bullets ==> s' == s
    ensures id in s.bullets ==> s'.listeners == Unregister(s.listeners, id, key) && s'.bullets == s.bullets - {id}
  {
    if id in s.bullets then Stores(s.bullets - {id}, Unregister(s.listeners, id, key)) else s
  }

  /** Activating and deactivating an entity that had no bullet and an existing listener store
      restores the stores. */
  lemma ActivateDeactivate(s: Stores, templates: map<nat, BulletTemplate>, id: nat, key: nat)
    requires id !in s.bullets && id in s.listeners && key !in s.listeners[id]
    ensures Deactivate(Activate(s, templates, id, key), id, key) == s
  {
    RegisterUnregister(s.listeners, id, key);
    assert s.bullets[id := NewBullet(Get(templates, id, DefaultTemplate), id)] - {id} == s.bullets;
  }
}

=== FILE: collidable.dfy ===
/** The physics-side description of an entity (tinyxml2 generation of Collidable): fixture
    and body definitions read from XML, one body item at a time, and the named or numbered
    shape stores. The body section as a whole is in CollidableBody, the world side and the
    segment test in CollidableWorld. The physics engine itself (body and fixture creation,
    polygon hulls, world stepping) is not modelled; where its behaviour matters it is
    stated as a parameter. */
module Collidable {
  import opened Base
  import Xml
  import Geometry
  import Filter
  import MathUtil

  datatype FixtureDef = FixtureDef(friction: real, restitution: real, density: real,
                                   filter: Filter.FilterData, isSensor: bool)

  /** CollidableTemplate::ConfigureFixtureItem: one child of a shape element. Returns the
      updated fixture and whether the tag was one of the fixture tags. */
  function ConfigureFixtureItem(fx: FixtureDef, child: Xml.Element, filters: map<nat, Filter.FilterData>)
    : (r: (FixtureDef, bool))
    ensures r.1 <==> child.tag in {"friction", "restitution", "density", "filter", "category", "mask", "group", "sensor"}
    ensures !r.1 ==> r.0 == fx
    // the scalar fields move only through their own tag, and only when "value" is present
    ensures child.tag != "friction" ==> r.0.friction == fx.friction
    ensures child.tag != "restitution" ==> r.0.restitution == fx.restitution
    ensures child.tag != "density" ==> r.0.density == fx.density
    ensures child.tag != "sensor" ==> r.0.isSensor == fx.isSensor
    ensures child.tag == "density" ==> r.0.density == Xml.QueryFloat(child, "value").GetOr(fx.density)
    ensures child.tag == "sensor" ==> r.0.isSensor == Xml.QueryBool(child, "value").GetOr(fx.isSensor)
    ensures child.tag in {"friction", "restitution", "density", "sensor"} ==> r.0.filter == fx.filter
  {
    match child.tag
    case "friction" => (fx.(friction := Xml.FloatOr(child, "value", fx.friction)), true)
    case "restitution" => (fx.(restitution := Xml.FloatOr(child, "value", fx.restitution)), true)
    case "density" => (fx.(density := Xml.FloatOr(child, "value", fx.density)), true)
    case "filter" => (fx.(filter := Filter.ConfigureFilterData(fx.filter, child, filters)), true)
    case "category" => (fx.(filter := Filter.ConfigureCategory(fx.filter, child, "value")), true)
    case "mask" => (fx.(filter := Filter.ConfigureMask(fx.filter, child)), true)
    case "group" => (fx.(filter := Filter.ConfigureGroup(fx.filter, child, "value")), true)
    case "sensor" => (fx.(isSensor := Xml.BoolOr(child, "value", fx.isSensor)), true)
    case _ => (fx, false)
  }

  /** CollidableTemplate::ConfigureFixture: every child in document order. */
  function ConfigureFixture(fx: FixtureDef, children: seq<Xml.Element>, filters: map<nat, Filter.FilterData>): FixtureDef
    decreases |children|
  {
    if children == [] then fx
    else ConfigureFixtureItem(ConfigureFixture(fx, children[..|children| - 1], filters), children[|children| - 1], filters).0
  }

  /** The density of a fixture is that of its last <density value=...> child. */
  lemma {:induction false} LastDensityWins(fx: FixtureDef, children: seq<Xml.Element>, filters: map<nat, Filter.FilterData>, k: nat)
    requires k < |children| && children[k].tag == "density" && Xml.QueryFloat(children[k], "value").Some?
    requires forall j :: k < j < |children| ==> children[j].tag != "density"
    ensures ConfigureFixture(fx, children, filters).density == Xml.QueryFloat(children[k], "value").value
    decreases |children|
  {
    var n := |children| - 1;
    var prev := ConfigureFixture(fx, children[..n], filters);
    assert ConfigureFixture(fx, children, filters) == ConfigureFixtureItem(prev, children[n], filters).0;
    if n > k {
      assert children[..n][k] == children[k];
      assert forall j :: k < j < n ==> children[..n][j] == children[j];
      LastDensityWins(fx, children[..n], filters, k);
    }
  }

  /** An unset vertex coordinate is None: the source reads it into uninitialised memory. */
  datatype Vertex = Vertex(x: Option<real>, y: Option<real>)

  /** The shape part of each fixture kind. A box is kept as the half extents, centre and
      rotation handed to the engine's SetAsBox; a polygon as its vertex list before the
      engine computes the hull; a chain as its vertices and whether it closes into a loop. */
  datatype Shape =
    | Circle(radius: real)
    | Box(w: real, h: real, center: Geometry.Vec2, rotation: real)
    | Poly(vertices: seq<Geometry.Vec2>)
    | Edge(v1: Geometry.Vec2, v2: Geometry.Vec2)
    | Chain(points: seq<Vertex>, loop: bool)
    | NoChain

  datatype ShapeDef = ShapeDef(fixture: FixtureDef, shape: Shape)

  /** CollidableTemplate::ConfigureCircle. */
  function ConfigureCircle(radius: real, e: Xml.Element): (s: Shape)
    ensures s.Circle? && s.radius == Xml.QueryFloat(e, "radius").GetOr(radius)
  {
    Circle(Xml.FloatOr(e, "radius", radius))
  }

  /** The position of a box as the evidently intended reading: x, y and angle (degrees)
      from the last <position> child, each only when present. */
  function BoxPlacement(children: seq<Xml.Element>): (r: (Geometry.Vec2, real))
    decreases |children|
  {
    if children == [] then (Geometry.Zero, 0.0)
    else
      var before := BoxPlacement(children[..|children| - 1]);
      var c := children[|children| - 1];
      if c.tag == "position" then
        (Geometry.Vec2(Xml.FloatOr(c, "x", before.0.x), Xml.FloatOr(c, "y", before.0.y)),
         Xml.AngleOr(c, "angle", before.1))
      else before
  }

  /** CollidableTemplate::ConfigureBox as written: for each <position> child the centre and
      rotation are read from the box element itself, not from the child. */
  function ConfigureBoxAsWritten(e: Xml.Element): (s: Shape)
    ensures s.Box? && s.w == Xml.QueryFloat(e, "w").GetOr(0.0) && s.h == Xml.QueryFloat(e, "h").GetOr(0.0)
    // a box with no position child sits at the origin, unrotated
    ensures (forall i :: 0 <= i < |e.children| ==> e.children[i].tag != "position") ==>
              s.center == Geometry.Zero && s.rotation == 0.0
    // the placement never depends on the children's attributes
    ensures (exists i :: 0 <= i < |e.children| && e.children[i].tag == "position") ==>
              s.center == Geometry.Vec2(Xml.FloatOr(e, "x", 0.0), Xml.FloatOr(e, "y", 0.0)) &&
              s.rotation == Xml.AngleOr(e, "angle", 0.0)
  {
    var hasPosition := exists i :: 0 <= i < |e.children| && e.children[i].tag == "position";
    var center := if hasPosition then Geometry.Vec2(Xml.FloatOr(e, "x", 0.0), Xml.FloatOr(e, "y", 0.0)) else Geometry.Zero;
    var rotation := if hasPosition then Xml.AngleOr(e, "angle", 0.0) else 0.0;
    Box(Xml.FloatOr(e, "w", 0.0), Xml.FloatOr(e, "h", 0.0), center, rotation)
  }

  /** ConfigureBox with the position read from the <position> child. */
  function ConfigureBox(e: Xml.Element): (s: Shape)
    ensures s.Box? && s.w == Xml.QueryFloat(e, "w").GetOr(0.0) && s.h == Xml.QueryFloat(e, "h").GetOr(0.0)
    ensures (s.center, s.rotation) == BoxPlacement(e.children)
  {
    var (center, rotation) := BoxPlacement(e.children);
    Box(Xml.FloatOr(e, "w", 0.0), Xml.FloatOr(e, "h", 0.0), center, rotation)
  }

  /** The placement read from a single <position x y angle> child is exactly that child's values. */
  lemma {:induction false} BoxPlacementFromChild(children: seq<Xml.Element>, k: nat)
    requires k < |children| && children[k].tag == "position"
    requires Xml.QueryFloat(children[k], "x").Some? && Xml.QueryFloat(children[k], "y").Some?
    requires Xml.QueryFloat(children[k], "angle").Some?
    requires forall j :: k < j < |children| ==> children[j].tag != "position"
    ensures BoxPlacement(children) == (Geometry.Vec2(Xml.QueryFloat(children[k], "x").value, Xml.QueryFloat(children[k], "y").value),
                                       DegToRad(Xml.QueryFloat(children[k], "angle").value))
    decreases |children|
  {
    var n := |children| - 1;
    if n > k {
      assert children[..n][k] == children[k];
      BoxPlacementFromChild(children[..n], k);
    }
  }

  /** The as-written box ignores its <position> child: a box placed at (2, 3) by its child
      sits at the origin. */
  lemma BoxIgnoresPositionChild()
    ensures var pos := Xml.Element("position", map["x" := Xml.Attr("2", 0, Some(2), Some(2.0), None),
                                                   "y" := Xml.Attr("3", 0, Some(3), Some(3.0), None)], None, []);
            var box := Xml.Element("box", map[], None, [pos]);
            ConfigureBoxAsWritten(box).center == Geometry.Zero &&
            ConfigureBox(box).center == Geometry.Vec2(2.0, 3.0)
  {
    var pos := Xml.Element("position", map["x" := Xml.Attr("2", 0, Some(2), Some(2.0), None),
                                           "y" := Xml.Attr("3", 0, Some(3), Some(3.0), None)], None, []);
    var box := Xml.Element("box", map[], None, [pos]);
    assert box.children[0].tag == "position";
    assert BoxPlacement(box.children) == BoxPlacement([pos]);
    assert [pos][..0] == [];
  }

  /** CollidableTemplate::ConfigurePolyItem: each <vertex> child appends one vertex; other
      tags are not poly items. A missing coordinate reads as 0 here. The source leaves it as
      the engine's uninitialised vertex array held it (see the README's Left out). */
  function ConfigurePolyItem(vertices: seq<Geometry.Vec2>, child: Xml.Element): (r: (seq<Geometry.Vec2>, bool))
    ensures r.1 <==> child.tag == "vertex"
    ensures r.1 ==> r.0 == vertices + [Geometry.Vec2(Xml.QueryFloat(child, "x").GetOr(0.0), Xml.QueryFloat(child, "y").GetOr(0.0))]
    ensures !r.1 ==> r.0 == vertices
  {
    if child.tag == "vertex" then
      (vertices + [Geometry.Vec2(Xml.FloatOr(child, "x", 0.0), Xml.FloatOr(child, "y", 0.0))], true)
    else (vertices, false)
  }

  function ConfigurePoly(children: seq<Xml.Element>): seq<Geometry.Vec2>
    decreases |children|
  {
    if children == [] then []
    else ConfigurePolyItem(ConfigurePoly(children[..|children| - 1]), children[|children| - 1]).0
  }

  /** The vertex children of an element, in document order. */
  function VertexChildren(children: seq<Xml.Element>): (r: seq<Xml.Element>)
    ensures |r| <= |children|
    ensures forall i :: 0 <= i < |r| ==> r[i].tag == "vertex"
    decreases |children|
  {
    if children == [] then []
    else
      var rest := VertexChildren(children[..|children| - 1]);
      if children[|children| - 1].tag == "vertex" then rest + [children[|children| - 1]] else rest
  }

  /** A polygon gets one vertex per <vertex> child, in document order. */
  lemma {:induction false} PolyCountsVertices(children: seq<Xml.Element>)
    ensures |ConfigurePoly(children)| == |VertexChildren(children)|
    ensures forall i :: 0 <= i < |ConfigurePoly(children)| ==>
              ConfigurePoly(children)[i] == Geometry.Vec2(Xml.QueryFloat(VertexChildren(children)[i], "x").GetOr(0.0),
                                                          Xml.QueryFloat(VertexChildren(children)[i], "y").GetOr(0.0))
    decreases |children|
  {
    if children != [] {
      PolyCountsVertices(children[..|children| - 1]);
    }
  }

  /** CollidableTemplate::ConfigureChain as written: with at least two <vertex> children the
      chain takes them all in order (a loop when "loop" is true); a missing coordinate is
      left unset. With fewer, no chain is made. */
  function ConfigureChainAsWritten(e: Xml.Element): (s: Shape)
    ensures |VertexChildren(e.children)| < 2 ==> s == NoChain
    ensures |VertexChildren(e.children)| >= 2 ==>
              s.Chain? && s.loop == Xml.QueryBool(e, "loop").GetOr(false) && |s.points| == |VertexChildren(e.children)|
    ensures s.Chain? ==> forall i :: 0 <= i < |s.points| ==>
              s.points[i] == Vertex(Xml.QueryFloat(VertexChildren(e.children)[i], "x"), Xml.QueryFloat(VertexChildren(e.children)[i], "y"))
  {
    var vs := VertexChildren(e.children);
    if |vs| < 2 then NoChain
    else Chain(seq(|vs|, i requires 0 <= i < |vs| => Vertex(Xml.QueryFloat(vs[i], "x"), Xml.QueryFloat(vs[i], "y"))),
               Xml.BoolOr(e, "loop", false))
  }

  /** The as-written chain hands the engine an unset coordinate for any <vertex> child that
      lacks one (say <vertex x="1"/>), where the corrected reading gives 0. */
  lemma ChainCoordinateUnset(e: Xml.Element, i: nat)
    requires |VertexChildren(e.children)| >= 2 && i < |VertexChildren(e.children)|
    requires Xml.QueryFloat(VertexChildren(e.children)[i], "y").None?
    ensures ConfigureChainAsWritten(e).Chain? && ConfigureChainAsWritten(e).points[i].y.None?
    ensures ConfigureChain(e).Chain? && ConfigureChain(e).points[i].y == Some(0.0)
  {
  }

  /** ConfigureChain with a missing coordinate read as 0, as the polygon and edge readers do:
      every chain point is then fully defined. */
  function ConfigureChain(e: Xml.Element): (s: Shape)
    ensures |VertexChildren(e.children)| < 2 <==> s == NoChain
    ensures s.Chain? ==> s.loop == Xml.QueryBool(e, "loop").GetOr(false) && |s.points| == |VertexChildren(e.children)|
    ensures s.Chain? ==> forall i :: 0 <= i < |s.points| ==> s.points[i].x.Some? && s.points[i].y.Some?
    ensures s.Chain? ==> forall i :: 0 <= i < |s.points| ==>
              s.points[i].x.value == Xml.QueryFloat(VertexChildren(e.children)[i], "x").GetOr(0.0) &&
              s.points[i].y.value == Xml.QueryFloat(VertexChildren(e.children)[i], "y").GetOr(0.0)
  {
    var vs := VertexChildren(e.children);
    if |vs| < 2 then NoChain
    else Chain(seq(|vs|, i requires 0 <= i < |vs| =>
                     Vertex(Some(Xml.FloatOr(vs[i], "x", 0.0)), Some(Xml.FloatOr(vs[i], "y", 0.0)))),
               Xml.BoolOr(e, "loop", false))
  }

  /** CollidableTemplate::ConfigureEdge: <vertex1> and <vertex2> children set the endpoints. */
  function ConfigureEdge(v1: Geometry.Vec2, v2: Geometry.Vec2, children: seq<Xml.Element>): (s: Shape)
    ensures s.Edge?
    ensures (forall i :: 0 <= i < |children| ==> children[i].tag !in {"vertex1", "vertex2"}) ==> s == Edge(v1, v2)
    decreases |children|
  {
    if children == [] then Edge(v1, v2)
    else
      var before := ConfigureEdge(v1, v2, children[..|children| - 1]);
      var c := children[|children| - 1];
      if c.tag == "vertex1" then Edge(Geometry.Vec2(Xml.FloatOr(c, "x", before.v1.x), Xml.FloatOr(c, "y", before.v1.y)), before.v2)
      else if c.tag == "vertex2" then Edge(before.v1, Geometry.Vec2(Xml.FloatOr(c, "x", before.v2.x), Xml.FloatOr(c, "y", before.v2.y)))
      else before
  }

  datatype BodyType = Auto | Static | Kinematic | Dynamic

  datatype BodyDef = BodyDef(
    position: Geometry.Vec2, angle: real, linearVelocity: Geometry.Vec2, angularVelocity: real,
    linearDamping: real, angularDamping: real,
    allowSleep: bool, awake: bool, fixedRotation: bool, bullet: bool, active: bool, bodyType: BodyType)

  /** The engine's default body definition, with the template's automatic type. */
  const DefaultBody := BodyDef(Geometry.Zero, 0.0, Geometry.Zero, 0.0, 0.0, 0.0, true, true, false, false, true, Auto)

  /** The engine's default fixture definition, with the game's default filter. */
  const DefaultFixture := FixtureDef(0.2, 0.0, 0.0, Filter.DefaultFilter, false)

  /** The shape stores of one template: sub-id to definition, per fixture kind. */
  datatype Shapes = Shapes(circles: map<nat, ShapeDef>, polygons: map<nat, ShapeDef>,
                           edges: map<nat, ShapeDef>, chains: map<nat, ShapeDef>)

  const NoShapes := Shapes(map[], map[], map[], map[])

  /** The sub-id of a shape: the hash of its name when named, else one past the number of
      shapes of that kind already stored. */
  function SubId<V>(store: map<nat, V>, e: Xml.Element): (id: nat)
    ensures Xml.Attribute(e, "name").Some? ==> id == e.attrs["name"].key
    ensures Xml.Attribute(e, "name").None? ==> id == |store| + 1
  {
    match Xml.Attribute(e, "name")
    case Some(a) => a.key
    case None => |store| + 1
  }

  /** In a store of only unnamed shapes (numbered 1..n), an unnamed shape gets a fresh sub-id,
      so it never overwrites an earlier one. */
  lemma UnnamedSubIdFresh<V>(store: map<nat, V>, e: Xml.Element)
    requires Xml.Attribute(e, "name").None?
    requires forall k :: k in store ==> 1 <= k <= |store|
    ensures SubId(store, e) !in store
  {
  }

  /** Adding the unnamed shape keeps the store numbered 1..n. */
  lemma UnnamedKeepsNumbering<V>(store: map<nat, V>, e: Xml.Element, v: V)
    requires Xml.Attribute(e, "name").None?
    requires forall k :: k in store ==> 1 <= k <= |store|
    ensures var s' := store[SubId(store, e) := v];
            |s'| == |store| + 1 && forall k :: k in s' ==> 1 <= k <= |s'|
  {
    UnnamedSubIdFresh(store, e);
  }

  /** The slot a shape element configures: the stored definition under its sub-id, or the
      default one when there is none. */
  function Slot(store: map<nat, ShapeDef>, e: Xml.Element, initial: Shape): (d: ShapeDef)
    ensures SubId(store, e) in store ==> d == store[SubId(store, e)]
    ensures SubId(store, e) !in store ==> d == ShapeDef(DefaultFixture, initial)
  {
    Get(store, SubId(store, e), ShapeDef(DefaultFixture, initial))
  }

  /** Which reading of <box> and <edgechain> a configuration follows: the source as written,
      or the corrected one (the box placed by its <position> child, a missing chain
      coordinate read as 0). */
  datatype Reading = AsWritten | Corrected

  /** Whether an element has a <position> child. */
  predicate HasPositionChild(children: seq<Xml.Element>) {
    exists i :: 0 <= i < |children| && children[i].tag == "position"
  }

  /** The vertices a polygon slot already holds (none unless it holds a polygon). */
  function PriorVertices(prior: Shape): (vs: seq<Geometry.Vec2>)
    ensures prior.Poly? ==> vs == prior.vertices
    ensures !prior.Poly? ==> vs == []
  {
    if prior.Poly? then prior.vertices else []
  }

  /** The vertex a <vertex> child gives a polygon, a missing coordinate reading as 0 (the
      source leaves it indeterminate). */
  function PolyVertex(v: Xml.Element): (p: Geometry.Vec2)
    ensures p.x == Xml.QueryFloat(v, "x").GetOr(0.0) && p.y == Xml.QueryFloat(v, "y").GetOr(0.0)
  {
    Geometry.Vec2(Xml.FloatOr(v, "x", 0.0), Xml.FloatOr(v, "y", 0.0))
  }

  /** The shape an element of the given kind leaves in a slot whose shape was `prior`. */
  function ShapeOf(rd: Reading, kind: string, prior: Shape, e: Xml.Element): (s: Shape)
    // a circle keeps the slot's radius unless the element gives one
    ensures kind == "circle" ==> s == Circle(Xml.QueryFloat(e, "radius").GetOr(if prior.Circle? then prior.radius else 0.0))
    // a box is rebuilt from the element alone
    ensures kind == "box" ==> s.Box? && s.w == Xml.QueryFloat(e, "w").GetOr(0.0) && s.h == Xml.QueryFloat(e, "h").GetOr(0.0)
    ensures kind == "box" && (rd.Corrected? || !HasPositionChild(e.children)) ==> (s.center, s.rotation) == BoxPlacement(e.children)
    ensures kind == "box" && rd.AsWritten? && HasPositionChild(e.children) ==>
              s.center == Geometry.Vec2(Xml.QueryFloat(e, "x").GetOr(0.0), Xml.QueryFloat(e, "y").GetOr(0.0)) &&
              s.rotation == Xml.AngleOr(e, "angle", 0.0)
    // a polygon appends one vertex per <vertex> child to those the slot holds
    ensures kind == "poly" ==> (s.Poly? &&
              |s.vertices| == |PriorVertices(prior)| + |VertexChildren(e.children)| &&
              s.vertices[..|PriorVertices(prior)|] == PriorVertices(prior) &&
              forall i :: 0 <= i < |VertexChildren(e.children)| ==>
                s.vertices[|PriorVertices(prior)| + i] == PolyVertex(VertexChildren(e.children)[i]))
    // an edge keeps the slot's endpoints unless a <vertex1> or <vertex2> child moves them
    ensures kind == "edge" ==> s.Edge?
    ensures kind == "edge" && (forall i :: 0 <= i < |e.children| ==> e.children[i].tag !in {"vertex1", "vertex2"}) ==>
              s == (if prior.Edge? then prior else Edge(Geometry.Zero, Geometry.Zero))
    // a chain needs two <vertex> children; with fewer the slot keeps its shape
    ensures kind !in {"circle", "box", "poly", "edge"} && |VertexChildren(e.children)| < 2 ==> s == prior
    ensures kind !in {"circle", "box", "poly", "edge"} && |VertexChildren(e.children)| >= 2 ==>
              s.Chain? && s.loop == Xml.QueryBool(e, "loop").GetOr(false) && |s.points| == |VertexChildren(e.children)|
    ensures kind !in {"circle", "box", "poly", "edge"} && |VertexChildren(e.children)| >= 2 && rd.AsWritten? ==>
              forall i :: 0 <= i < |s.points| ==>
                s.points[i] == Vertex(Xml.QueryFloat(VertexChildren(e.children)[i], "x"), Xml.QueryFloat(VertexChildren(e.children)[i], "y"))
    ensures kind !in {"circle", "box", "poly", "edge"} && |VertexChildren(e.children)| >= 2 && rd.Corrected? ==>
              forall i :: 0 <= i < |s.points| ==>
                s.points[i] == Vertex(Some(PolyVertex(VertexChildren(e.children)[i]).x), Some(PolyVertex(VertexChildren(e.children)[i]).y))
  {
    PolyCountsVertices(e.children);
    NoPositionChildPlacesAtOrigin(e.children);
    match kind
    case "circle" => ConfigureCircle(if prior.Circle? then prior.radius else 0.0, e)
    case "box" => if rd.AsWritten? then ConfigureBoxAsWritten(e) else ConfigureBox(e)
    case "poly" => Poly(PriorVertices(prior) + ConfigurePoly(e.children))
    case "edge" =>
      var (a, b) := if prior.Edge? then (prior.v1, prior.v2) else (Geometry.Zero, Geometry.Zero);
      ConfigureEdge(a, b, e.children)
    case _ =>
      var c := if rd.AsWritten? then ConfigureChainAsWritten(e) else ConfigureChain(e);
      if c.NoChain? then prior else c
  }

  /** Without a <position> child both readings leave a box at the origin, unrotated. */
  lemma {:induction false} NoPositionChildPlacesAtOrigin(children: seq<Xml.Element>)
    ensures !HasPositionChild(children) ==> BoxPlacement(children) == (Geometry.Zero, 0.0)
    decreases |children|
  {
    if children != [] && !HasPositionChild(children) {
      var n := |children| - 1;
      assert !HasPositionChild(children[..n]) by {
        forall i | 0 <= i < n ensures children[..n][i].tag != "position" { assert children[..n][i] == children[i]; }
      }
      NoPositionChildPlacesAtOrigin(children[..n]);
    }
  }

  /** Configure one shape element into a store: the slot under its sub-id gets the element's
      fixture items and the shape of its kind; no other slot changes. */
  function AddShape(rd: Reading, store: map<nat, ShapeDef>, e: Xml.Element, initial: Shape, filters: map<nat, Filter.FilterData>)
    : (s': map<nat, ShapeDef>)
    ensures SubId(store, e) in s' && s'.Keys == store.Keys + {SubId(store, e)}
    ensures forall k :: k in store && k != SubId(store, e) ==> s'[k] == store[k]
    // a named element reopens its slot; an unnamed one opens a fresh default slot in a numbered store
    ensures SubId(store, e) !in store ==>
              s'[SubId(store, e)].fixture == ConfigureFixture(DefaultFixture, e.children, filters)
    ensures SubId(store, e) in store ==>
              s'[SubId(store, e)].fixture == ConfigureFixture(store[SubId(store, e)].fixture, e.children, filters)
    ensures var prior := Slot(store, e, initial).shape; var s := s'[SubId(store, e)].shape;
            (e.tag == "circle" ==> s == Circle(Xml.QueryFloat(e, "radius").GetOr(if prior.Circle? then prior.radius else 0.0))) &&
            (e.tag == "box" ==> s.Box? && s.w == Xml.QueryFloat(e, "w").GetOr(0.0) && s.h == Xml.QueryFloat(e, "h").GetOr(0.0)) &&
            (e.tag == "box" && rd.Corrected? ==> (s.center, s.rotation) == BoxPlacement(e.children)) &&
            (e.tag == "poly" ==> (s.Poly? && |s.vertices| == |PriorVertices(prior)| + |VertexChildren(e.children)| &&
                                 s.vertices[..|PriorVertices(prior)|] == PriorVertices(prior))) &&
            (e.tag == "edge" ==> s.Edge?) &&
            (e.tag == "edgechain" && |VertexChildren(e.children)| < 2 ==> s == prior) &&
            (e.tag == "edgechain" && |VertexChildren(e.children)| >= 2 ==> s.Chain? && |s.points| == |VertexChildren(e.children)|)
    // the full per-kind shape, as ShapeOf states it under the reading
    ensures s'[SubId(store, e)].shape == ShapeOf(rd, e.tag, Slot(store, e, initial).shape, e)
  {
    var d := Slot(store, e, initial);
    store[SubId(store, e) := ShapeDef(ConfigureFixture(d.fixture, e.children, filters), ShapeOf(rd, e.tag, d.shape, e))]
  }

  /** The body type named by a <type value=...> element, if it names one. */
  function TypeNamed(e: Xml.Element): (t: Option<BodyType>)
    ensures t.Some? ==> Xml.Attribute(e, "value").Some?
    ensures t == Some(Auto) <==> Xml.Attribute(e, "value").Some? && e.attrs["value"].text == "auto"
    ensures t == Some(Dynamic) <==> Xml.Attribute(e, "value").Some? && e.attrs["value"].text == "dynamic"
  {
    match Xml.Attribute(e, "value")
    case Some(a) =>
      if a.text == "auto" then Some(Auto)
      else if a.text == "static" then Some(Static)
      else if a.text == "kinematic" then Some(Kinematic)
      else if a.text == "dynamic" then Some(Dynamic)
      else None
    case None => None
  }

  /** The tags of <body> children that configure a shape. */
  const ShapeTags: set<string> := {"circle", "box", "poly", "edge", "edgechain"}

  /** CollidableTemplate::ConfigureBodyItem: one child of <body>. Returns the body, the shape
      stores and whether the tag was a body item. */
  function ConfigureBodyItem(rd: Reading, body: BodyDef, shapes: Shapes, e: Xml.Element, filters: map<nat, Filter.FilterData>)
    : (r: (BodyDef, Shapes, bool))
    ensures r.2 <==> e.tag in {"position", "damping", "allowsleep", "awake", "fixedrotation", "fast", "active", "type",
                              "circle", "box", "poly", "edge", "edgechain"}
    // a shape tag changes exactly one store, at its sub-id, and leaves the body alone
    ensures e.tag == "circle" ==> (r.0 == body && r.1 == shapes.(circles := r.1.circles) &&
               r.1.circles == AddShape(rd, shapes.circles, e, Circle(0.0), filters))
    ensures e.tag in {"box", "poly"} ==> (r.0 == body && r.1 == shapes.(polygons := r.1.polygons) &&
               r.1.polygons == AddShape(rd, shapes.polygons, e, Poly([]), filters))
    ensures e.tag == "edge" ==> (r.0 == body && r.1 == shapes.(edges := r.1.edges) &&
               r.1.edges == AddShape(rd, shapes.edges, e, Edge(Geometry.Zero, Geometry.Zero), filters))
    ensures e.tag == "edgechain" ==> (r.0 == body && r.1 == shapes.(chains := r.1.chains) &&
               r.1.chains == AddShape(rd, shapes.chains, e, NoChain, filters))
    // a body tag leaves the shapes alone; the angle is converted from degrees only when present
    ensures e.tag !in ShapeTags ==> r.1 == shapes
    ensures e.tag == "position" ==> (r.0.angle == Xml.AngleOr(e, "angle", body.angle) &&
               r.0.position == Geometry.Vec2(Xml.QueryFloat(e, "x").GetOr(body.position.x), Xml.QueryFloat(e, "y").GetOr(body.position.y)))
    // an unknown or missing type name leaves the type as it was
    ensures e.tag == "type" ==> r.0 == body.(bodyType := TypeNamed(e).GetOr(body.bodyType))
    ensures !r.2 ==> r.0 == body
  {
    match e.tag
    case "position" =>
      (body.(position := Geometry.Vec2(Xml.FloatOr(e, "x", body.position.x), Xml.FloatOr(e, "y", body.position.y)),
             angle := Xml.AngleOr(e, "angle", body.angle)), shapes, true)
    case "damping" =>
      (body.(linearDamping := Xml.FloatOr(e, "linear", body.linearDamping),
             angularDamping := Xml.FloatOr(e, "angular", body.angularDamping)), shapes, true)
    case "allowsleep" => (body.(allowSleep := Xml.BoolOr(e, "value", body.allowSleep)), shapes, true)
    case "awake" => (body.(awake := Xml.BoolOr(e, "value", body.awake)), shapes, true)
    case "fixedrotation" => (body.(fixedRotation := Xml.BoolOr(e, "value", body.fixedRotation)), shapes, true)
    case "fast" => (body.(bullet := Xml.BoolOr(e, "value", body.bullet)), shapes, true)
    case "active" => (body.(active := Xml.BoolOr(e, "value", body.active)), shapes, true)
    case "type" => (body.(bodyType := TypeNamed(e).GetOr(body.bodyType)), shapes, true)
    case "circle" => (body, shapes.(circles := AddShape(rd, shapes.circles, e, Circle(0.0), filters)), true)
    case "box" => (body, shapes.(polygons := AddShape(rd, shapes.polygons, e, Poly([]), filters)), true)
    case "poly" => (body, shapes.(polygons := AddShape(rd, shapes.polygons, e, Poly([]), filters)), true)
    case "edge" => (body, shapes.(edges := AddShape(rd, shapes.edges, e, Edge(Geometry.Zero, Geometry.Zero), filters)), true)
    case "edgechain" => (body, shapes.(chains := AddShape(rd, shapes.chains, e, NoChain, filters)), true)
    case _ => (body, shapes, false)
  }

  /** Every key of one set of shape stores is still in another. */
  predicate KeysKept(a: Shapes, b: Shapes) {
    a.circles.Keys <= b.circles.Keys && a.polygons.Keys <= b.polygons.Keys &&
    a.edges.Keys <= b.edges.Keys && a.chains.Keys <= b.chains.Keys
  }

  /** One body item applied to a configuration in progress. */
  function BodyStep(rd: Reading, acc: (BodyDef, Shapes), e: Xml.Element, filters: map<nat, Filter.FilterData>)
    : (r: (BodyDef, Shapes))
    ensures KeysKept(acc.1, r.1)
    ensures e.tag !in ShapeTags ==> r.1 == acc.1
    ensures e.tag in ShapeTags ==> r.0 == acc.0
  {
    var r := ConfigureBodyItem(rd, acc.0, acc.1, e, filters);
    (r.0, r.1)
  }
}

=== FILE: collidable_body.dfy ===
/** The body section of a collidable template (tinyxml2 generation): the children of every
    <body> element applied in document order to the body definition and the shape stores,
    and the template that records the result. */
module CollidableBody {
  import opened Collidable
  import Xml
  import Filter

  /** CollidableTemplate::ConfigureBody: every child of <body> in document order. Shapes
      declared in a body are kept: later items never remove a sub-id. */
  function ConfigureBody(rd: Reading, body: BodyDef, shapes: Shapes, children: seq<Xml.Element>, filters: map<nat, Filter.FilterData>)
    : (r: (BodyDef, Shapes))
    ensures KeysKept(shapes, r.1)
    ensures (forall i :: 0 <= i < |children| ==> children[i].tag !in ShapeTags) ==> r.1 == shapes
    ensures (forall i :: 0 <= i < |children| ==> children[i].tag in ShapeTags) ==> r.0 == body
    decreases |children|
  {
    if children == [] then (body, shapes)
    else
      BodyStep(rd, ConfigureBody(rd, body, shapes, children[..|children| - 1], filters), children[|children| - 1], filters)
  }

  /** ConfigureBody's last step, as a fact to call where the context is large. */
  lemma ConfigureBodyLast(rd: Reading, body: BodyDef, shapes: Shapes, c: seq<Xml.Element>, filters: map<nat, Filter.FilterData>)
    requires c != []
    ensures ConfigureBody(rd, body, shapes, c, filters) == BodyStep(rd, ConfigureBody(rd, body, shapes, c[..|c| - 1], filters), c[|c| - 1], filters)
  {}

  /** Configuring the items of two bodies in turn is configuring their items together. */
  lemma {:induction false} ConfigureBodyAppend(rd: Reading, body: BodyDef, shapes: Shapes, a: seq<Xml.Element>, b: seq<Xml.Element>,
                                               filters: map<nat, Filter.FilterData>)
    ensures var m := ConfigureBody(rd, body, shapes, a, filters);
            ConfigureBody(rd, body, shapes, a + b, filters) == ConfigureBody(rd, m.0, m.1, b, filters)
    decreases |b|
  {
    if b == [] {
      assert a + b == a;
    } else {
      var n := |b| - 1;
      var ab := a + b;
      assert ab[..|ab| - 1] == a + b[..n];
      assert ab[|ab| - 1] == b[n];
      ConfigureBodyAppend(rd, body, shapes, a, b[..n], filters);
      ConfigureBodyLast(rd, body, shapes, ab, filters);
      var m := ConfigureBody(rd, body, shapes, a, filters);
      ConfigureBodyLast(rd, m.0, m.1, b, filters);
    }
  }

  /** A body of n unnamed circles, and nothing else, stores them as circles 1..n. */
  lemma {:induction false} UnnamedCirclesNumbered(rd: Reading, body: BodyDef, children: seq<Xml.Element>, filters: map<nat, Filter.FilterData>)
    requires forall i :: 0 <= i < |children| ==> children[i].tag == "circle" && Xml.Attribute(children[i], "name").None?
    ensures var c := ConfigureBody(rd, body, NoShapes, children, filters).1.circles;
            |c| == |children| && forall k :: k in c ==> 1 <= k <= |children|
    decreases |children|
  {
    if children != [] {
      var n := |children| - 1;
      assert forall i :: 0 <= i < n ==> children[..n][i] == children[i];
      UnnamedCirclesNumbered(rd, body, children[..n], filters);
      var (b, sh) := ConfigureBody(rd, body, NoShapes, children[..n], filters);
      UnnamedKeepsNumbering(sh.circles, children[n], AddShape(rd, sh.circles, children[n], Circle(0.0), filters)[SubId(sh.circles, children[n])]);
    }
  }

  /** A collidable template: its identifier, body definition and shapes. */
  datatype Template = Template(id: nat, body: BodyDef, shapes: Shapes)

  /** The children of every <body> element, in document order. */
  function BodyItems(children: seq<Xml.Element>): (items: seq<Xml.Element>)
    ensures (forall i :: 0 <= i < |children| ==> children[i].tag != "body") ==> items == []
    decreases |children|
  {
    if children == [] then []
    else
      var n := |children| - 1;
      assert forall i :: 0 <= i < n ==> children[..n][i] == children[i];
      BodyItems(children[..n]) + (if children[n].tag == "body" then children[n].children else [])
  }

  /** BodyItems' last step: a <body> child adds its items, any other child adds none. */
  lemma BodyItemsLast(children: seq<Xml.Element>)
    requires children != []
    ensures var n := |children| - 1;
            (children[n].tag == "body" ==> BodyItems(children) == BodyItems(children[..n]) + children[n].children) &&
            (children[n].tag != "body" ==> BodyItems(children) == BodyItems(children[..n]))
  {
    var n := |children| - 1;
    assert BodyItems(children[..n]) + [] == BodyItems(children[..n]);
  }

  /** CollidableTemplate::Configure: records the identifier and configures every <body> child
      in order; other children are ignored. Several <body> children act as one body holding
      all their items. */
  function Configure(rd: Reading, t: Template, id: nat, children: seq<Xml.Element>, filters: map<nat, Filter.FilterData>)
    : (r: Template)
    ensures r.id == id
    ensures (r.body, r.shapes) == ConfigureBody(rd, t.body, t.shapes, BodyItems(children), filters)
    ensures KeysKept(t.shapes, r.shapes)
    ensures (forall i :: 0 <= i < |children| ==> children[i].tag != "body") ==> r == t.(id := id)
    decreases |children|
  {
    if children == [] then t.(id := id)
    else
      var n := |children| - 1;
      assert forall i :: 0 <= i < n ==> children[..n][i] == children[i];
      var before := Configure(rd, t, id, children[..n], filters);
      var c := children[n];
      BodyItemsLast(children);
      if c.tag == "body" then
        ConfigureBodyAppend(rd, t.body, t.shapes, BodyItems(children[..n]), c.children, filters);
        var m := ConfigureBody(rd, before.body, before.shapes, c.children, filters);
        before.(body := m.0, shapes := m.1)
      else before
  }
}

=== FILE: collidable_trunk.dfy ===
/** The older (trunk) generation of Collidable: shape, body and joint descriptions read with
    integer flags, shapes numbered in declaration order, joints resolved against the
    back-link relation when the body enters the world, and the initializer that ties a
    collidable's lifetime to activation. The physics engine is not modelled; its default
    definitions appear as constants. */
module CollidableTrunk {
  import opened Base
  import Xml
  import Geometry
  import Filter
  import Links
  import Collidable

  /** The fixture fields every shape definition carries. */
  datatype ShapeCommon = ShapeCommon(friction: real, restitution: real, density: real,
                                     filter: Filter.FilterData, isSensor: bool)

  /** The engine's default shape definition (friction 0.2, default filter). */
  const DefaultCommon := ShapeCommon(0.2, 0.0, 0.0, Filter.DefaultFilter, false)

  /** What bit i of the mask becomes under a <mask> element: the integer "bit<i>" attribute
      compared with zero, or the current bit when the attribute is absent. */
  function MaskOverride(e: Xml.Element, i: nat): Option<bool>
    requires i < 16
  {
    match Xml.QueryInt(e, Filter.BitName(i))
    case Some(v) => Some(v != 0)
    case None => None
  }

  /** CollidableTemplate::ProcessShapeItem: one child of a shape element. */
  function ProcessShapeItem(c: ShapeCommon, e: Xml.Element): (r: (ShapeCommon, bool))
    ensures r.1 <==> e.tag in {"friction", "restitution", "density", "category", "mask", "group", "sensor"}
    ensures !r.1 ==> r.0 == c
    ensures e.tag == "density" ==> r.0 == c.(density := Xml.QueryFloat(e, "value").GetOr(c.density))
    // a category element always sets the category; a missing value is layer 0
    ensures e.tag == "category" ==> (r.0 == c.(filter := r.0.filter) && r.0.filter.mask == c.filter.mask &&
               r.0.filter.group == c.filter.group && r.0.filter.category == Filter.CategoryBits(Xml.QueryInt(e, "value").GetOr(0)))
    ensures e.tag == "category" && Xml.QueryInt(e, "value").None? ==> r.0.filter.category == Filter.Single(0)
    // each mask bit is overridden by its own attribute and otherwise kept
    ensures e.tag == "mask" ==> (r.0 == c.(filter := c.filter.(mask := r.0.filter.mask)) &&
               forall i :: 0 <= i < 16 ==>
                 r.0.filter.mask[i] == (match Xml.QueryInt(e, Filter.BitName(i)) case Some(v) => v != 0 case None => c.filter.mask[i]))
    ensures e.tag == "group" ==> (r.0 == c.(filter := c.filter.(group := r.0.filter.group)) &&
               (Xml.QueryInt(e, "value").None? ==> r.0 == c) &&
               (Xml.QueryInt(e, "value").Some? ==> r.0.filter.group == Filter.ToShort(Xml.QueryInt(e, "value").value)))
    ensures e.tag == "sensor" ==> (r.0 == c.(isSensor := r.0.isSensor) &&
               r.0.isSensor == (match Xml.QueryInt(e, "value") case Some(v) => v != 0 case None => c.isSensor))
  {
    match e.tag
    case "friction" => (c.(friction := Xml.FloatOr(e, "value", c.friction)), true)
    case "restitution" => (c.(restitution := Xml.FloatOr(e, "value", c.restitution)), true)
    case "density" => (c.(density := Xml.FloatOr(e, "value", c.density)), true)
    case "category" => (c.(filter := c.filter.(category := Filter.CategoryBits(Xml.IntOr(e, "value", 0)))), true)
    case "mask" =>
      var over := seq(16, i requires 0 <= i < 16 => MaskOverride(e, i));
      Filter.ApplyBitsEffect(c.filter.mask, over);
      (c.(filter := c.filter.(mask := Filter.ApplyBits(c.filter.mask, over))), true)
    case "group" =>
      Filter.ToShortKeepsShorts(c.filter.group);
      (c.(filter := c.filter.(group := Filter.ToShort(Xml.IntOr(e, "value", c.filter.group)))), true)
    case "sensor" => (c.(isSensor := Xml.IntFlagOr(e, "value", c.isSensor)), true)
    case _ => (c, false)
  }

  /** The tags of a shape element's fixture children. */
  const ShapeItemTags: set<string> := {"friction", "restitution", "density", "category", "mask", "group", "sensor"}

  /** CollidableTemplate::ConfigureShape: every child in document order. Children that are
      not shape items leave the fixture fields alone, and a field without its own tag among
      the children keeps its value. */
  function ConfigureShape(c: ShapeCommon, children: seq<Xml.Element>): (r: ShapeCommon)
    ensures (forall i :: 0 <= i < |children| ==> children[i].tag !in ShapeItemTags) ==> r == c
    ensures (forall i :: 0 <= i < |children| ==> children[i].tag != "density") ==> r.density == c.density
    ensures (forall i :: 0 <= i < |children| ==> children[i].tag != "friction") ==> r.friction == c.friction
    ensures (forall i :: 0 <= i < |children| ==> children[i].tag != "sensor") ==> r.isSensor == c.isSensor
    decreases |children|
  {
    if children == [] then c
    else
      var n := |children| - 1;
      assert forall i :: 0 <= i < n ==> children[..n][i] == children[i];
      ProcessShapeItem(ConfigureShape(c, children[..n]), children[n]).0
  }

  /** A shape definition: a circle, a box (kept as the arguments of the engine's SetAsBox) or
      a polygon with its vertices in declaration order. */
  datatype ShapeDef =
    | CircleDef(common: ShapeCommon, radius: real)
    | BoxDef(common: ShapeCommon, w: real, h: real, center: Geometry.Vec2, rotation: real)
    | PolygonDef(common: ShapeCommon, vertices: seq<Geometry.Vec2>)

  /** CollidableTemplate::ConfigureCircle: the radius (engine default 1), then the shape items. */
  function ConfigureCircle(e: Xml.Element): (s: ShapeDef)
    ensures s.CircleDef? && s.radius == Xml.QueryFloat(e, "radius").GetOr(1.0)
    ensures s.common == ConfigureShape(DefaultCommon, e.children)
  {
    CircleDef(ConfigureShape(DefaultCommon, e.children), Xml.FloatOr(e, "radius", 1.0))
  }

  /** CollidableTemplate::ConfigureBox, then the shape items. As written, the placement is
      read from the box element's own attributes once per <position> child, exactly as in
      the newer generation (Collidable.ConfigureBoxAsWritten); the corrected reading takes
      it from the child. */
  function ConfigureBox(rd: Collidable.Reading, e: Xml.Element): (s: ShapeDef)
    ensures s.BoxDef? && s.w == Xml.QueryFloat(e, "w").GetOr(0.0) && s.h == Xml.QueryFloat(e, "h").GetOr(0.0)
    ensures rd.Corrected? ==> (s.center, s.rotation) == Collidable.BoxPlacement(e.children)
    ensures rd.AsWritten? && !Collidable.HasPositionChild(e.children) ==> s.center == Geometry.Zero && s.rotation == 0.0
    ensures rd.AsWritten? && Collidable.HasPositionChild(e.children) ==>
              s.center == Geometry.Vec2(Xml.QueryFloat(e, "x").GetOr(0.0), Xml.QueryFloat(e, "y").GetOr(0.0)) &&
              s.rotation == Xml.AngleOr(e, "angle", 0.0)
    ensures s.common == ConfigureShape(DefaultCommon, e.children)
  {
    var b := if rd.AsWritten? then Collidable.ConfigureBoxAsWritten(e) else Collidable.ConfigureBox(e);
    BoxDef(ConfigureShape(DefaultCommon, e.children), b.w, b.h, b.center, b.rotation)
  }

  /** As written, a box placed at (2, 3) by its <position> child sits at the origin. */
  lemma BoxIgnoresPositionChild()
    ensures var pos := Xml.Element("position", map["x" := Xml.Attr("2", 0, Some(2), Some(2.0), None),
                                                   "y" := Xml.Attr("3", 0, Some(3), Some(3.0), None)], None, []);
            var box := Xml.Element("box", map[], None, [pos]);
            ConfigureBox(Collidable.AsWritten, box).center == Geometry.Zero &&
            ConfigureBox(Collidable.Corrected, box).center == Geometry.Vec2(2.0, 3.0)
  {
    Collidable.BoxIgnoresPositionChild();
  }

  /** CollidableTemplate::ProcessPolyItem: a <vertex> child appends one vertex at the current
      count; any other child is a shape item. A missing coordinate reads as 0 here, where the
      source leaves the engine's uninitialised vertex (see the README's Left out). */
  function ProcessPolyItem(s: ShapeDef, e: Xml.Element): (r: (ShapeDef, bool))
    requires s.PolygonDef?
    ensures r.0.PolygonDef?
    ensures e.tag == "vertex" ==> (r.1 && r.0.common == s.common &&
               r.0.vertices == s.vertices + [Geometry.Vec2(Xml.QueryFloat(e, "x").GetOr(0.0), Xml.QueryFloat(e, "y").GetOr(0.0))])
    ensures e.tag != "vertex" ==> r.0.vertices == s.vertices && (r.0.common, r.1) == ProcessShapeItem(s.common, e)
  {
    if e.tag == "vertex" then
      (PolygonDef(s.common, s.vertices + [Geometry.Vec2(Xml.FloatOr(e, "x", 0.0), Xml.FloatOr(e, "y", 0.0))]), true)
    else
      var (c, handled) := ProcessShapeItem(s.common, e);
      (PolygonDef(c, s.vertices), handled)
  }

  /** CollidableTemplate::ConfigurePoly: every child in document order. A polygon gets
      exactly one vertex per <vertex> child, appended after those it already had. */
  function ConfigurePoly(s: ShapeDef, children: seq<Xml.Element>): (r: ShapeDef)
    requires s.PolygonDef?
    ensures r.PolygonDef?
    ensures |r.vertices| == |s.vertices| + |Collidable.VertexChildren(children)|
    ensures r.vertices[..|s.vertices|] == s.vertices
    decreases |children|
  {
    if children == [] then s
    else
      var n := |children| - 1;
      var before := ConfigurePoly(s, children[..n]);
      assert (before.vertices + [Geometry.Vec2(Xml.FloatOr(children[n], "x", 0.0), Xml.FloatOr(children[n], "y", 0.0))])[..|s.vertices|]
          == before.vertices[..|s.vertices|];
      ProcessPolyItem(before, children[n]).0
  }

  datatype BodyDef = BodyDef(position: Geometry.Vec2, angle: real, linearDamping: real, angularDamping: real,
                             allowSleep: bool, isSleeping: bool, fixedRotation: bool, isBullet: bool)

  /** The engine's default body definition. */
  const DefaultBody := BodyDef(Geometry.Zero, 0.0, 0.0, 0.0, true, false, false, false)

  /** The part of a joint definition every kind shares: the names of its two bodies (0 for
      the entity itself) and whether the connected bodies collide with each other. */
  datatype JointCommon = JointCommon(name1: nat, name2: nat, collide: bool)

  datatype RevoluteDef = RevoluteDef(anchor1: Geometry.Vec2, anchor2: Geometry.Vec2, referenceAngle: real,
                                     lowerAngle: real, upperAngle: real, enableLimit: bool,
                                     maxMotorTorque: real, motorSpeed: real, enableMotor: bool)
  datatype PrismaticDef = PrismaticDef(anchor1: Geometry.Vec2, anchor2: Geometry.Vec2, axis: Geometry.Vec2, referenceAngle: real,
                                       lowerTranslation: real, upperTranslation: real, enableLimit: bool,
                                       maxMotorForce: real, motorSpeed: real, enableMotor: bool)
  datatype DistanceDef = DistanceDef(anchor1: Geometry.Vec2, anchor2: Geometry.Vec2)
  datatype PulleyDef = PulleyDef(ground1: Geometry.Vec2, ground2: Geometry.Vec2, anchor1: Geometry.Vec2, anchor2: Geometry.Vec2,
                                 maxLength1: real, maxLength2: real, ratio: real)
  datatype MouseDef = MouseDef(target: Geometry.Vec2, maxForce: real, frequencyHz: real, dampingRatio: real, timeStep: real)

  datatype JointDef =
    | Revolute(revolute: RevoluteDef)
    | Prismatic(prismatic: PrismaticDef)
    | Distance(distance: DistanceDef)
    | Pulley(pulley: PulleyDef)
    | Mouse(mouse: MouseDef)

  /** The engine's default definition of each joint kind. */
  const DefaultRevolute := RevoluteDef(Geometry.Zero, Geometry.Zero, 0.0, 0.0, 0.0, false, 0.0, 0.0, false)
  const DefaultPrismatic := PrismaticDef(Geometry.Zero, Geometry.Zero, Geometry.Vec2(1.0, 0.0), 0.0, 0.0, 0.0, false, 0.0, 0.0, false)
  const DefaultDistance := DistanceDef(Geometry.Zero, Geometry.Zero)
  const DefaultPulley := PulleyDef(Geometry.Vec2(-1.0, 1.0), Geometry.Vec2(1.0, 1.0), Geometry.Vec2(-1.0, 0.0), Geometry.Vec2(1.0, 0.0),
                                   0.0, 0.0, 1.0)
  const DefaultMouse := MouseDef(Geometry.Zero, 0.0, 5.0, 0.7, 1.0 / 60.0)

  datatype JointTemplate = JointTemplate(common: JointCommon, def: JointDef)

  /** A point read from "x" and "y", each kept when absent. */
  function PointOr(e: Xml.Element, p: Geometry.Vec2): (q: Geometry.Vec2)
    ensures q.x == Xml.QueryFloat(e, "x").GetOr(p.x) && q.y == Xml.QueryFloat(e, "y").GetOr(p.y)
  {
    Geometry.Vec2(Xml.FloatOr(e, "x", p.x), Xml.FloatOr(e, "y", p.y))
  }

  /** CollidableTemplate::ProcessJointItem: the items every joint kind accepts. A body name
      is the hash of its "name", or 0 when there is none. */
  function ProcessJointItem(c: JointCommon, e: Xml.Element): (r: (JointCommon, bool))
    ensures r.1 <==> e.tag in {"body1", "body2", "collideconnected"}
    ensures e.tag == "body1" ==> r.0 == c.(name1 := if "name" in e.attrs then e.attrs["name"].key else 0)
    ensures e.tag == "body2" ==> r.0 == c.(name2 := if "name" in e.attrs then e.attrs["name"].key else 0)
    ensures e.tag == "collideconnected" ==>
              r.0 == c.(collide := match Xml.QueryInt(e, "value") case Some(v) => v != 0 case None => c.collide)
    ensures !r.1 ==> r.0 == c
  {
    match e.tag
    case "body1" => (c.(name1 := Xml.HashAttr(e, "name")), true)
    case "body2" => (c.(name2 := Xml.HashAttr(e, "name")), true)
    case "collideconnected" => (c.(collide := Xml.IntFlagOr(e, "value", c.collide)), true)
    case _ => (c, false)
  }

  /** CollidableTemplate::ProcessRevoluteJointItem. Angles are in degrees and converted only
      when present; a <limit> or <motor> element enables the limit or motor even with no
      values. */
  function ProcessRevoluteItem(c: JointCommon, d: RevoluteDef, e: Xml.Element): (r: (JointCommon, RevoluteDef, bool))
    ensures e.tag == "angle" ==> r.1 == d.(referenceAngle := Xml.AngleOr(e, "value", d.referenceAngle))
    ensures e.tag == "limit" ==> r.1 == d.(lowerAngle := Xml.AngleOr(e, "lower", d.lowerAngle),
                                          upperAngle := Xml.AngleOr(e, "upper", d.upperAngle), enableLimit := true)
    ensures e.tag == "motor" ==> r.1 == d.(maxMotorTorque := Xml.QueryFloat(e, "torque").GetOr(d.maxMotorTorque),
                                          motorSpeed := Xml.AngleOr(e, "speed", d.motorSpeed), enableMotor := true)
    ensures e.tag in {"anchor1", "anchor2", "angle", "limit", "motor"} ==> r.0 == c && r.2
    ensures e.tag !in {"anchor1", "anchor2", "angle", "limit", "motor"} ==> r.1 == d && (r.0, r.2) == ProcessJointItem(c, e)
  {
    match e.tag
    case "anchor1" => (c, d.(anchor1 := PointOr(e, d.anchor1)), true)
    case "anchor2" => (c, d.(anchor2 := PointOr(e, d.anchor2)), true)
    case "angle" => (c, d.(referenceAngle := Xml.AngleOr(e, "value", d.referenceAngle)), true)
    case "limit" =>
      (c, d.(lowerAngle := Xml.AngleOr(e, "lower", d.lowerAngle), upperAngle := Xml.AngleOr(e, "upper", d.upperAngle),
             enableLimit := true), true)
    case "motor" =>
      (c, d.(maxMotorTorque := Xml.FloatOr(e, "torque", d.maxMotorTorque), motorSpeed := Xml.AngleOr(e, "speed", d.motorSpeed),
             enableMotor := true), true)
    case _ => var (c', h) := ProcessJointItem(c, e); (c', d, h)
  }

  /** CollidableTemplate::ProcessPrismaticJointItem: as the revolute one, with an axis, and
      limits and speed as plain numbers rather than angles. */
  function ProcessPrismaticItem(c: JointCommon, d: PrismaticDef, e: Xml.Element): (r: (JointCommon, PrismaticDef, bool))
    ensures e.tag == "axis" ==> r.1 == d.(axis := PointOr(e, d.axis))
    ensures e.tag == "limit" ==> r.1 == d.(lowerTranslation := Xml.QueryFloat(e, "lower").GetOr(d.lowerTranslation),
                                          upperTranslation := Xml.QueryFloat(e, "upper").GetOr(d.upperTranslation), enableLimit := true)
    ensures e.tag == "motor" ==> r.1 == d.(maxMotorForce := Xml.QueryFloat(e, "force").GetOr(d.maxMotorForce),
                                          motorSpeed := Xml.QueryFloat(e, "speed").GetOr(d.motorSpeed), enableMotor := true)
    ensures e.tag in {"anchor1", "anchor2", "axis", "angle", "limit", "motor"} ==> r.0 == c && r.2
    ensures e.tag !in {"anchor1", "anchor2", "axis", "angle", "limit", "motor"} ==> r.1 == d && (r.0, r.2) == ProcessJointItem(c, e)
  {
    match e.tag
    case "anchor1" => (c, d.(anchor1 := PointOr(e, d.anchor1)), true)
    case "anchor2" => (c, d.(anchor2 := PointOr(e, d.anchor2)), true)
    case "axis" => (c, d.(axis := PointOr(e, d.axis)), true)
    case "angle" => (c, d.(referenceAngle := Xml.AngleOr(e, "value", d.referenceAngle)), true)
    case "limit" =>
      (c, d.(lowerTranslation := Xml.FloatOr(e, "lower", d.lowerTranslation),
             upperTranslation := Xml.FloatOr(e, "upper", d.upperTranslation), enableLimit := true), true)
    case "motor" =>
      (c, d.(maxMotorForce := Xml.FloatOr(e, "force", d.maxMotorForce), motorSpeed := Xml.FloatOr(e, "speed", d.motorSpeed),
             enableMotor := true), true)
    case _ => var (c', h) := ProcessJointItem(c, e); (c', d, h)
  }

  /** CollidableTemplate::ProcessDistanceJointItem: the two anchors. */
  function ProcessDistanceItem(c: JointCommon, d: DistanceDef, e: Xml.Element): (r: (JointCommon, DistanceDef, bool))
    ensures e.tag == "anchor1" ==> r == (c, d.(anchor1 := PointOr(e, d.anchor1)), true)
    ensures e.tag == "anchor2" ==> r == (c, d.(anchor2 := PointOr(e, d.anchor2)), true)
    ensures e.tag !in {"anchor1", "anchor2"} ==> r.1 == d && (r.0, r.2) == ProcessJointItem(c, e)
  {
    match e.tag
    case "anchor1" => (c, d.(anchor1 := PointOr(e, d.anchor1)), true)
    case "anchor2" => (c, d.(anchor2 := PointOr(e, d.anchor2)), true)
    case _ => var (c', h) := ProcessJointItem(c, e); (c', d, h)
  }

  /** CollidableTemplate::ProcessPulleyJointItem: ground and body anchors, maximum lengths, ratio. */
  function ProcessPulleyItem(c: JointCommon, d: PulleyDef, e: Xml.Element): (r: (JointCommon, PulleyDef, bool))
    ensures e.tag == "ratio" ==> r.1 == d.(ratio := Xml.QueryFloat(e, "value").GetOr(d.ratio))
    ensures e.tag == "length1" ==> r.1 == d.(maxLength1 := Xml.QueryFloat(e, "max").GetOr(d.maxLength1))
    ensures e.tag == "length2" ==> r.1 == d.(maxLength2 := Xml.QueryFloat(e, "max").GetOr(d.maxLength2))
    ensures e.tag in {"ground1", "ground2", "anchor1", "anchor2", "length1", "length2", "ratio"} ==> r.0 == c && r.2
    ensures e.tag !in {"ground1", "ground2", "anchor1", "anchor2", "length1", "length2", "ratio"} ==>
              r.1 == d && (r.0, r.2) == ProcessJointItem(c, e)
  {
    match e.tag
    case "ground1" => (c, d.(ground1 := PointOr(e, d.ground1)), true)
    case "ground2" => (c, d.(ground2 := PointOr(e, d.ground2)), true)
    case "anchor1" => (c, d.(anchor1 := PointOr(e, d.anchor1)), true)
    case "anchor2" => (c, d.(anchor2 := PointOr(e, d.anchor2)), true)
    case "length1" => (c, d.(maxLength1 := Xml.FloatOr(e, "max", d.maxLength1)), true)
    case "length2" => (c, d.(maxLength2 := Xml.FloatOr(e, "max", d.maxLength2)), true)
    case "ratio" => (c, d.(ratio := Xml.FloatOr(e, "value", d.ratio)), true)
    case _ => var (c', h) := ProcessJointItem(c, e); (c', d, h)
  }

  /** CollidableTemplate::ProcessMouseJointItem: target, maximum force and tuning. */
  function ProcessMouseItem(c: JointCommon, d: MouseDef, e: Xml.Element): (r: (JointCommon, MouseDef, bool))
    ensures e.tag == "force" ==> r.1 == d.(maxForce := Xml.QueryFloat(e, "max").GetOr(d.maxForce))
    ensures e.tag == "tuning" ==> r.1 == d.(frequencyHz := Xml.QueryFloat(e, "frequency").GetOr(d.frequencyHz),
                                           dampingRatio := Xml.QueryFloat(e, "damping").GetOr(d.dampingRatio),
                                           timeStep := Xml.QueryFloat(e, "timestep").GetOr(d.timeStep))
    ensures e.tag in {"target", "force", "tuning"} ==> r.0 == c && r.2
    ensures e.tag !in {"target", "force", "tuning"} ==> r.1 == d && (r.0, r.2) == ProcessJointItem(c, e)
  {
    match e.tag
    case "target" => (c, d.(target := PointOr(e, d.target)), true)
    case "force" => (c, d.(maxForce := Xml.FloatOr(e, "max", d.maxForce)), true)
    case "tuning" =>
      (c, d.(frequencyHz := Xml.FloatOr(e, "frequency", d.frequencyHz), dampingRatio := Xml.FloatOr(e, "damping", d.dampingRatio),
             timeStep := Xml.FloatOr(e, "timestep", d.timeStep)), true)
    case _ => var (c', h) := ProcessJointItem(c, e); (c', d, h)
  }

  /** One joint item, dispatched on the joint's kind; the kind never changes. */
  function ProcessJointKindItem(j: JointTemplate, e: Xml.Element): (r: JointTemplate)
    ensures r.def.Revolute? == j.def.Revolute? && r.def.Prismatic? == j.def.Prismatic? &&
            r.def.Distance? == j.def.Distance? && r.def.Pulley? == j.def.Pulley? && r.def.Mouse? == j.def.Mouse?
  {
    match j.def
    case Revolute(d) => var (c, d', _) := ProcessRevoluteItem(j.common, d, e); JointTemplate(c, Revolute(d'))
    case Prismatic(d) => var (c, d', _) := ProcessPrismaticItem(j.common, d, e); JointTemplate(c, Prismatic(d'))
    case Distance(d) => var (c, d', _) := ProcessDistanceItem(j.common, d, e); JointTemplate(c, Distance(d'))
    case Pulley(d) => var (c, d', _) := ProcessPulleyItem(j.common, d, e); JointTemplate(c, Pulley(d'))
    case Mouse(d) => var (c, d', _) := ProcessMouseItem(j.common, d, e); JointTemplate(c, Mouse(d'))
  }

  /** Configure<Kind>Joint: every child in document order. The joint's kind never changes,
      and without <body1> and <body2> children it keeps its body names (so a new joint
      connects the entity to itself). */
  function ConfigureJoint(j: JointTemplate, children: seq<Xml.Element>): (r: JointTemplate)
    ensures r.def.Revolute? == j.def.Revolute? && r.def.Prismatic? == j.def.Prismatic? &&
            r.def.Distance? == j.def.Distance? && r.def.Pulley? == j.def.Pulley? && r.def.Mouse? == j.def.Mouse?
    ensures (forall i :: 0 <= i < |children| ==> children[i].tag !in {"body1", "body2"}) ==>
              r.common.name1 == j.common.name1 && r.common.name2 == j.common.name2
    decreases |children|
  {
    if children == [] then j
    else
      var n := |children| - 1;
      assert forall i :: 0 <= i < n ==> children[..n][i] == children[i];
      var before := ConfigureJoint(j, children[..n]);
      JointItemKeepsNames(before, children[n]);
      ProcessJointKindItem(before, children[n])
  }

  /** A joint child other than <body1> and <body2> leaves the body names alone. */
  lemma JointItemKeepsNames(j: JointTemplate, e: Xml.Element)
    ensures e.tag !in {"body1", "body2"} ==>
              ProcessJointKindItem(j, e).common.name1 == j.common.name1 && ProcessJointKindItem(j, e).common.name2 == j.common.name2
  {
  }

  /** The new joint of each joint element tag (pulleys collide with their bodies by default). */
  function JointOfTag(tag: string): (r: Option<JointTemplate>)
    ensures r.Some? <==> tag in {"revolutejoint", "prismaticjoint", "distancejoint", "pulleyjoint", "mousejoint"}
    ensures r.Some? ==> r.value.common.name1 == 0 && r.value.common.name2 == 0
  {
    match tag
    case "revolutejoint" => Some(JointTemplate(JointCommon(0, 0, false), Revolute(DefaultRevolute)))
    case "prismaticjoint" => Some(JointTemplate(JointCommon(0, 0, false), Prismatic(DefaultPrismatic)))
    case "distancejoint" => Some(JointTemplate(JointCommon(0, 0, false), Distance(DefaultDistance)))
    case "pulleyjoint" => Some(JointTemplate(JointCommon(0, 0, true), Pulley(DefaultPulley)))
    case "mousejoint" => Some(JointTemplate(JointCommon(0, 0, false), Mouse(DefaultMouse)))
    case _ => None
  }

  /** A collidable template: identifier, body definition, shapes by sub-id and joints in order. */
  datatype Template = Template(id: nat, body: BodyDef, circles: map<nat, ShapeDef>, polygons: map<nat, ShapeDef>,
                               joints: seq<JointTemplate>)

  const EmptyTemplate := Template(0, DefaultBody, map[], map[], [])

  /** Shape sub-ids 1..n in declaration order: count + 1 is the next free one. */
  predicate Numbered(store: map<nat, ShapeDef>) {
    forall k :: k in store ==> 1 <= k <= |store|
  }

  /** Storing under count + 1 in a numbered store adds a shape and keeps it numbered. */
  lemma NextShapeFresh(store: map<nat, ShapeDef>, s: ShapeDef)
    requires Numbered(store)
    ensures |store| + 1 !in store
    ensures |store[|store| + 1 := s]| == |store| + 1 && Numbered(store[|store| + 1 := s])
  {
  }

  /** CollidableTemplate::ProcessBodyItem: one child of <body>. Sleep and motion flags are
      integers compared with zero; each shape goes to sub-id count + 1. */
  function ProcessBodyItem(rd: Collidable.Reading, t: Template, e: Xml.Element): (r: (Template, bool))
    ensures r.1 <==> e.tag in {"position", "damping", "allowsleep", "startsleep", "fixedrotation", "fast", "circle", "box", "poly"}
    ensures r.0.id == t.id && r.0.joints == t.joints
    ensures e.tag == "circle" ==> r.0 == t.(circles := t.circles[|t.circles| + 1 := ConfigureCircle(e)])
    ensures e.tag == "box" ==> r.0 == t.(polygons := t.polygons[|t.polygons| + 1 := ConfigureBox(rd, e)])
    ensures e.tag == "poly" ==> r.0 == t.(polygons := t.polygons[|t.polygons| + 1 := ConfigurePoly(PolygonDef(DefaultCommon, []), e.children)])
    ensures e.tag == "startsleep" ==>
              r.0 == t.(body := t.body.(isSleeping := match Xml.QueryInt(e, "value") case Some(v) => v != 0 case None => t.body.isSleeping))
    ensures e.tag == "position" ==> (r.0.body.angle == Xml.AngleOr(e, "angle", t.body.angle) &&
               r.0.circles == t.circles && r.0.polygons == t.polygons)
    ensures e.tag !in {"circle", "box", "poly"} ==> r.0.circles == t.circles && r.0.polygons == t.polygons
    ensures !r.1 ==> r.0 == t
  {
    var b := t.body;
    match e.tag
    case "position" =>
      (t.(body := b.(position := PointOr(e, b.position), angle := Xml.AngleOr(e, "angle", b.angle))), true)
    case "damping" =>
      (t.(body := b.(linearDamping := Xml.FloatOr(e, "linear", b.linearDamping),
                     angularDamping := Xml.FloatOr(e, "angular", b.angularDamping))), true)
    case "allowsleep" => (t.(body := b.(allowSleep := Xml.IntFlagOr(e, "value", b.allowSleep))), true)
    case "startsleep" => (t.(body := b.(isSleeping := Xml.IntFlagOr(e, "value", b.isSleeping))), true)
    case "fixedrotation" => (t.(body := b.(fixedRotation := Xml.IntFlagOr(e, "value", b.fixedRotation))), true)
    case "fast" => (t.(body := b.(isBullet := Xml.IntFlagOr(e, "value", b.isBullet))), true)
    case "circle" => (t.(circles := t.circles[|t.circles| + 1 := ConfigureCircle(e)]), true)
    case "box" => (t.(polygons := t.polygons[|t.polygons| + 1 := ConfigureBox(rd, e)]), true)
    case "poly" => (t.(polygons := t.polygons[|t.polygons| + 1 := ConfigurePoly(PolygonDef(DefaultCommon, []), e.children)]), true)
    case _ => (t, false)
  }

  /** CollidableTemplate::ConfigureBody: every child of <body> in document order; a body
      never changes the joints or the identifier. */
  function ConfigureBody(rd: Collidable.Reading, t: Template, children: seq<Xml.Element>): (r: Template)
    ensures r.joints == t.joints && r.id == t.id
    ensures (forall i :: 0 <= i < |children| ==> children[i].tag !in {"circle", "box", "poly"}) ==>
              r.circles == t.circles && r.polygons == t.polygons
    decreases |children|
  {
    if children == [] then t
    else
      var n := |children| - 1;
      assert forall i :: 0 <= i < n ==> children[..n][i] == children[i];
      ProcessBodyItem(rd, ConfigureBody(rd, t, children[..n]), children[n]).0
  }

  /** Body items keep the shape stores numbered: no shape ever replaces an earlier one. */
  lemma {:induction false} ConfigureBodyKeepsNumbering(rd: Collidable.Reading, t: Template, children: seq<Xml.Element>)
    requires Numbered(t.circles) && Numbered(t.polygons)
    ensures var r := ConfigureBody(rd, t, children);
            Numbered(r.circles) && Numbered(r.polygons) &&
            t.circles.Keys <= r.circles.Keys && t.polygons.Keys <= r.polygons.Keys &&
            |r.circles| + |r.polygons| <= |t.circles| + |t.polygons| + |children|
    decreases |children|
  {
    if children != [] {
      var n := |children| - 1;
      ConfigureBodyKeepsNumbering(rd, t, children[..n]);
      BodyItemKeepsNumbering(rd, ConfigureBody(rd, t, children[..n]), children[n]);
    }
  }

  /** One body item adds at most one shape, under the next free sub-id. */
  lemma BodyItemKeepsNumbering(rd: Collidable.Reading, m: Template, e: Xml.Element)
    requires Numbered(m.circles) && Numbered(m.polygons)
    ensures var r := ProcessBodyItem(rd, m, e).0;
            Numbered(r.circles) && Numbered(r.polygons) &&
            m.circles.Keys <= r.circles.Keys && m.polygons.Keys <= r.polygons.Keys &&
            |r.circles| + |r.polygons| <= |m.circles| + |m.polygons| + 1
  {
    if e.tag == "circle" { NextShapeFresh(m.circles, ConfigureCircle(e)); }
    else if e.tag == "box" { NextShapeFresh(m.polygons, ConfigureBox(rd, e)); }
    else if e.tag == "poly" { NextShapeFresh(m.polygons, ConfigurePoly(PolygonDef(DefaultCommon, []), e.children)); }
  }

  /** The children of <collidable> in document order: <body> configures the body, each joint
      element appends one joint, anything else (including <gearjoint>) is ignored. No child
      changes the identifier, and without joint elements the joints stay as they were. */
  function ConfigureItems(rd: Collidable.Reading, t: Template, children: seq<Xml.Element>): (r: Template)
    ensures r.id == t.id
    ensures (forall i :: 0 <= i < |children| ==> JointOfTag(children[i].tag).None?) ==> r.joints == t.joints
    decreases |children|
  {
    if children == [] then t
    else
      var n := |children| - 1;
      assert forall i :: 0 <= i < n ==> children[..n][i] == children[i];
      var before := ConfigureItems(rd, t, children[..n]);
      var c := children[n];
      if c.tag == "body" then ConfigureBody(rd, before, c.children)
      else match JointOfTag(c.tag)
        case Some(j) => before.(joints := before.joints + [ConfigureJoint(j, c.children)])
        case None => before
  }

  /** The number of joint elements among some children. */
  function JointElements(children: seq<Xml.Element>): (n: nat)
    ensures n <= |children|
    decreases |children|
  {
    if children == [] then 0
    else JointElements(children[..|children| - 1]) + (if JointOfTag(children[|children| - 1].tag).Some? then 1 else 0)
  }

  /** Each joint element adds exactly one joint, after those already there. */
  lemma {:induction false} OneJointPerElement(rd: Collidable.Reading, t: Template, children: seq<Xml.Element>)
    ensures |ConfigureItems(rd, t, children).joints| == |t.joints| + JointElements(children)
    ensures ConfigureItems(rd, t, children).joints[..|t.joints|] == t.joints
    decreases |children|
  {
    if children != [] {
      var n := |children| - 1;
      OneJointPerElement(rd, t, children[..n]);
      var before := ConfigureItems(rd, t, children[..n]);
      var c := children[n];
      if c.tag != "body" && JointOfTag(c.tag).Some? {
        assert (before.joints + [ConfigureJoint(JointOfTag(c.tag).value, c.children)])[..|t.joints|]
            == before.joints[..|t.joints|];
      }
    }
  }

  /** CollidableTemplate::Configure: only a <collidable> element is accepted; it records the
      identifier and configures the children in order. */
  function Configure(rd: Collidable.Reading, t: Template, e: Xml.Element, id: nat): (r: Option<Template>)
    ensures r.Some? <==> e.tag == "collidable"
    ensures r.Some? ==> r.value.id == id
    ensures r.Some? ==> |r.value.joints| == |t.joints| + JointElements(e.children) && r.value.joints[..|t.joints|] == t.joints
  {
    if e.tag != "collidable" then None
    else
      OneJointPerElement(rd, t.(id := id), e.children);
      Some(ConfigureItems(rd, t.(id := id), e.children))
  }

  /** The back-link body name: Hash("backlink"). */
  const BacklinkName: nat := 0xe3736e9a

  /** CollidableTemplate::SetupLinkJoint: a revolute joint from the entity to its secondary,
      anchored at the link offset on the first body and the origin of the second, at the
      offset's angle; a link that holds its angle gets a zero-width enabled limit. */
  function SetupLinkJoint(t: Template, offset: Geometry.Vec2, offsetAngle: real, updateAngle: bool, id: nat, secondary: nat)
    : (r: Template)
    ensures |r.joints| == |t.joints| + 1 && r == t.(joints := r.joints) && r.joints[..|t.joints|] == t.joints
    ensures var j := r.joints[|t.joints|];
            j.common.name1 == id && j.common.name2 == secondary && j.def.Revolute? &&
            j.def.revolute.anchor1 == offset && j.def.revolute.anchor2 == Geometry.Zero &&
            j.def.revolute.referenceAngle == offsetAngle &&
            (j.def.revolute.enableLimit <==> updateAngle) &&
            (updateAngle ==> j.def.revolute.lowerAngle == 0.0 && j.def.revolute.upperAngle == 0.0)
  {
    var d := DefaultRevolute.(anchor1 := offset, anchor2 := Geometry.Zero, referenceAngle := offsetAngle);
    var d' := if updateAngle then d.(lowerAngle := 0.0, upperAngle := 0.0, enableLimit := true) else d;
    t.(joints := t.joints + [JointTemplate(JointCommon(id, secondary, false), Revolute(d'))])
  }

  /** The entity a joint end names: "backlink" is the entity's spawner, and 0 (also a
      missing spawner) is the entity itself. */
  function ResolveEnd(name: nat, id: nat, bl: Links.BackLinks): (r: nat)
    ensures name == BacklinkName && Links.Parent(bl, id) != 0 ==> r == Links.Parent(bl, id)
    ensures name == 0 || (name == BacklinkName && Links.Parent(bl, id) == 0) ==> r == id
    ensures name != 0 && name != BacklinkName ==> r == name
  {
    var n := if name == BacklinkName then Links.Parent(bl, id) else name;
    if n != 0 then n else id
  }

  /** The live collidables: for each, whether its body exists. */
  type Bodies = map<nat, bool>

  predicate HasBody(bodies: Bodies, id: nat) {
    id in bodies && bodies[id]
  }

  /** CollidableTemplate::SetupJointDef: the two bodies a joint connects, or None when either
      end has no collidable or no body. */
  function SetupJointDef(j: JointTemplate, id: nat, bl: Links.BackLinks, bodies: Bodies): (r: Option<(nat, nat)>)
    ensures r.Some? <==> HasBody(bodies, ResolveEnd(j.common.name1, id, bl)) && HasBody(bodies, ResolveEnd(j.common.name2, id, bl))
    ensures r.Some? ==> r.value == (ResolveEnd(j.common.name1, id, bl), ResolveEnd(j.common.name2, id, bl))
  {
    var id1 := ResolveEnd(j.common.name1, id, bl);
    if !HasBody(bodies, id1) then None
    else
      var id2 := ResolveEnd(j.common.name2, id, bl);
      if !HasBody(bodies, id2) then None
      else Some((id1, id2))
  }

  /** A link joint between two live bodies always connects exactly those two. */
  lemma LinkJointConnects(t: Template, offset: Geometry.Vec2, a: real, u: bool, id: nat, secondary: nat,
                          entity: nat, bl: Links.BackLinks, bodies: Bodies)
    requires id != 0 && secondary != 0 && id != BacklinkName && secondary != BacklinkName
    requires HasBody(bodies, id) && HasBody(bodies, secondary)
    ensures var j := SetupLinkJoint(t, offset, a, u, id, secondary).joints[|t.joints|];
            SetupJointDef(j, entity, bl, bodies) == Some((id, secondary))
  {
  }

  /** The joints Collidable::AddToWorld creates: those of the template whose ends resolve,
      in template order. */
  function JointsCreated(joints: seq<JointTemplate>, id: nat, bl: Links.BackLinks, bodies: Bodies): (r: seq<(nat, nat)>)
    ensures |r| <= |joints|
    ensures forall k :: 0 <= k < |r| ==> HasBody(bodies, r[k].0) && HasBody(bodies, r[k].1)
    ensures (forall i :: 0 <= i < |joints| ==> SetupJointDef(joints[i], id, bl, bodies).Some?) ==> |r| == |joints|
    decreases |joints|
  {
    if joints == [] then []
    else
      var n := |joints| - 1;
      var before := JointsCreated(joints[..n], id, bl, bodies);
      assert forall i :: 0 <= i < n ==> joints[..n][i] == joints[i];
      match SetupJointDef(joints[n], id, bl, bodies)
      case Some(p) => before + [p]
      case None => before
  }

  /** The body Collidable::AddToWorld creates: the template's definition placed at the
      entity's position and angle when there is an entity. */
  function BodyForWorld(def: BodyDef, entity: Option<(Geometry.Vec2, real)>): (b: BodyDef)
    ensures entity.Some? ==> b == def.(position := entity.value.0, angle := entity.value.1)
    ensures entity.None? ==> b == def
  {
    match entity
    case Some((p, a)) => def.(position := p, angle := a)
    case None => def
  }

  /** The records the initializer keeps: live collidables (whether each has a body) and
      contact-add signals. */
  datatype Stores = Stores(collidables: Bodies, contactAdd: set<nat>)

  /** CollidableInitializer::Activate: a new collidable whose body is created at once. */
  function Activate(s: Stores, id: nat): (s': Stores)
    ensures HasBody(s'.collidables, id)
    ensures forall k :: k != id ==> (k in s'.collidables <==> k in s.collidables)
    ensures s'.contactAdd == s.contactAdd
  {
    s.(collidables := s.collidables[id := true])
  }

  /** CollidableInitializer::Deactivate: when a collidable exists its body goes and its
      record and contact-add record are deleted; otherwise nothing changes. */
  function Deactivate(s: Stores, id: nat): (s': Stores)
    ensures id !in s.collidables ==> s' == s
    ensures id in s.collidables ==> (id !in s'.collidables && id !in s'.contactAdd &&
               s'.collidables == s.collidables - {id} && s'.contactAdd == s.contactAdd - {id})
  {
    if id in s.collidables then Stores(s.collidables - {id}, s.contactAdd - {id}) else s
  }

  /** Deactivating after activating removes the collidable and its contact signal. */
  lemma ActivateDeactivate(s: Stores, id: nat)
    ensures Deactivate(Activate(s, id), id) == Stores(s.collidables - {id}, s.contactAdd - {id})
    ensures id !in s.collidables && id !in s.contactAdd ==> Deactivate(Activate(s, id), id) == s
  {
    assert Activate(s, id).collidables - {id} == s.collidables - {id};
  }
}

=== FILE: collidable_world.dfy ===
/** A collidable in the physics world (tinyxml2 generation): the body definition created
    when the entity enters the world, the records removed when it leaves, and the segment
    test with the engine's ray-cast protocol stated as a function of the candidates it
    reports. The engine's own broad phase and shape tests are not modelled. */
module CollidableWorld {
  import opened Base
  import opened Collidable
  import Geometry
  import Filter
  import MathUtil

  /** What the entity contributes when its body enters the world. */
  datatype Motion = Motion(position: Geometry.Vec2, angle: real, velocity: Geometry.Vec2, omega: real)

  /** Whether any circle or polygon fixture has positive density (edges and chains do not count). */
  predicate HasMass(shapes: Shapes) {
    (exists k :: k in shapes.circles && shapes.circles[k].fixture.density > 0.0) ||
    (exists k :: k in shapes.polygons && shapes.polygons[k].fixture.density > 0.0)
  }

  /** The body definition Collidable::AddToWorld creates: the template's, placed and moving
      as the entity (when there is one), with an automatic type resolved. */
  function BodyForWorld(def: BodyDef, entity: Option<Motion>, shapes: Shapes): (b: BodyDef)
    // an explicit type is never changed
    ensures def.bodyType != Auto ==> b.bodyType == def.bodyType
    // an automatic body is dynamic when it has mass
    ensures def.bodyType == Auto && HasMass(shapes) ==> b.bodyType == Dynamic
    // otherwise kinematic when it moves, static when it does not
    ensures def.bodyType == Auto && !HasMass(shapes) ==>
              (b.bodyType == Kinematic <==> Geometry.LengthSq(b.linearVelocity) > 0.0 || b.angularVelocity != 0.0)
    ensures def.bodyType == Auto ==> b.bodyType != Auto
    ensures entity.Some? ==> b.position == entity.value.position && b.angle == entity.value.angle &&
                             b.linearVelocity == entity.value.velocity && b.angularVelocity == entity.value.omega
    ensures entity.None? ==> b == def.(bodyType := b.bodyType)
  {
    var placed := match entity
      case Some(m) => def.(position := m.position, angle := m.angle, linearVelocity := m.velocity, angularVelocity := m.omega)
      case None => def;
    if placed.bodyType != Auto then placed
    else
      var moving := Geometry.LengthSq(placed.linearVelocity) > 0.0 || MathUtil.Abs(placed.angularVelocity) > 0.0;
      var t := if HasMass(shapes) then Dynamic else if moving then Kinematic else Static;
      placed.(bodyType := t)
  }

  /** The stores RemoveFromWorld touches: body records and the two contact signal records. */
  datatype WorldStores = WorldStores(bodies: map<nat, BodyDef>, contactAdd: set<nat>, contactRemove: set<nat>)

  /** Collidable::AddToWorld's record keeping: the created body is stored under the id. */
  function AddToWorld(s: WorldStores, id: nat, def: BodyDef, entity: Option<Motion>, shapes: Shapes): (s': WorldStores)
    ensures id in s'.bodies && s'.bodies[id] == BodyForWorld(def, entity, shapes)
    ensures s'.bodies - {id} == s.bodies - {id}
    ensures s'.contactAdd == s.contactAdd && s'.contactRemove == s.contactRemove
  {
    s.(bodies := s.bodies[id := BodyForWorld(def, entity, shapes)])
  }

  /** Collidable::RemoveFromWorld: the body is destroyed when there is one; the body record
      and both contact records for the id go in every case. Returns whether a body was destroyed. */
  function RemoveFromWorld(s: WorldStores, id: nat): (r: (WorldStores, bool))
    ensures r.1 <==> id in s.bodies
    ensures id !in r.0.bodies && id !in r.0.contactAdd && id !in r.0.contactRemove
    ensures r.0.bodies - {id} == s.bodies - {id}
    ensures r.0.contactAdd - {id} == s.contactAdd - {id} && r.0.contactRemove - {id} == s.contactRemove - {id}
  {
    (WorldStores(s.bodies - {id}, s.contactAdd - {id}, s.contactRemove - {id}), id in s.bodies)
  }

  /** Removing after adding restores the stores of an entity that had none. */
  lemma AddRemove(s: WorldStores, id: nat, def: BodyDef, entity: Option<Motion>, shapes: Shapes)
    requires id !in s.bodies && id !in s.contactAdd && id !in s.contactRemove
    ensures RemoveFromWorld(AddToWorld(s, id, def, entity, shapes), id) == (s, true)
  {
    assert AddToWorld(s, id, def, entity, shapes).bodies - {id} == s.bodies;
    assert s.contactAdd - {id} == s.contactAdd && s.contactRemove - {id} == s.contactRemove;
  }

  /** A fixture the engine meets along a segment, in the engine's order: the owning entity,
      where along the segment it is hit (0 at the start, 1 at the end), and its fixture data. */
  datatype Candidate = Candidate(id: nat, fraction: real, isSensor: bool, filter: Filter.FilterData)

  /** Whether the segment test may hit a fixture: not a sensor, passing the filter, and not
      belonging to the entity that asked. */
  predicate Hittable(c: Candidate, filter: Filter.FilterData, skip: nat) {
    !c.isSensor && Filter.CheckFilter(filter, c.filter) && c.id != skip
  }

  /** The state of a segment test: the hit so far, the engine's current clip fraction, and
      whether the callback stopped the cast. */
  datatype Cast = Cast(hitId: nat, hitFraction: real, clip: real, stopped: bool)

  /** No hit yet: entity 0 at the end of the segment. */
  const NoHit := Cast(0, 1.0, 1.0, false)

  /** The engine's side of a ray cast, for a callback that answers `ret` to the candidate it
      reports: it reports a candidate only while not stopped and when the candidate is no
      farther than the clip; an answer of 0 stops the cast, a positive answer becomes the
      new clip, a negative one leaves it. */
  function EngineStep(s: Cast, c: Candidate, hit: bool, ret: real): (s': Cast)
    ensures s.stopped || c.fraction > s.clip ==> s' == s
    ensures !s.stopped && c.fraction <= s.clip ==>
              (s'.stopped <==> ret == 0.0) && (ret > 0.0 ==> s'.clip == ret) && (ret < 0.0 ==> s'.clip == s.clip)
    ensures !s.stopped && c.fraction <= s.clip && hit ==> s'.hitId == c.id && s'.hitFraction == c.fraction
    ensures !hit ==> s'.hitId == s.hitId && s'.hitFraction == s.hitFraction
  {
    if s.stopped || c.fraction > s.clip then s
    else
      var s1 := if hit then s.(hitId := c.id, hitFraction := c.fraction) else s;
      if ret == 0.0 then s1.(stopped := true)
      else if ret > 0.0 then s1.(clip := ret)
      else s1
  }

  /** CollidableRayCast::ReportFixture as written: a skipped fixture answers 1, which lifts the
      clip back to the end of the segment. */
  function CastAsWritten(cs: seq<Candidate>, filter: Filter.FilterData, skip: nat): (r: Cast)
    // the cast stops only at a hittable fixture at the very start of the segment
    ensures r.stopped ==> exists i :: 0 <= i < |cs| && Hittable(cs[i], filter, skip) && cs[i].fraction == 0.0
    decreases |cs|
  {
    if cs == [] then NoHit
    else
      var n := |cs| - 1;
      assert forall i :: 0 <= i < n ==> cs[..n][i] == cs[i];
      var c := cs[n];
      var h := Hittable(c, filter, skip);
      EngineStep(CastAsWritten(cs[..n], filter, skip), c, h, if h then c.fraction else 1.0)
  }

  /** The callback with a skipped fixture answering -1 ("ignore and continue"). */
  function CastCorrected(cs: seq<Candidate>, filter: Filter.FilterData, skip: nat): (r: Cast)
    // the cast stops only at a hittable fixture at the very start of the segment
    ensures r.stopped ==> exists i :: 0 <= i < |cs| && Hittable(cs[i], filter, skip) && cs[i].fraction == 0.0
    decreases |cs|
  {
    if cs == [] then NoHit
    else
      var n := |cs| - 1;
      assert forall i :: 0 <= i < n ==> cs[..n][i] == cs[i];
      var c := cs[n];
      var h := Hittable(c, filter, skip);
      EngineStep(CastCorrected(cs[..n], filter, skip), c, h, if h then c.fraction else -1.0)
  }

  predicate InSegment(cs: seq<Candidate>) {
    forall i :: 0 <= i < |cs| ==> 0.0 <= cs[i].fraction <= 1.0
  }

  /** With skipped fixtures ignored, the segment test reports the nearest hittable fixture:
      its fraction is no larger than any hittable candidate's, and it is one of them (or no
      hit at the end of the segment when there is none). */
  lemma {:induction false} CastCorrectedFindsNearest(cs: seq<Candidate>, filter: Filter.FilterData, skip: nat)
    requires InSegment(cs)
    ensures var r := CastCorrected(cs, filter, skip);
            (!r.stopped ==> r.clip == r.hitFraction) && (r.stopped ==> r.hitFraction == 0.0) &&
            (forall i :: 0 <= i < |cs| && Hittable(cs[i], filter, skip) ==> r.hitFraction <= cs[i].fraction) &&
            ((r.hitId, r.hitFraction) == (0, 1.0) ||
             exists i :: 0 <= i < |cs| && Hittable(cs[i], filter, skip) && cs[i].id == r.hitId && cs[i].fraction == r.hitFraction)
    decreases |cs|
  {
    if cs != [] {
      var n := |cs| - 1;
      var pre := cs[..n];
      assert InSegment(pre) by {
        forall i | 0 <= i < n ensures 0.0 <= pre[i].fraction <= 1.0 { assert pre[i] == cs[i]; }
      }
      CastCorrectedFindsNearest(pre, filter, skip);
      var p := CastCorrected(pre, filter, skip);
      var r := CastCorrected(cs, filter, skip);
      forall i | 0 <= i < |cs| && Hittable(cs[i], filter, skip) ensures r.hitFraction <= cs[i].fraction {
        if i < n {
          assert pre[i] == cs[i];
        }
      }
      if (r.hitId, r.hitFraction) != (0, 1.0) {
        if (p.hitId, p.hitFraction) == (r.hitId, r.hitFraction) {
          var j :| 0 <= j < |pre| && Hittable(pre[j], filter, skip) && pre[j].id == p.hitId && pre[j].fraction == p.hitFraction;
          assert cs[j] == pre[j];
        } else {
          assert cs[n].id == r.hitId && cs[n].fraction == r.hitFraction && Hittable(cs[n], filter, skip);
        }
      }
    }
  }

  /** As written, a skipped fixture between two hits undoes the first: with candidates at
      0.3 (entity 5), 0.1 (the asking entity 9) and 0.6 (entity 7), the test reports entity 7
      at 0.6 where the nearest hit is entity 5 at 0.3. */
  lemma SkippedFixtureLosesNearestHit()
    ensures var f := Filter.DefaultFilter;
            var cs := [Candidate(5, 0.3, false, f), Candidate(9, 0.1, false, f), Candidate(7, 0.6, false, f)];
            var w := CastAsWritten(cs, f, 9);
            var c := CastCorrected(cs, f, 9);
            (w.hitId, w.hitFraction) == (7, 0.6) && (c.hitId, c.hitFraction) == (5, 0.3)
  {
    var f := Filter.DefaultFilter;
    Filter.DefaultFilterCollidesWithItself();
    var cs := [Candidate(5, 0.3, false, f), Candidate(9, 0.1, false, f), Candidate(7, 0.6, false, f)];
    assert cs[..2][..1] == cs[..1] && cs[..1][..0] == [];
    assert CastAsWritten(cs[..1], f, 9) == Cast(5, 0.3, 0.3, false);
    assert CastAsWritten(cs[..2], f, 9) == Cast(5, 0.3, 1.0, false);
    assert CastCorrected(cs[..1], f, 9) == Cast(5, 0.3, 0.3, false);
    assert CastCorrected(cs[..2], f, 9) == Cast(5, 0.3, 0.3, false);
  }

  /** As written, the segment test still reports no hit or one of the hittable candidates,
      and no hit when there is nothing to hit. */
  lemma {:induction false} CastAsWrittenReportsCandidate(cs: seq<Candidate>, filter: Filter.FilterData, skip: nat)
    ensures var r := CastAsWritten(cs, filter, skip);
            ((r.hitId, r.hitFraction) == (0, 1.0) ||
             exists i :: 0 <= i < |cs| && Hittable(cs[i], filter, skip) && cs[i].id == r.hitId && cs[i].fraction == r.hitFraction) &&
            ((forall i :: 0 <= i < |cs| ==> !Hittable(cs[i], filter, skip)) ==> (r.hitId, r.hitFraction) == (0, 1.0))
    decreases |cs|
  {
    if cs != [] {
      var n := |cs| - 1;
      var pre := cs[..n];
      CastAsWrittenReportsCandidate(pre, filter, skip);
      var p := CastAsWritten(pre, filter, skip);
      var r := CastAsWritten(cs, filter, skip);
      if (p.hitId, p.hitFraction) == (r.hitId, r.hitFraction) {
        if (r.hitId, r.hitFraction) != (0, 1.0) {
          var j :| 0 <= j < |pre| && Hittable(pre[j], filter, skip) && pre[j].id == p.hitId && pre[j].fraction == p.hitFraction;
          assert cs[j] == pre[j];
        }
        if forall i :: 0 <= i < |cs| ==> !Hittable(cs[i], filter, skip) {
          assert forall i :: 0 <= i < |pre| ==> pre[i] == cs[i];
        }
      } else {
        assert Hittable(cs[n], filter, skip) && cs[n].id == r.hitId && cs[n].fraction == r.hitFraction;
      }
    }
  }

  /** When no candidate is skipped, both callbacks answer alike, so both casts agree. */
  lemma {:induction false} CastsAgreeWhenAllHittable(cs: seq<Candidate>, filter: Filter.FilterData, skip: nat)
    requires forall i :: 0 <= i < |cs| ==> Hittable(cs[i], filter, skip)
    ensures CastAsWritten(cs, filter, skip) == CastCorrected(cs, filter, skip)
    decreases |cs|
  {
    if cs != [] {
      var n := |cs| - 1;
      assert forall i :: 0 <= i < n ==> cs[..n][i] == cs[i];
      CastsAgreeWhenAllHittable(cs[..n], filter, skip);
    }
  }

  /** With nothing to skip, the as-written cast finds the nearest candidate. */
  lemma AsWrittenNearestWithoutSkips(cs: seq<Candidate>, filter: Filter.FilterData, skip: nat)
    ensures InSegment(cs) && (forall i :: 0 <= i < |cs| ==> Hittable(cs[i], filter, skip)) ==>
              forall i :: 0 <= i < |cs| ==> CastAsWritten(cs, filter, skip).hitFraction <= cs[i].fraction
  {
    if InSegment(cs) && forall i :: 0 <= i < |cs| ==> Hittable(cs[i], filter, skip) {
      CastsAgreeWhenAllHittable(cs, filter, skip);
      CastCorrectedFindsNearest(cs, filter, skip);
    }
  }

  /** Collidable::TestSegment with the callback as written: the identifier of the entity hit
      (0 for none) and the fraction along the segment (1 for none). It reports one of the
      hittable candidates or nothing, and the nearest one when no fixture is skipped. */
  function TestSegment(cs: seq<Candidate>, filter: Filter.FilterData, id: nat): (r: (nat, real))
    ensures r == (0, 1.0) || exists i :: 0 <= i < |cs| && Hittable(cs[i], filter, id) && cs[i].id == r.0 && cs[i].fraction == r.1
    ensures (forall i :: 0 <= i < |cs| ==> !Hittable(cs[i], filter, id)) ==> r == (0, 1.0)
    ensures InSegment(cs) && (forall i :: 0 <= i < |cs| ==> Hittable(cs[i], filter, id)) ==>
              forall i :: 0 <= i < |cs| ==> r.1 <= cs[i].fraction
  {
    CastAsWrittenReportsCandidate(cs, filter, id);
    AsWrittenNearestWithoutSkips(cs, filter, id);
    var c := CastAsWritten(cs, filter, id);
    (c.hitId, c.hitFraction)
  }

  /** The segment test with skipped fixtures ignored: the nearest hittable fixture's entity
      and fraction, or (0, 1) when nothing is hittable. */
  function TestSegmentCorrected(cs: seq<Candidate>, filter: Filter.FilterData, id: nat): (r: (nat, real))
    requires InSegment(cs)
    ensures forall i :: 0 <= i < |cs| && Hittable(cs[i], filter, id) ==> r.1 <= cs[i].fraction
    ensures (forall i :: 0 <= i < |cs| ==> !Hittable(cs[i], filter, id)) ==> r == (0, 1.0)
    ensures r != (0, 1.0) ==> exists i :: 0 <= i < |cs| && Hittable(cs[i], filter, id) && cs[i].id == r.0 && cs[i].fraction == r.1
  {
    CastCorrectedFindsNearest(cs, filter, id);
    var c := CastCorrected(cs, filter, id);
    (c.hitId, c.hitFraction)
  }
}

=== FILE: command.dfy ===
/** Console commands: the registry that maps a command's tag to its handler (with the
    previous handler restored when a registration ends), the shared parameter processors
    that set a setting from the first parameters, and the commands whose effect on the
    game's own state is visible. Number parsing (atoi, atof) and Hash are supplied as
    functions; printing and window or input side effects are left out. */
module Command {
  import opened Base

  /** A handler, identified by a number; 0 is the null entry. */
  type Handler = nat

  /** Command::GetDB: tag to handler. */
  type Registry = map<nat, Handler>

  /** The handler for a tag: the null entry when the tag has none. */
  function Lookup(db: Registry, tag: nat): Handler {
    Get(db, tag, 0)
  }

  /** A live registration remembers the handler it replaced. */
  datatype Registration = Registration(tag: nat, prev: Handler)

  /** Command::Command: the new handler takes the tag; the previous one is remembered. */
  function Register(db: Registry, tag: nat, entry: Handler): (r: (Registry, Registration))
    ensures Lookup(r.0, tag) == entry && r.1 == Registration(tag, Lookup(db, tag))
    ensures forall k :: k != tag ==> (k in r.0 <==> k in db) && Lookup(r.0, k) == Lookup(db, k)
  {
    (db[tag := entry], Registration(tag, Lookup(db, tag)))
  }

  /** Command::~Command: the remembered handler is put back, or the tag deleted when there
      was none. */
  function Unregister(db: Registry, reg: Registration): (r: Registry)
    ensures reg.prev != 0 ==> r == db[reg.tag := reg.prev]
    ensures reg.prev == 0 ==> r == db - {reg.tag}
  {
    if reg.prev != 0 then db[reg.tag := reg.prev] else db - {reg.tag}
  }

  /** Registering and then unregistering restores every lookup, and the registry itself when
      the tag held no null entry. */
  lemma RegisterUnregister(db: Registry, tag: nat, entry: Handler)
    ensures var (db1, reg) := Register(db, tag, entry);
            forall k :: Lookup(Unregister(db1, reg), k) == Lookup(db, k)
    ensures tag !in db || db[tag] != 0 ==>
              var (db1, reg) := Register(db, tag, entry); Unregister(db1, reg) == db
  {
    var (db1, reg) := Register(db, tag, entry);
    if tag !in db {
      assert Unregister(db1, reg) == db;
    }
  }

  /** Two registrations of one tag, ended in reverse order, restore the first handler and
      then the original state. */
  lemma NestedRegistrations(db: Registry, tag: nat, a: Handler, b: Handler)
    requires a != 0
    ensures var (db1, regA) := Register(db, tag, a);
            var (db2, regB) := Register(db1, tag, b);
            var db3 := Unregister(db2, regB);
            Lookup(db3, tag) == a && forall k :: Lookup(Unregister(db3, regA), k) == Lookup(db, k)
  {
    var (db1, regA) := Register(db, tag, a);
    var (db2, regB) := Register(db1, tag, b);
    assert regB.prev == a;
  }

  /** What a parameter processor leaves behind: the setting, whether its post-action ran,
      and how many parameters it consumed (its return value). */
  datatype Processed<T> = Processed(value: T, actionRan: bool, consumed: nat)

  /** The shape of ProcessCommandString/Bool/Int/Float: with at least one parameter the
      setting becomes the first parameter as parsed, the post-action (if any) runs and one
      parameter is consumed; with none the setting is kept (and printed) and 0 is returned. */
  function ProcessOne<T>(value: T, params: seq<string>, parse: string -> T, hasAction: bool): (r: Processed<T>)
    ensures r.consumed == 1 <==> |params| >= 1
    ensures r.consumed == 0 <==> |params| == 0
    ensures |params| >= 1 ==> r.value == parse(params[0]) && (r.actionRan <==> hasAction)
    ensures |params| == 0 ==> r.value == value && !r.actionRan
  {
    if |params| >= 1 then Processed(parse(params[0]), hasAction, 1) else Processed(value, false, 0)
  }

  /** ProcessCommandString: the parameter is taken as is. */
  function ProcessCommandString(value: string, params: seq<string>, hasAction: bool): (r: Processed<string>)
    ensures |params| >= 1 ==> r == Processed(params[0], hasAction, 1)
    ensures |params| == 0 ==> r == Processed(value, false, 0)
  {
    ProcessOne(value, params, s => s, hasAction)
  }

  /** ProcessCommandBool: atoi of the parameter, compared with zero. */
  function ProcessCommandBool(value: bool, params: seq<string>, atoi: string -> int, hasAction: bool): (r: Processed<bool>)
    ensures |params| >= 1 ==> r == Processed(atoi(params[0]) != 0, hasAction, 1)
    ensures |params| == 0 ==> r == Processed(value, false, 0)
  {
    ProcessOne(value, params, s => atoi(s) != 0, hasAction)
  }

  /** ProcessCommandInt: atoi of the parameter. */
  function ProcessCommandInt(value: int, params: seq<string>, atoi: string -> int, hasAction: bool): (r: Processed<int>)
    ensures |params| >= 1 ==> r == Processed(atoi(params[0]), hasAction, 1)
    ensures |params| == 0 ==> r == Processed(value, false, 0)
  {
    ProcessOne(value, params, atoi, hasAction)
  }

  /** ProcessCommandFloat: atof of the parameter. */
  function ProcessCommandFloat(value: real, params: seq<string>, atof: string -> real, hasAction: bool): (r: Processed<real>)
    ensures |params| >= 1 ==> r == Processed(atof(params[0]), hasAction, 1)
    ensures |params| == 0 ==> r == Processed(value, false, 0)
  {
    ProcessOne(value, params, atof, hasAction)
  }

  /** ProcessCommandInt2: two settings from two parameters, all or nothing. */
  function ProcessCommandInt2(v1: int, v2: int, params: seq<string>, atoi: string -> int, hasAction: bool)
    : (r: Processed<(int, int)>)
    ensures r.consumed == 2 <==> |params| >= 2
    ensures r.consumed == 0 <==> |params| < 2
    ensures |params| >= 2 ==> r.value == (atoi(params[0]), atoi(params[1])) && (r.actionRan <==> hasAction)
    ensures |params| < 2 ==> r.value == (v1, v2) && !r.actionRan
  {
    if |params| >= 2 then Processed((atoi(params[0]), atoi(params[1])), hasAction, 2)
    else Processed((v1, v2), false, 0)
  }


  /** ClampMotionBlurAction: fewer than one motion-blur step becomes one. */
  function ClampMotionBlur(steps: int): (r: int)
    ensures r >= 1
    ensures steps >= 1 ==> r == steps
    ensures steps < 1 ==> r == 1
  {
    if steps < 1 then 1 else steps
  }

  /** CommandMotionBlur: set the step count from the parameter, then clamp it. Any step
      count the command sets is at least one. */
  function CommandMotionBlur(steps: int, params: seq<string>, atoi: string -> int): (r: (int, nat))
    ensures |params| >= 1 ==> r.1 == 1 && r.0 >= 1 && (atoi(params[0]) >= 1 ==> r.0 == atoi(params[0]))
    ensures r.1 == 0 <==> |params| == 0
    ensures r.1 == 0 ==> r.0 == steps
  {
    var p := ProcessCommandInt(steps, params, atoi, true);
    if p.actionRan then (ClampMotionBlur(p.value), p.consumed) else (p.value, p.consumed)
  }

  /** The game state a command asks for. */
  datatype GameState = NoChange | StateShell | StatePlay | StateReload | StateQuit

  /** CommandLevel with InitLevelAction: a new level file reloads the game when it is running
      and in play. */
  function CommandLevel(level: string, params: seq<string>, runtime: bool, current: GameState): (r: (string, GameState, nat))
    ensures |params| == 0 ==> r == (level, NoChange, 0)
    ensures |params| >= 1 ==> (r.0 == params[0] && r.2 == 1 &&
              (r.1 == StateReload <==> runtime && current == StatePlay) && (r.1 != StateReload ==> r.1 == NoChange))
  {
    var p := ProcessCommandString(level, params, true);
    var next := if p.actionRan && runtime && current == StatePlay then StateReload else NoChange;
    (p.value, next, p.consumed)
  }

  /** A request to play a sound cue on an entity; a single parameter plays the default cue. */
  datatype CueRequest = CueRequest(id: nat, cue: Option<nat>)

  /** CommandSound: two parameters name the entity and the cue, one names only the entity.
      It consumes min(count, 2) parameters. */
  function CommandSound(params: seq<string>, hash: string -> nat): (r: (Option<CueRequest>, nat))
    ensures r.1 == if |params| < 2 then |params| else 2
    ensures r.0.Some? <==> |params| >= 1
    ensures |params| >= 2 ==> r.0 == Some(CueRequest(hash(params[0]), Some(hash(params[1]))))
    ensures |params| == 1 ==> r.0 == Some(CueRequest(hash(params[0]), None))
  {
    if |params| >= 2 then (Some(CueRequest(hash(params[0]), Some(hash(params[1])))), 2)
    else if |params| == 1 then (Some(CueRequest(hash(params[0]), None)), 1)
    else (None, 0)
  }

  /** CommandImport, CommandSplit and CommandMerge: a file parameter is used and consumed;
      without one nothing happens. Returns the file acted on and the count. */
  function CommandWithFile(params: seq<string>): (r: (Option<string>, nat))
    ensures r.1 <= 1 && (r.1 == 1 <==> |params| > 0)
    ensures r.0.Some? <==> |params| > 0
    ensures |params| > 0 ==> r.0.value == params[0]
  {
    if |params| > 0 then (Some(params[0]), 1) else (None, 0)
  }

  /** ProcessCommand: run the registered handler (whose result is supplied by `run`); an
      unregistered command consumes nothing. The variable system fallback is not modelled. */
  function ProcessCommand(db: Registry, command: nat, params: seq<string>, run: (Handler, seq<string>) -> int): (r: int)
    ensures Lookup(db, command) == 0 ==> r == 0
    ensures Lookup(db, command) != 0 ==> r == run(Lookup(db, command), params)
  {
    var entry := Lookup(db, command);
    if entry != 0 then run(entry, params) else 0
  }

  /** A command registered and then unregistered no longer runs, unless it replaced one. */
  lemma UnregisteredCommandIdle(db: Registry, tag: nat, entry: Handler, params: seq<string>, run: (Handler, seq<string>) -> int)
    requires Lookup(db, tag) == 0
    ensures var (db1, reg) := Register(db, tag, entry);
            ProcessCommand(Unregister(db1, reg), tag, params, run) == 0
  {
    RegisterUnregister(db, tag, entry);
  }
}

=== FILE: damagable.dfy ===
/** Damagable components: a health value that damage lowers, listeners told of every hit,
    and deletion (with an optional death spawn) once health runs out. */
module Damagable {
  import opened Base
  import Xml
  import Geometry
  import Entity

  datatype DamagableTemplate = DamagableTemplate(health: real, spawnOnDeath: nat)

  /** A default-constructed template: no health and nothing spawned on death. */
  const DefaultTemplate := DamagableTemplate(0.0, 0)

  /** DamagableTemplate::Configure: only a "damagable" element is accepted; health is read in
      place, and the death spawn is the hash of "spawnondeath" only when that attribute exists. */
  function Configure(t: DamagableTemplate, e: Xml.Element): (r: Option<DamagableTemplate>)
    ensures r.Some? <==> e.tag == "damagable"
    ensures r.Some? && Xml.QueryFloat(e, "health").None? ==> r.value.health == t.health
    ensures r.Some? && Xml.QueryFloat(e, "health").Some? ==> r.value.health == Xml.QueryFloat(e, "health").value
    ensures r.Some? && "spawnondeath" !in e.attrs ==> r.value.spawnOnDeath == t.spawnOnDeath
    ensures r.Some? && "spawnondeath" in e.attrs ==> r.value.spawnOnDeath == e.attrs["spawnondeath"].key
  {
    if e.tag != "damagable" then None
    else
      var spawn := if "spawnondeath" in e.attrs then Xml.HashAttr(e, "spawnondeath") else t.spawnOnDeath;
      Some(DamagableTemplate(Xml.FloatOr(e, "health", t.health), spawn))
  }

  /** Configuring twice with the same element gives what configuring once gives. */
  lemma ConfigureIdempotent(t: DamagableTemplate, e: Xml.Element)
    requires e.tag == "damagable"
    ensures Configure(Configure(t, e).value, e) == Configure(t, e)
  {
  }

  datatype Damagable = Damagable(id: nat, health: real)

  /** Damagable(): no entity and no health. */
  const Blank := Damagable(0, 0.0)

  /** Damagable(template, id): health starts at the template's. */
  function NewDamagable(t: DamagableTemplate, id: nat): (d: Damagable)
    ensures d.id == id && d.health == t.health
  {
    Damagable(id, t.health)
  }

  /** Damagable::GetHealth: the health left, positive exactly while the component is alive. */
  function GetHealth(d: Damagable): (h: real)
    ensures IsAlive(d) <==> h > 0.0
  {
    d.health
  }

  /** Damagable::IsAlive: health remains; a blank component is never alive. */
  predicate IsAlive(d: Damagable)
    ensures IsAlive(d) ==> d != Blank
  {
    d.health > 0.0
  }

  /** A fresh damagable is alive exactly when its template grants positive health; a blank
      one is dead. */
  lemma NewIsAliveIffHealthy(t: DamagableTemplate, id: nat)
    ensures IsAlive(NewDamagable(t, id)) <==> t.health > 0.0
    ensures GetHealth(NewDamagable(t, id)) == t.health
    ensures !IsAlive(Blank) && GetHealth(Blank) == 0.0
  {
  }

  /** One listener call: which listener, and the (source, amount) it was told. */
  datatype Notice = Notice(listener: nat, source: nat, amount: real)

  /** What one Damage call did. */
  datatype DamageOutcome = DamageOutcome(d: Damagable, notices: seq<Notice>, spawn: Option<Entity.Spawn>, deleted: bool)

  /** Damagable::Damage(source, amount). `listeners` are the keys of the damage listener map
      in iteration order, `t` the entity's damagable template, and `entity` its pose when
      the entity exists. */
  function Damage(d: Damagable, t: DamagableTemplate, listeners: seq<nat>, entity: Option<Entity.Pose>,
                  source: nat, amount: real): (o: DamageOutcome)
    // the amount is taken off exactly once, nothing else about the component changes
    ensures o.d.id == d.id && o.d.health + amount == d.health
    // every listener hears of the hit exactly once, in order, whether or not the entity dies
    ensures |o.notices| == |listeners|
    ensures forall i :: 0 <= i < |listeners| ==> o.notices[i] == Notice(listeners[i], source, amount)
    // the entity is deleted exactly when the damage used up its health
    ensures o.deleted <==> amount >= d.health
    // a death spawn needs a death, an existing entity and a spawn template
    ensures o.spawn.Some? <==> o.deleted && entity.Some? && t.spawnOnDeath != 0
    // it appears where the entity was, facing its way, at rest
    ensures o.spawn.Some? ==> o.spawn.value == Entity.Spawn(t.spawnOnDeath, entity.value.angle, entity.value.pos, Geometry.Zero)
  {
    var hurt := d.(health := d.health - amount);
    var notices := seq(|listeners|, i requires 0 <= i < |listeners| => Notice(listeners[i], source, amount));
    if hurt.health <= 0.0 then
      var spawn := if entity.Some? && t.spawnOnDeath != 0
        then Some(Entity.Spawn(t.spawnOnDeath, entity.value.angle, entity.value.pos, Geometry.Zero))
        else None;
      DamageOutcome(hurt, notices, spawn, true)
    else
      DamageOutcome(hurt, notices, None, false)
  }

  /** Once a hit is deleted, the component left behind reports itself dead; while it is not
      deleted it is still alive. */
  lemma DeletedIffDead(d: Damagable, t: DamagableTemplate, listeners: seq<nat>, entity: Option<Entity.Pose>,
                       source: nat, amount: real)
    ensures Damage(d, t, listeners, entity, source, amount).deleted <==>
            !IsAlive(Damage(d, t, listeners, entity, source, amount).d)
  {
  }

  /** Two hits leave the health one hit of their summed damage would; the health after the
      second hit depends only on the total. */
  lemma DamageAccumulates(d: Damagable, t: DamagableTemplate, ls: seq<nat>, entity: Option<Entity.Pose>,
                          source: nat, a: real, b: real)
    ensures Damage(Damage(d, t, ls, entity, source, a).d, t, ls, entity, source, b).d ==
            Damage(d, t, ls, entity, source, a + b).d
  {
  }
}

=== FILE: entity.dfy ===
/** What components see of their entity, what they ask the database to spawn, and the
    life countdown that bullets and explosions share. */
module Entity {
  import Geometry
  import MathUtil

  /** The entity's facing angle, position and velocity (Entity::GetAngle/GetPosition/GetVelocity). */
  datatype Pose = Pose(angle: real, pos: Geometry.Vec2, vel: Geometry.Vec2)

  /** A Database::Instantiate request: template hash, angle, position and velocity. */
  datatype Spawn = Spawn(template: nat, angle: real, pos: Geometry.Vec2, vel: Geometry.Vec2)

  /** One simulation tick of a life countdown: the remaining life and whether the entity
      is deleted on this tick. */
  datatype Tick = Tick(life: real, expired: bool)

  /** life -= step; the entity is deleted exactly when the remaining life is at or below 0. */
  function Countdown(life: real, step: real): (r: Tick)
    ensures r.life + step == life
    ensures r.expired <==> step >= life
  {
    var left := life - step;
    Tick(left, left <= 0.0)
  }

  /** The remaining life after n ticks of the same step, ignoring the deletion on expiry. */
  function Run(life: real, step: real, n: nat): real
    decreases n
  {
    if n == 0 then life else Run(Countdown(life, step).life, step, n - 1)
  }

  lemma {:induction false} RunClosedForm(life: real, step: real, n: nat)
    ensures Run(life, step, n) == life - n as real * step
    decreases n
  {
    if n > 0 {
      RunClosedForm(life - step, step, n - 1);
      assert (n - 1) as real * step + step == n as real * step;
    }
  }

  /** A finite life under a positive step runs out within floor(life / step) + 1 ticks. */
  lemma ExpiresWithin(life: real, step: real)
    requires life >= 0.0 && step > 0.0
    ensures (life / step).Floor >= 0
    ensures Run(life, step, (life / step).Floor + 1) < 0.0
  {
    var q := life / step;
    assert q * step == life;
    if q < 0.0 {
      MathUtil.MulPos(-q, step);
    }
    var k := q.Floor + 1;
    RunClosedForm(life, step, k);
    var e := k as real - q;
    assert e > 0.0;
    MathUtil.MulPos(e, step);
    assert k as real * step == q * step + e * step;
    assert Run(life, step, k) == life - k as real * step;
    assert life - k as real * step == 0.0 - e * step;
    assert Run(life, step, k) < 0.0;
  }
}

=== FILE: explosion.dfy ===
/** Explosions: a short-lived entity whose only behaviour is the shared life countdown. */
module Explosion {
  import opened Base
  import Xml
  import Entity

  datatype ExplosionTemplate = ExplosionTemplate(lifeSpan: real)

  /** A default-constructed template lasts a quarter of a second. */
  const DefaultTemplate := ExplosionTemplate(0.25)

  /** ExplosionTemplate::Configure: only an "explosion" element is accepted; "life" overrides
      the life span when present. */
  function Configure(t: ExplosionTemplate, e: Xml.Element): (r: Option<ExplosionTemplate>)
    ensures r.Some? <==> e.tag == "explosion"
    ensures r.Some? && Xml.QueryFloat(e, "life").None? ==> r.value == t
    ensures r.Some? && Xml.QueryFloat(e, "life").Some? ==> r.value.lifeSpan == Xml.QueryFloat(e, "life").value
  {
    if e.tag != "explosion" then None else Some(ExplosionTemplate(Xml.FloatOr(e, "life", t.lifeSpan)))
  }

  datatype Explosion = Explosion(id: nat, life: real)

  /** Explosion(template, id): life starts at the template's life span. */
  function NewExplosion(t: ExplosionTemplate, id: nat): (x: Explosion)
    ensures x.id == id && x.life == t.lifeSpan
  {
    Explosion(id, t.lifeSpan)
  }

  /** Explosion::Simulate(step): the remaining life and whether the entity is deleted. */
  function Simulate(x: Explosion, step: real): (r: (Explosion, bool))
    ensures r.0.id == x.id && r.0.life + step == x.life
    ensures r.1 <==> step >= x.life
  {
    var tick := Entity.Countdown(x.life, step);
    (x.(life := tick.life), tick.expired)
  }

  /** Simulate n times with the same step, stopping at the tick that deletes the entity:
      the ticks run and whether the entity was deleted. */
  function Steps(x: Explosion, step: real, n: nat): (r: (Explosion, nat, bool))
    decreases n
  {
    if n == 0 then (x, 0, false)
    else
      var (x', gone) := Simulate(x, step);
      if gone then (x', 1, true)
      else
        var (y, k, g) := Steps(x', step, n - 1);
        (y, k + 1, g)
  }

  /** A live explosion under a positive step is deleted on the tick at which the total
      elapsed time first reaches its remaining life, and never earlier. */
  lemma {:induction false} StepsDeleteOnExpiry(x: Explosion, step: real, n: nat)
    requires step > 0.0 && x.life > 0.0
    ensures var (y, k, gone) := Steps(x, step, n);
            y.life == x.life - k as real * step && k <= n &&
            (gone ==> k >= 1 && k as real * step >= x.life && (k - 1) as real * step < x.life) &&
            (!gone ==> k == n && (n as real) * step < x.life)
    decreases n
  {
    if n > 0 {
      var (x', g1) := Simulate(x, step);
      if !g1 {
        StepsDeleteOnExpiry(x', step, n - 1);
        var (y, k, g) := Steps(x', step, n - 1);
        assert (k + 1) as real * step == k as real * step + step;
        assert ((k + 1) - 1) as real * step == k as real * step;
      }
    }
  }

  /** ExplosionInitializer::Activate always stores a new explosion from the entity's template. */
  function Activate(store: map<nat, Explosion>, templates: map<nat, ExplosionTemplate>, id: nat): (r: map<nat, Explosion>)
    ensures id in r && r[id] == NewExplosion(Get(templates, id, DefaultTemplate), id)
    ensures r - {id} == store - {id}
  {
    store[id := NewExplosion(Get(templates, id, DefaultTemplate), id)]
  }

  /** ExplosionInitializer::Deactivate removes the record only when there is one. */
  function Deactivate(store: map<nat, Explosion>, id: nat): (r: map<nat, Explosion>)
    ensures id !in r && r - {id} == store - {id}
    ensures id !in store ==> r == store
  {
    if id in store then store - {id} else store
  }

  lemma ActivateDeactivate(store: map<nat, Explosion>, templates: map<nat, ExplosionTemplate>, id: nat)
    requires id !in store
    ensures Deactivate(Activate(store, templates, id), id) == store
  {
    assert Activate(store, templates, id) - {id} == store;
  }
}

=== FILE: filter.dfy ===
/** Collision filtering: the 16-bit category and mask words and the signed 16-bit group of a
    fixture, the pairwise CheckFilter test, and the XML readers that build filters (named
    base filter, element attributes, then child elements in document order). */
module Filter {
  import opened Base
  import Xml

  /** A C++ `short`. */
  type Short = x: int | -32768 <= x < 32768

  /** A 16-bit word (uint16) as its bits, bit i at index i. */
  type Word = s: seq<bool> | |s| == 16 
    witness [false, false, false, false, false, false, false, false, false, false, false, false, false, false, false, false]

  /** The word with only bit i set: 1 << i. */
  function Single(i: nat): Word
    requires i < 16
  {
    seq(16, j => j == i)
  }

  const AllBits: Word := [true, true, true, true, true, true, true, true, true, true, true, true, true, true, true, true]
  const NoBits: Word := [false, false, false, false, false, false, false, false, false, false, false, false, false, false, false, false]

  /** (a & b) != 0: some bit is set in both words. */
  predicate Overlap(a: Word, b: Word) {
    exists i :: 0 <= i < 16 && a[i] && b[i]
  }

  datatype FilterData = FilterData(category: Word, mask: Word, group: Short)

  /** Collidable::GetDefaultFilter: category bit 0, every mask bit, no group. */
  const DefaultFilter := FilterData(Single(0), AllBits, 0)

  /** Collidable::CheckFilter: a shared nonzero group decides alone (positive groups always
      collide, negative never); otherwise each side's mask must accept the other's category. */
  function CheckFilter(a: FilterData, b: FilterData): (r: bool)
    ensures a.group == b.group && a.group > 0 ==> r
    ensures a.group == b.group && a.group < 0 ==> !r
    // without a shared group, each side's mask must accept a bit of the other's category
    ensures (a.group != b.group || a.group == 0) ==>
              (r <==> (exists i :: 0 <= i < 16 && a.mask[i] && b.category[i]) &&
                      (exists i :: 0 <= i < 16 && b.mask[i] && a.category[i]))
  {
    if a.group == b.group && a.group != 0 then a.group > 0
    else
      assert Overlap(a.category, b.mask) <==> exists i :: 0 <= i < 16 && b.mask[i] && a.category[i];
      Overlap(a.mask, b.category) && Overlap(a.category, b.mask)
  }

  lemma CheckFilterSymmetric(a: FilterData, b: FilterData)
    ensures CheckFilter(a, b) <==> CheckFilter(b, a)
  {
    if !(a.group == b.group && a.group != 0) {
      assert Overlap(a.mask, b.category) <==> Overlap(b.category, a.mask);
      assert Overlap(a.category, b.mask) <==> Overlap(b.mask, a.category);
    }
  }

  /** A shared nonzero group overrides category and mask bits entirely. */
  lemma SharedGroupDecides(a: FilterData, b: FilterData)
    requires a.group == b.group && a.group != 0
    ensures CheckFilter(a, b) <==> a.group > 0
    ensures CheckFilter(a, b) == CheckFilter(a.(category := NoBits, mask := NoBits), b.(category := NoBits, mask := NoBits))
  {
  }

  lemma DefaultFilterCollidesWithItself()
    ensures CheckFilter(DefaultFilter, DefaultFilter)
  {
    assert DefaultFilter.mask[0] && DefaultFilter.category[0];
  }

  /** Without a shared group, a filter with no category bits or no mask bits collides with nothing. */
  lemma EmptyBitsCollideWithNothing(a: FilterData, b: FilterData)
    requires a.group == 0 && (a.category == NoBits || a.mask == NoBits)
    ensures !CheckFilter(a, b) && !CheckFilter(b, a)
  {
  }

  /** `short(g)`: two's-complement truncation of an int to 16 bits. */
  function ToShort(g: int): (r: Short)
    ensures (r - g) % 65536 == 0
  {
    var low := g % 65536;
    if low >= 32768 then low - 65536 else low
  }

  lemma ToShortKeepsShorts(g: int)
    requires -32768 <= g < 32768
    ensures ToShort(g) == g
  {
  }

  /** The category word for a layer number: 1 << c for c >= 0 stored in 16 bits, so only
      layers 0..15 set a bit; a negative layer gives 0. */
  function CategoryBits(c: int): (r: Word)
    ensures forall i :: 0 <= i < 16 ==> (r[i] <==> i == c)
  {
    if 0 <= c < 16 then Single(c) else NoBits
  }

  /** The "bit<i>" attribute name for i in 0..15. */
  function BitName(i: nat): string
    requires i < 16
  {
    if i < 10 then "bit" + [('0' as int + i) as char]
    else "bit1" + [('0' as int + i - 10) as char]
  }

  /** The per-bit loop of the mask readers: bit i takes overrides[i] when there is one and
      keeps its value otherwise, for i = 0, 1, ... in order. */
  function ApplyBits(m: Word, overrides: seq<Option<bool>>): Word
    requires |overrides| <= 16
    decreases |overrides|
  {
    if overrides == [] then m
    else
      var k := |overrides| - 1;
      var before := ApplyBits(m, overrides[..k]);
      match overrides[k]
      case Some(b) => before[k := b]
      case None => before
  }

  lemma {:induction false} ApplyBitsEffect(m: Word, overrides: seq<Option<bool>>)
    requires |overrides| <= 16
    ensures forall i :: 0 <= i < |overrides| ==>
              ApplyBits(m, overrides)[i] == (if overrides[i].Some? then overrides[i].value else m[i])
    ensures forall i :: |overrides| <= i < 16 ==> ApplyBits(m, overrides)[i] == m[i]
    decreases |overrides|
  {
    if overrides != [] {
      var k := |overrides| - 1;
      ApplyBitsEffect(m, overrides[..k]);
      assert forall i :: 0 <= i < k ==> overrides[..k][i] == overrides[i];
    }
  }

  /** ConfigureFilterCategory(filter, element, name): changes the category only when the
      integer attribute is present. */
  function ConfigureCategory(f: FilterData, e: Xml.Element, name: string): (r: FilterData)
    ensures r.mask == f.mask && r.group == f.group
    ensures Xml.QueryInt(e, name).None? ==> r == f
    ensures Xml.QueryInt(e, name).Some? ==> r.category == CategoryBits(Xml.QueryInt(e, name).value)
  {
    match Xml.QueryInt(e, name)
    case Some(c) => f.(category := CategoryBits(c))
    case None => f
  }

  /** The "bit<i>" boolean attributes of an element, in bit order. */
  function BitOverrides(e: Xml.Element): (r: seq<Option<bool>>)
    ensures |r| == 16
  {
    seq(16, i requires 0 <= i < 16 => Xml.QueryBool(e, BitName(i)))
  }

  /** ConfigureFilterMask: "default" first resets the whole mask (all ones or all zeros),
      then each present "bit<i>" sets or clears bit i. */
  function ConfigureMask(f: FilterData, e: Xml.Element): (r: FilterData)
    ensures r.category == f.category && r.group == f.group
    ensures forall i :: 0 <= i < 16 ==>
              r.mask[i] == (match Xml.QueryBool(e, BitName(i))
                            case Some(b) => b
                            case None => Xml.QueryBool(e, "default").GetOr(f.mask[i]))
  {
    var base: Word := match Xml.QueryBool(e, "default")
      case Some(d) => if d then AllBits else NoBits
      case None => f.mask;
    var over := BitOverrides(e);
    ApplyBitsEffect(base, over);
    f.(mask := ApplyBits(base, over))
  }

  /** ConfigureFilterGroup: the integer attribute (seeded with the current group) truncated
      to a short. */
  function ConfigureGroup(f: FilterData, e: Xml.Element, name: string): (r: FilterData)
    ensures r.category == f.category && r.mask == f.mask
    ensures Xml.QueryInt(e, name).None? ==> r == f
    ensures Xml.QueryInt(e, name).Some? ==> r.group == ToShort(Xml.QueryInt(e, name).value)
  {
    ToShortKeepsShorts(f.group);
    f.(group := ToShort(Xml.IntOr(e, name, f.group)))
  }

  /** One child element of a filter description. */
  function ConfigureChild(f: FilterData, child: Xml.Element): FilterData {
    if child.tag == "category" then ConfigureCategory(f, child, "value")
    else if child.tag == "mask" then ConfigureMask(f, child)
    else if child.tag == "group" then ConfigureGroup(f, child, "value")
    else f
  }

  /** The children in document order; a field without a child of its own tag keeps its value. */
  function ConfigureChildren(f: FilterData, children: seq<Xml.Element>): (r: FilterData)
    ensures (forall i :: 0 <= i < |children| ==> children[i].tag != "category") ==> r.category == f.category
    ensures (forall i :: 0 <= i < |children| ==> children[i].tag != "mask") ==> r.mask == f.mask
    ensures (forall i :: 0 <= i < |children| ==> children[i].tag != "group") ==> r.group == f.group
    decreases |children|
  {
    if children == [] then f
    else
      var n := |children| - 1;
      assert forall i :: 0 <= i < n ==> children[..n][i] == children[i];
      ConfigureChild(ConfigureChildren(f, children[..n]), children[n])
  }

  /** The name of the base filter an element starts from: "name" on a <filter> element,
      "filter" on any other. */
  function BaseName(e: Xml.Element): Option<Xml.Attr> {
    Xml.Attribute(e, if e.tag == "filter" then "name" else "filter")
  }

  /** The filter a description starts from: the named one (the registry's default filter
      when the name is unknown), or the current one when no name is given. */
  function StartFilter(f: FilterData, e: Xml.Element, filters: map<nat, FilterData>): (s: FilterData)
    ensures BaseName(e).None? ==> s == f
    ensures BaseName(e).Some? && BaseName(e).value.key in filters ==> s == filters[BaseName(e).value.key]
    ensures BaseName(e).Some? && BaseName(e).value.key !in filters ==> s == DefaultFilter
  {
    match BaseName(e)
    case Some(a) => Get(filters, a.key, DefaultFilter)
    case None => f
  }

  /** ConfigureFilterData: start from the named filter (the registry's default filter when the
      name is unknown), then the element's own attributes, then its children in order. */
  function ConfigureFilterData(f: FilterData, e: Xml.Element, filters: map<nat, FilterData>): (r: FilterData)
    // the category: the last category child, else the element's attribute, else the base's
    ensures (forall i :: 0 <= i < |e.children| ==> e.children[i].tag != "category") ==>
              r.category == (match Xml.QueryInt(e, "category")
                             case Some(c) => CategoryBits(c)
                             case None => StartFilter(f, e, filters).category)
    // the group likewise, truncated to 16 bits
    ensures (forall i :: 0 <= i < |e.children| ==> e.children[i].tag != "group") ==>
              r.group == (match Xml.QueryInt(e, "group")
                          case Some(g) => ToShort(g)
                          case None => StartFilter(f, e, filters).group)
    // each mask bit: its own attribute, else "default", else the base's bit
    ensures (forall i :: 0 <= i < |e.children| ==> e.children[i].tag != "mask") ==>
              forall i :: 0 <= i < 16 ==>
                r.mask[i] == (match Xml.QueryBool(e, BitName(i))
                              case Some(b) => b
                              case None => Xml.QueryBool(e, "default").GetOr(StartFilter(f, e, filters).mask[i]))
  {
    ConfigureChildren(OwnAttributes(f, e, filters), e.children)
  }

  /** The base filter with the element's own category, mask and group attributes applied. */
  function OwnAttributes(f: FilterData, e: Xml.Element, filters: map<nat, FilterData>): FilterData {
    ConfigureGroup(ConfigureMask(ConfigureCategory(StartFilter(f, e, filters), e, "category"), e), e, "group")
  }

  lemma {:induction false} ConfigureChildrenAppend(f: FilterData, a: seq<Xml.Element>, b: seq<Xml.Element>)
    ensures ConfigureChildren(f, a + b) == ConfigureChildren(ConfigureChildren(f, a), b)
    decreases |b|
  {
    if b == [] {
      assert a + b == a;
    } else {
      var k := |b| - 1;
      ConfigureChildrenAppend(f, a, b[..k]);
      assert (a + b)[..|a + b| - 1] == a + b[..k];
    }
  }

  /** Children other than category, mask and group change nothing. */
  lemma {:induction false} OtherChildrenIgnored(f: FilterData, children: seq<Xml.Element>)
    requires forall i :: 0 <= i < |children| ==> children[i].tag !in {"category", "mask", "group"}
    ensures ConfigureChildren(f, children) == f
    decreases |children|
  {
    if children != [] {
      OtherChildrenIgnored(f, children[..|children| - 1]);
    }
  }

  /** Later input wins: a <category value=c> child that no later category child overrides
      fixes the category, whatever came before it (base filter, attributes, earlier children). */
  lemma LastCategoryChildWins(f: FilterData, e: Xml.Element, filters: map<nat, FilterData>, k: nat)
    requires k < |e.children| && e.children[k].tag == "category" && Xml.QueryInt(e.children[k], "value").Some?
    requires forall j :: k < j < |e.children| ==> e.children[j].tag != "category"
    ensures ConfigureFilterData(f, e, filters).category == CategoryBits(Xml.QueryInt(e.children[k], "value").value)
  {
    LastCategoryChildSets(OwnAttributes(f, e, filters), e.children, k);
  }

  /** The children part of LastCategoryChildWins, for any starting filter. */
  lemma LastCategoryChildSets(own: FilterData, cs: seq<Xml.Element>, k: nat)
    requires k < |cs| && cs[k].tag == "category" && Xml.QueryInt(cs[k], "value").Some?
    requires forall j :: k < j < |cs| ==> cs[j].tag != "category"
    ensures ConfigureChildren(own, cs).category == CategoryBits(Xml.QueryInt(cs[k], "value").value)
  {
    assert cs == cs[..k + 1] + cs[k + 1..];
    ConfigureChildrenAppend(own, cs[..k + 1], cs[k + 1..]);
    assert cs[..k + 1][..k] == cs[..k];
    var mid := ConfigureChildren(own, cs[..k + 1]);
    assert mid == ConfigureChild(ConfigureChildren(own, cs[..k]), cs[k]);
    var rest := cs[k + 1..];
    assert forall j :: 0 <= j < |rest| ==> rest[j].tag != "category" by {
      forall j | 0 <= j < |rest| ensures rest[j].tag != "category" { assert rest[j] == cs[k + 1 + j]; }
    }
    assert ConfigureChildren(mid, rest).category == mid.category;
  }

  /** An element with no base name, no filter attributes and no children leaves the filter as it was. */
  lemma PlainElementKeepsFilter(f: FilterData, e: Xml.Element, filters: map<nat, FilterData>)
    requires BaseName(e).None? && e.children == []
    requires Xml.QueryInt(e, "category").None? && Xml.QueryInt(e, "group").None?
    requires Xml.QueryBool(e, "default").None?
    requires forall i :: 0 <= i < 16 ==> Xml.QueryBool(e, BitName(i)).None?
    ensures ConfigureFilterData(f, e, filters) == f
  {
    var m := ConfigureMask(f, e);
    assert m.mask == f.mask;
  }

  /** FilterLoader::Configure: a filter entry that does not exist yet starts as the default
      filter; then the element configures it. */
  function LoadFilter(filters: map<nat, FilterData>, id: nat, e: Xml.Element): (r: map<nat, FilterData>)
    ensures id in r && r - {id} == filters - {id}
    ensures r[id] == ConfigureFilterData(if id in filters then filters[id] else DefaultFilter, e, filters[id := Get(filters, id, DefaultFilter)])
  {
    var seeded := filters[id := Get(filters, id, DefaultFilter)];
    seeded[id := ConfigureFilterData(seeded[id], e, seeded)]
  }
}

=== FILE: links.dfy ===
/** The back-link relation between entities (Database::backlink): an entity spawned by another
    links back to its spawner, and 0 ends a chain. Walks along it are bounded by a fuel that
    must cover the chain, which is how acyclicity of the relation enters the model. */
module Links {
  import opened Base

  type BackLinks = map<nat, nat>

  /** Database::backlink.Get(id): the spawner, or 0 when there is none. */
  function Parent(bl: BackLinks, id: nat): nat {
    Get(bl, id, 0)
  }

  /** The chain starting at id reaches 0 in at most fuel steps. */
  predicate EndsWithin(bl: BackLinks, id: nat, fuel: nat)
    decreases fuel
  {
    id == 0 || (fuel > 0 && EndsWithin(bl, Parent(bl, id), fuel - 1))
  }

  /** The entities visited by `for (id = start; id; id = backlink.Get(id))`, in order. */
  function Chain(bl: BackLinks, id: nat, fuel: nat): (c: seq<nat>)
    requires EndsWithin(bl, id, fuel)
    ensures |c| <= fuel
    ensures c == [] <==> id == 0
    ensures c != [] ==> c[0] == id && Parent(bl, c[|c| - 1]) == 0
    ensures forall i :: 0 <= i < |c| ==> c[i] != 0
    ensures forall i :: 0 <= i < |c| - 1 ==> c[i + 1] == Parent(bl, c[i])
    decreases fuel
  {
    if id == 0 then [] else [id] + Chain(bl, Parent(bl, id), fuel - 1)
  }

  /** A longer fuel does not change the walk. */
  lemma {:induction false} ChainFuelIrrelevant(bl: BackLinks, id: nat, fuel: nat, more: nat)
    requires EndsWithin(bl, id, fuel)
    requires fuel <= more
    ensures EndsWithin(bl, id, more)
    ensures Chain(bl, id, more) == Chain(bl, id, fuel)
    decreases fuel
  {
    if id != 0 {
      ChainFuelIrrelevant(bl, Parent(bl, id), fuel - 1, more - 1);
    }
  }

  /** Walking on from the parent visits the same chain minus its head. */
  lemma ChainTail(bl: BackLinks, id: nat, fuel: nat)
    requires id != 0 && EndsWithin(bl, id, fuel)
    ensures fuel > 0 && EndsWithin(bl, Parent(bl, id), fuel - 1)
    ensures Chain(bl, id, fuel)[1..] == Chain(bl, Parent(bl, id), fuel - 1)
  {
  }
}

=== FILE: mathutil.dfy ===
/** The value helpers of the game's precompiled header: Clamp and Lerp. */
module MathUtil {

  /** Clamp(v, min, max): min if v is below it, else max if v is above that, else v. */
  function Clamp(v: real, lo: real, hi: real): (r: real)
    ensures v < lo ==> r == lo
    ensures lo <= v && hi < v ==> r == hi
    ensures lo <= v <= hi ==> r == v
    ensures lo <= hi ==> lo <= r <= hi
  {
    if v < lo then lo else if v > hi then hi else v
  }

  lemma ClampIdempotent(v: real, lo: real, hi: real)
    requires lo <= hi
    ensures Clamp(Clamp(v, lo, hi), lo, hi) == Clamp(v, lo, hi)
  {
  }

  /** With min above max, Clamp is not idempotent: min is returned first time, max the second. */
  lemma ClampNotIdempotentWhenInverted()
    ensures Clamp(0.0, 1.0, -1.0) == 1.0
    ensures Clamp(Clamp(0.0, 1.0, -1.0), 1.0, -1.0) == -1.0
  {
  }

  /** Lerp(v0, v1, s) = (1 - s) * v0 + s * v1. */
  function Lerp(v0: real, v1: real, s: real): (r: real)
    // s = 0 gives v0, s = 1 gives v1, and in general r lies the fraction s of the way
    ensures s == 0.0 ==> r == v0
    ensures s == 1.0 ==> r == v1
    ensures r - v0 == s * (v1 - v0)
  {
    assert (1.0 - s) * v0 == v0 - s * v0;
    assert s * (v1 - v0) == s * v1 - s * v0;
    (1.0 - s) * v0 + s * v1
  }

  lemma MulNonneg(a: real, b: real)
    requires 0.0 <= a && 0.0 <= b
    ensures 0.0 <= a * b
  {
  }

  /** For s in [0, 1] the interpolated value lies between the endpoints. */
  lemma LerpBetween(v0: real, v1: real, s: real)
    requires 0.0 <= s <= 1.0
    requires v0 <= v1
    ensures v0 <= Lerp(v0, v1, s) <= v1
  {
    var d := v1 - v0;
    var r := Lerp(v0, v1, s);
    assert r == v0 + s * d;
    MulNonneg(s, d);
    MulNonneg(1.0 - s, d);
    assert (1.0 - s) * d == d - s * d;
  }

  lemma MulZero(e: real, d: real)
    requires d > 0.0 && e * d == 0.0
    ensures e == 0.0
  {
  }

  /** Taking one d off x takes exactly one off the count of whole d's in x. */
  lemma FloorStep(x: real, d: real)
    requires d > 0.0
    ensures ((x - d) / d).Floor == (x / d).Floor - 1
  {
    var y := x / d;
    var z := (x - d) / d;
    assert y * d == x;
    assert z * d == x - d;
    assert (z - y + 1.0) * d == 0.0;
    MulZero(z - y + 1.0, d);
  }

  lemma DivModUnique(m: int, c: int, q: int, r: int)
    requires c >= 1 && 0 <= r < c && m == q * c + r
    ensures m / c == q && m % c == r
  {
    var q', r' := m / c, m % c;
    assert m == q' * c + r';
    var k := q - q';
    assert k * c == r' - r;
    assert -c < k * c < c;
  }

  /** How quotient and remainder move when the dividend grows by one. */
  lemma DivModNext(m: int, c: int)
    requires m >= 1 && c >= 1
    ensures (m - 1) % c == c - 1 ==> m / c == (m - 1) / c + 1 && m % c == 0
    ensures (m - 1) % c != c - 1 ==> m / c == (m - 1) / c && m % c == (m - 1) % c + 1
  {
    var q, r := (m - 1) / c, (m - 1) % c;
    assert m == q * c + r + 1;
    if r == c - 1 {
      assert m == (q + 1) * c + 0;
      DivModUnique(m, c, q + 1, 0);
    } else {
      DivModUnique(m, c, q, r + 1);
    }
  }

  lemma SquareBelow(q: real)
    requires 0.0 <= q < 1.0
    ensures 0.0 <= q * q < 1.0
  {
    var w := 1.0 - q;
    MulNonneg(q, w);
    assert 0.0 <= q * w;
    assert q * w == q - q * q;
    assert q * q <= q;
    MulNonneg(q, q);
  }

  /** len * (1 / (len + eps)) lies in [0, 1) for len >= 0 and eps > 0. */
  lemma Shrink(len: real, eps: real)
    requires len >= 0.0 && eps > 0.0
    ensures 0.0 <= len * (1.0 / (len + eps)) < 1.0
  {
    var k := 1.0 / (len + eps);
    var q := len * k;
    assert k * (len + eps) == 1.0;
    assert q * (len + eps) == len;
    MulNonneg(len, k);
  }

  /** A nonnegative x whose square is at most r * r is at most r. */
  lemma SqrtMono(x: real, r: real)
    requires x >= 0.0 && r > 0.0 && x * x <= r * r
    ensures x <= r
  {
  }

  lemma DivUnit(x: real, r: real)
    requires 0.0 <= x <= r && r > 0.0
    ensures 0.0 <= x / r <= 1.0
  {
    var inv := 1.0 / r;
    assert inv * r == 1.0;
    assert x / r == x * inv;
    MulNonneg(x, inv);
    MulNonneg(r - x, inv);
    assert (r - x) * inv == r * inv - x * inv;
  }

  function Abs(x: real): (r: real)
    ensures r >= 0.0 && (r == x || r == -x)
  {
    if x < 0.0 then -x else x
  }

  lemma ScaleWithinUnit(a: real, s: real)
    requires -1.0 <= s <= 1.0
    ensures -Abs(a) <= a * s <= Abs(a)
  {
    if a >= 0.0 {
      MulNonneg(a, 1.0 - s);
      MulNonneg(a, 1.0 + s);
    } else {
      MulNonneg(-a, 1.0 - s);
      MulNonneg(-a, 1.0 + s);
    }
  }

  lemma DivSign(a: real, b: real)
    requires b > 0.0
    ensures a / b > 0.0 <==> a > 0.0
  {
    var q := a / b;
    assert q * b == a;
    if q > 0.0 {
      MulNonneg(q, b);
    }
    if a > 0.0 && q <= 0.0 {
      MulNonneg(-q, b);
    }
  }

  /** The fire-cone range fraction: dist / range is nonzero, and in (0, 1] for a positive range. */
  lemma DistanceFraction(dist: real, range: real, distSq: real)
    requires dist > 0.0 && distSq > 0.0 && dist * dist == distSq && distSq <= range * range
    ensures range != 0.0 && dist / range != 0.0
    ensures range > 0.0 ==> 0.0 < dist / range <= 1.0
  {
    var q := dist / range;
    assert q * range == dist;
    if range > 0.0 {
      SqrtMono(dist, range);
      assert q * range <= range;
    }
  }

  lemma MulPos(a: real, b: real)
    requires a > 0.0 && b > 0.0
    ensures a * b > 0.0
  {
  }

  lemma ProductSign(a: real, s: real)
    requires a > 0.0
    ensures a * s > 0.0 <==> s > 0.0
  {
    if s > 0.0 {
      MulPos(a, s);
    } else {
      MulNonneg(a, -s);
    }
  }
}

=== FILE: matrix2.dfy ===
/** Two-dimensional vectors and the Matrix2 frame (x axis, y axis, position) used for
    entity transforms: construction from an angle, Transform, Rotate, composition and the
    rigid-frame Inverse. Angles enter as their cosine and sine: trigonometry is not modelled. */
module Geometry {

  datatype Vec2 = Vec2(x: real, y: real)

  const Zero: Vec2 := Vec2(0.0, 0.0)

  function Add(a: Vec2, b: Vec2): Vec2 { Vec2(a.x + b.x, a.y + b.y) }
  function Sub(a: Vec2, b: Vec2): Vec2 { Vec2(a.x - b.x, a.y - b.y) }
  function Scale(a: Vec2, s: real): Vec2 { Vec2(a.x * s, a.y * s) }
  function Dot(a: Vec2, b: Vec2): real { a.x * b.x + a.y * b.y }
  function LengthSq(a: Vec2): real { Dot(a, a) }
  function DistSq(a: Vec2, b: Vec2): real { LengthSq(Sub(b, a)) }

  /** The perpendicular (-v.y, v.x): the y axis the angle constructor builds from the x axis. */
  function Perp(v: Vec2): Vec2 { Vec2(-v.y, v.x) }

  datatype Matrix2 = Matrix2(x: Vec2, y: Vec2, p: Vec2)

  /** Matrix2(angle, p) with c = cos(angle) and s = sin(angle): x = (c, s), y = (-x.y, x.x). */
  function FromAngle(c: real, s: real, p: Vec2): (m: Matrix2)
    ensures Dot(m.x, m.y) == 0.0
    ensures LengthSq(m.x) == LengthSq(m.y)
    ensures m.p == p
  {
    Matrix2(Vec2(c, s), Perp(Vec2(c, s)), p)
  }

  /** The frame's 2x2 part applied to v: the axes are the images of the unit vectors. */
  function Rotate(m: Matrix2, v: Vec2): (r: Vec2)
    ensures v == Vec2(1.0, 0.0) ==> r == m.x
    ensures v == Vec2(0.0, 1.0) ==> r == m.y
    ensures v == Zero ==> r == Zero
  {
    Add(Scale(m.x, v.x), Scale(m.y, v.y))
  }

  /** A point in the frame's local coordinates, in the parent's: the origin goes to the
      frame's position and the unit vectors to the position plus each axis. */
  function Transform(m: Matrix2, v: Vec2): (r: Vec2)
    ensures v == Zero ==> r == m.p
    ensures v == Vec2(1.0, 0.0) ==> r == Add(m.x, m.p)
    ensures v == Vec2(0.0, 1.0) ==> r == Add(m.y, m.p)
  {
    Add(Add(Scale(m.x, v.x), Scale(m.y, v.y)), m.p)
  }

  lemma TransformIsRotatePlusOffset(m: Matrix2, v: Vec2)
    ensures Transform(m, v) == Add(Rotate(m, v), m.p)
  {
  }

  /** operator*(a, b): a's axes rotated by b, a's position transformed by b. */
  function Mul(a: Matrix2, b: Matrix2): (r: Matrix2)
    ensures r.x == Rotate(b, a.x) && r.y == Rotate(b, a.y)
    ensures r.p == Transform(b, a.p)
  {
    Matrix2(
      Add(Scale(b.x, a.x.x), Scale(b.y, a.x.y)),
      Add(Scale(b.x, a.y.x), Scale(b.y, a.y.y)),
      Add(Add(Scale(b.x, a.p.x), Scale(b.y, a.p.y)), b.p))
  }

  lemma ScaleLengthSq(v: Vec2, k: real)
    ensures LengthSq(Scale(v, k)) == LengthSq(v) * (k * k)
  {
  }

  lemma RotateLinear(m: Matrix2, u: Vec2, v: Vec2)
    ensures Rotate(m, Add(u, v)) == Add(Rotate(m, u), Rotate(m, v))
  {
  }

  lemma RotateScale(m: Matrix2, u: Vec2, s: real)
    ensures Rotate(m, Scale(u, s)) == Scale(Rotate(m, u), s)
  {
  }

  /** The product applies a first, then b. */
  lemma {:induction false} MulComposes(a: Matrix2, b: Matrix2, v: Vec2)
    ensures Transform(Mul(a, b), v) == Transform(b, Transform(a, v))
  {
    var ab := Mul(a, b);
    assert ab.x == Rotate(b, a.x) && ab.y == Rotate(b, a.y);
    assert ab.p == Transform(b, a.p);
    calc {
      Transform(b, Transform(a, v));
      Add(Rotate(b, Add(Rotate(a, v), a.p)), b.p);
      { RotateLinear(b, Rotate(a, v), a.p); }
      Add(Add(Rotate(b, Rotate(a, v)), Rotate(b, a.p)), b.p);
      { RotateLinear(b, Scale(a.x, v.x), Scale(a.y, v.y));
        RotateScale(b, a.x, v.x); RotateScale(b, a.y, v.y); }
      Add(Add(Add(Scale(ab.x, v.x), Scale(ab.y, v.y)), Rotate(b, a.p)), b.p);
      Transform(ab, v);
    }
  }

  /** m *= n: the in-place product, which transforms like m followed by n. */
  method MulAssign(m: Matrix2, n: Matrix2) returns (r: Matrix2)
    ensures forall v :: Transform(r, v) == Transform(n, Transform(m, v))
  {
    r := Mul(m, n);
    forall v ensures Transform(r, v) == Transform(n, Transform(m, v)) {
      MulComposes(m, n, v);
    }
  }

  function Det(m: Matrix2): real {
    m.x.x * m.y.y - m.y.x * m.x.y
  }

  /** Inverse() as written: the 2x2 part is rebuilt from the cofactors with the entries
      placed so that, for a rotation, it equals the original rotation; the position is
      minus the rotated position. */
  function Inverse(m: Matrix2): (r: Matrix2)
    requires Det(m) != 0.0
    // the position is the frame's position rotated back by the frame's own axes, negated
    ensures r.p == Scale(Rotate(m, m.p), -1.0)
    // for a rotation frame the axes come back unchanged, so the frame's position maps to the origin
    ensures RotationFrame(m) ==> r.x == m.x && r.y == m.y && Transform(r, m.p) == Zero
  {
    var a := m.x.x;
    var b := m.y.x;
    var c := m.x.y;
    var d := m.y.y;
    var inv := 1.0 / Det(m);
    Matrix2(Vec2(inv * a, -inv * b), Vec2(-inv * c, inv * d),
            Add(Scale(m.x, -m.p.x), Scale(m.y, -m.p.y)))
  }

  /** A rotation frame: unit x axis, y axis its perpendicular (what the angle constructor builds). */
  predicate RotationFrame(m: Matrix2) {
    m.y == Perp(m.x) && LengthSq(m.x) == 1.0
  }

  lemma RotationFrameDet(m: Matrix2)
    requires RotationFrame(m)
    ensures Det(m) == 1.0
  {
  }

  /** For a rotation frame the Inverse keeps the same rotation part (so it is not a true inverse). */
  lemma InverseKeepsRotation(m: Matrix2)
    requires RotationFrame(m)
    ensures Det(m) == 1.0
    ensures Inverse(m).x == m.x && Inverse(m).y == m.y
  {
  }

  /** The Inverse of a rotation frame sends the frame's own position to the origin. */
  lemma InverseMapsPositionToOrigin(m: Matrix2)
    requires RotationFrame(m)
    ensures Det(m) == 1.0
    ensures Transform(Inverse(m), m.p) == Zero
  {
  }

  lemma RotationPreservesLength(m: Matrix2, v: Vec2)
    requires RotationFrame(m)
    ensures LengthSq(Rotate(m, v)) == LengthSq(v)
  {
    var c, s := m.x.x, m.x.y;
    assert Rotate(m, v) == Vec2(c * v.x - s * v.y, s * v.x + c * v.y);
    calc {
      LengthSq(Rotate(m, v));
      (c * v.x - s * v.y) * (c * v.x - s * v.y) + (s * v.x + c * v.y) * (s * v.x + c * v.y);
      (c * c + s * s) * (v.x * v.x) + (c * c + s * s) * (v.y * v.y);
      LengthSq(v);
    }
  }

  /** The range fact the Aimer relies on: in a rotation frame's Inverse, the squared length
      of a transformed point is its squared distance from the frame's position. */
  lemma {:induction false} InversePreservesDistance(m: Matrix2, v: Vec2)
    requires RotationFrame(m)
    ensures Det(m) == 1.0
    ensures LengthSq(Transform(Inverse(m), v)) == DistSq(m.p, v)
  {
    InverseKeepsRotation(m);
    var inv := Inverse(m);
    assert Transform(inv, v) == Rotate(m, Sub(v, m.p));
    RotationPreservesLength(m, Sub(v, m.p));
  }
}

=== FILE: resource.dfy ===
/** Resource meters (ammo, energy, ...): a value kept in [0, maximum] by Set, level-triggered
    empty/full/change notifications, a regeneration timer, and the search for the entity
    that holds a resource along the back-link chain. */
module Resource {
  import opened Base
  import MathUtil
  import Xml
  import Links

  datatype ResourceTemplate = ResourceTemplate(
    subId: nat, initial: real, maximum: real, delay: real, cycle: real, add: real)

  /** The template a default-constructed ResourceTemplate holds. */
  const DefaultTemplate := ResourceTemplate(0, 0.0, FLT_MAX, 0.0, 0.0, 0.0)

  /** ResourceTemplate::Configure: each attribute overrides its field only when present;
      a "rate" attribute replaces "add" with rate * cycle (the cycle read just before). */
  function Configure(t: ResourceTemplate, e: Xml.Element, subId: nat): (r: ResourceTemplate)
    ensures r.subId == subId
    ensures r.initial == Xml.FloatOr(e, "initial", t.initial)
    ensures r.maximum == Xml.FloatOr(e, "maximum", t.maximum)
    ensures r.delay == Xml.FloatOr(e, "delay", t.delay)
    ensures r.cycle == Xml.FloatOr(e, "cycle", t.cycle)
    ensures Xml.QueryFloat(e, "rate").Some? ==> r.add == Xml.QueryFloat(e, "rate").value * r.cycle
    ensures Xml.QueryFloat(e, "rate").None? ==> r.add == Xml.FloatOr(e, "add", t.add)
  {
    var cycle := Xml.FloatOr(e, "cycle", t.cycle);
    var add := Xml.FloatOr(e, "add", t.add);
    var add' := match Xml.QueryFloat(e, "rate")
      case Some(rate) => rate * cycle
      case None => add;
    ResourceTemplate(subId, Xml.FloatOr(e, "initial", t.initial), Xml.FloatOr(e, "maximum", t.maximum),
                     Xml.FloatOr(e, "delay", t.delay), cycle, add')
  }

  /** A live meter. `updating` is whether the regeneration action is scheduled. */
  datatype Resource = Resource(subId: nat, value: real, timer: real, updating: bool)

  /** Resource(template, id): starts at the initial value with the timer at 0; the update
      action is installed only for a regenerating (or draining) template. */
  function NewResource(t: ResourceTemplate): (r: Resource)
    ensures r.subId == t.subId && r.value == t.initial && r.timer == 0.0
    ensures r.updating <==> t.add != 0.0
  {
    Resource(t.subId, t.initial, 0.0, t.add != 0.0)
  }

  /** What one Set did: the new state and which listener groups were notified. */
  datatype SetOutcome = SetOutcome(res: Resource, emptyFired: bool, fullFired: bool, changeFired: bool)

  /** Resource::Set(source, value). */
  function Set(t: ResourceTemplate, r: Resource, v: real): (o: SetOutcome)
    // the stored value is the request clamped to [0, maximum]
    ensures t.maximum >= 0.0 ==> o.res.value == MathUtil.Clamp(v, 0.0, t.maximum)
    // empty listeners: exactly when the request is at or below zero, whatever the old value
    ensures o.emptyFired <==> v <= 0.0
    // full listeners: exactly when the stored value sits at the maximum, whatever the old value
    ensures t.maximum >= 0.0 ==> (o.fullFired <==> o.res.value == t.maximum)
    // change listeners: exactly when the stored value moved
    ensures o.changeFired <==> o.res.value != r.value
    ensures !o.changeFired ==> o.res.timer == r.timer
    // a move against the regeneration direction restarts the delay and reactivates updating
    ensures o.changeFired && (r.value - o.res.value) * t.add > 0.0 ==>
              o.res.timer == t.delay && o.res.updating
    ensures !(o.changeFired && (r.value - o.res.value) * t.add > 0.0) ==>
              o.res.timer == r.timer &&
              (o.res.updating <==> r.updating && !(o.emptyFired && t.add < 0.0) && !(o.fullFired && t.add > 0.0))
    ensures o.res.subId == r.subId
  {
    var empty := v <= 0.0;
    var v1 := if empty then 0.0 else v;
    var upd1 := if empty && t.add < 0.0 then false else r.updating;
    var full := v1 >= t.maximum;
    var v2 := if full then t.maximum else v1;
    var upd2 := if full && t.add > 0.0 then false else upd1;
    if r.value != v2 then
      if (r.value - v2) * t.add > 0.0 then
        SetOutcome(Resource(r.subId, v2, t.delay, true), empty, full, true)
      else
        SetOutcome(Resource(r.subId, v2, r.timer, upd2), empty, full, true)
    else
      SetOutcome(Resource(r.subId, r.value, r.timer, upd2), empty, full, false)
  }

  /** Resource::Add(source, amount): a Set of the current value plus the amount. */
  function Add(t: ResourceTemplate, r: Resource, x: real): (o: SetOutcome)
    ensures t.maximum >= 0.0 ==> o.res.value == MathUtil.Clamp(r.value + x, 0.0, t.maximum)
    ensures o.emptyFired <==> r.value + x <= 0.0
    ensures o.changeFired <==> o.res.value != r.value
    ensures x == 0.0 && 0.0 < r.value < t.maximum ==> o.res == r && !o.emptyFired && !o.fullFired
  {
    Set(t, r, r.value + x)
  }

  /** Full listeners are level-triggered: a meter already at its maximum that is set at or
      above it again notifies the full listeners once more, and nothing changes. */
  lemma FullIsLevelTriggered(t: ResourceTemplate, r: Resource, v: real)
    requires t.maximum > 0.0 && r.value == t.maximum && v >= t.maximum
    ensures Set(t, r, v).fullFired && !Set(t, r, v).changeFired
    ensures Set(t, r, v).res.value == r.value && Set(t, r, v).res.timer == r.timer
  {
  }

  /** Empty listeners are level-triggered: an empty meter set to zero or below notifies again. */
  lemma EmptyIsLevelTriggered(t: ResourceTemplate, r: Resource, v: real)
    requires t.maximum > 0.0 && r.value == 0.0 && v <= 0.0
    ensures Set(t, r, v).emptyFired && !Set(t, r, v).changeFired
    ensures Set(t, r, v).res.value == 0.0
  {
  }

  /** Repeating a Set changes nothing the second time. */
  lemma SetIdempotent(t: ResourceTemplate, r: Resource, v: real)
    requires t.maximum >= 0.0
    ensures Set(t, Set(t, r, v).res, v).res.value == Set(t, r, v).res.value
    ensures !Set(t, Set(t, r, v).res, v).changeFired
  {
  }

  /** Resource::Update(step): the timer runs down by the step; when it reaches zero the
      template's add is applied once and one cycle is added to the timer. */
  function Update(t: ResourceTemplate, r: Resource, step: real): (o: SetOutcome)
    ensures r.timer - step > 0.0 ==> o.res == r.(timer := r.timer - step) && !o.changeFired && !o.emptyFired && !o.fullFired
    ensures r.timer - step <= 0.0 && t.maximum >= 0.0 ==> o.res.value == MathUtil.Clamp(r.value + t.add, 0.0, t.maximum)
    ensures r.timer - step <= 0.0 ==>
              o.res.timer == t.cycle + (if o.changeFired && (r.value - o.res.value) * t.add > 0.0 then t.delay else r.timer - step)
  {
    var timed := r.(timer := r.timer - step);
    if timed.timer <= 0.0 then
      var o := Add(t, timed, t.add);
      o.(res := o.res.(timer := o.res.timer + t.cycle))
    else
      SetOutcome(timed, false, false, false)
  }

  /** Regeneration never lowers a meter that is within its bounds. */
  lemma UpdateRegenerates(t: ResourceTemplate, r: Resource, step: real)
    requires t.add >= 0.0 && 0.0 <= r.value <= t.maximum
    ensures r.value <= Update(t, r, step).res.value <= t.maximum
  {
  }

  /** Draining never raises a meter that is within its bounds, and never drives it below zero. */
  lemma UpdateDrains(t: ResourceTemplate, r: Resource, step: real)
    requires t.add <= 0.0 && 0.0 <= r.value <= t.maximum
    ensures 0.0 <= Update(t, r, step).res.value <= r.value
  {
  }

  type Templates = map<nat, map<nat, ResourceTemplate>>

  /** resourcetemplate.Get(id).Find(subId) */
  predicate HasTemplate(templates: Templates, id: nat, subId: nat) {
    subId in Inner(templates, id)
  }

  /** FindResource(id, subId): 0 for an unnamed resource, else the first entity along the
      back-link chain from id itself that holds the resource, else the owner if it holds it, else 0. */
  method FindResource(templates: Templates, bl: Links.BackLinks, owner: map<nat, nat>,
                      id: nat, subId: nat, ghost fuel: nat) returns (r: nat)
    requires Links.EndsWithin(bl, id, fuel)
    ensures subId == 0 ==> r == 0
    ensures subId != 0 ==> var c := Links.Chain(bl, id, fuel);
      if exists i :: 0 <= i < |c| && HasTemplate(templates, c[i], subId) then
        exists i :: 0 <= i < |c| && r == c[i] && HasTemplate(templates, r, subId) &&
          forall j :: 0 <= j < i ==> !HasTemplate(templates, c[j], subId)
      else
        r == (if HasTemplate(templates, Get(owner, id, 0), subId) then Get(owner, id, 0) else 0)
  {
    if subId == 0 {
      return 0;
    }
    ghost var c := Links.Chain(bl, id, fuel);
    ghost var k := 0;
    var cur := id;
    while cur != 0
      invariant 0 <= k <= |c|
      invariant cur == (if k < |c| then c[k] else 0)
      invariant forall j :: 0 <= j < k ==> !HasTemplate(templates, c[j], subId)
      decreases |c| - k
    {
      if HasTemplate(templates, cur, subId) {
        return cur;
      }
      cur := Links.Parent(bl, cur);
      k := k + 1;
    }
    var o := Get(owner, id, 0);
    if HasTemplate(templates, o, subId) {
      return o;
    }
    return 0;
  }

  /** The per-entity stores a resource initializer touches; listeners are identified by key. */
  datatype Stores = Stores(
    resources: map<nat, map<nat, Resource>>,
    changeListeners: map<nat, map<nat, set<nat>>>,
    emptyListeners: map<nat, map<nat, set<nat>>>,
    fullListeners: map<nat, map<nat, set<nat>>>)

  /** ResourceInitializer::Activate: one new meter per resource template of the entity,
      added to whatever the entity's resource store already held. */
  function Activate(s: Stores, templates: Templates, id: nat): (s': Stores)
    ensures id in s'.resources
    ensures forall k :: k in Inner(templates, id) ==>
              k in s'.resources[id] && s'.resources[id][k] == NewResource(templates[id][k])
    ensures forall k :: k in Inner(s.resources, id) && k !in Inner(templates, id) ==>
              k in s'.resources[id] && s'.resources[id][k] == s.resources[id][k]
    ensures forall k :: k in s'.resources[id] ==> k in Inner(templates, id) || k in Inner(s.resources, id)
    ensures forall other :: other != id ==> Get(s'.resources, other, map[]) == Get(s.resources, other, map[])
    ensures s'.changeListeners == s.changeListeners && s'.emptyListeners == s.emptyListeners
    ensures s'.fullListeners == s.fullListeners
  {
    var tm := Inner(templates, id);
    var made := map k | k in tm :: NewResource(tm[k]);
    s.(resources := s.resources[id := Inner(s.resources, id) + made])
  }

  /** ResourceInitializer::Deactivate: the entity's meters and all its listener records go. */
  function Deactivate(s: Stores, id: nat): (s': Stores)
    ensures id !in s'.resources && id !in s'.changeListeners
    ensures id !in s'.emptyListeners && id !in s'.fullListeners
    ensures forall other :: other != id && other in s.resources ==>
              other in s'.resources && s'.resources[other] == s.resources[other]
    ensures forall other :: other in s'.resources ==> other in s.resources
    // every other entity keeps its listener records
    ensures s'.changeListeners.Keys == s.changeListeners.Keys - {id} &&
            forall other :: other in s'.changeListeners ==> s'.changeListeners[other] == s.changeListeners[other]
    ensures s'.emptyListeners.Keys == s.emptyListeners.Keys - {id} &&
            forall other :: other in s'.emptyListeners ==> s'.emptyListeners[other] == s.emptyListeners[other]
    ensures s'.fullListeners.Keys == s.fullListeners.Keys - {id} &&
            forall other :: other in s'.fullListeners ==> s'.fullListeners[other] == s.fullListeners[other]
  {
    Stores(s.resources - {id}, s.changeListeners - {id}, s.emptyListeners - {id}, s.fullListeners - {id})
  }

  /** Activating then deactivating an entity that had nothing stored restores the stores,
      apart from the entity's listener records, which Deactivate also drops. */
  lemma ActivateDeactivate(s: Stores, templates: Templates, id: nat)
    requires id !in s.resources && id !in s.changeListeners
    requires id !in s.emptyListeners && id !in s.fullListeners
    ensures Deactivate(Activate(s, templates, id), id) == s
  {
    assert Activate(s, templates, id).resources - {id} == s.resources;
    assert s.changeListeners - {id} == s.changeListeners;
    assert s.emptyListeners - {id} == s.emptyListeners;
    assert s.fullListeners - {id} == s.fullListeners;
  }
}

=== FILE: sound.dfy ===
/** Sound bookkeeping: the intrusive doubly-linked list of playing sounds (head, tail and
    the mixer's cursor), Play/Stop/Update on it, the mixer's channel selection and offset
    advance, PlaySound's retrigger-or-create rule, the cue loader and the template copy.
    Sample data, WAV loading and the output filter stage are not modelled. A sound is
    addressed by a reference number (its address in the source). */
module Sound {
  import opened Base
  import Xml
  import Geometry
  import MathUtil

  type Ref = nat

  /** Sound: its list links, playing flag and mixer state. */
  datatype Node = Node(next: Option<Ref>, prev: Option<Ref>, playing: bool,
                       offset: nat, length: nat, volume: real, repeat: bool,
                       position: Geometry.Vec2)

  /** sHead, sTail and sNext together with every allocated sound. */
  datatype Playlist = Playlist(head: Option<Ref>, tail: Option<Ref>, cursor: Option<Ref>,
                               nodes: map<Ref, Node>)

  function First(order: seq<Ref>): Option<Ref> {
    if |order| == 0 then None else Some(order[0])
  }

  function Last(order: seq<Ref>): Option<Ref> {
    if |order| == 0 then None else Some(order[|order| - 1])
  }

  predicate Distinct(order: seq<Ref>) {
    forall i, j :: 0 <= i < j < |order| ==> order[i] != order[j]
  }

  /** The links form a well-formed doubly-linked list visiting `order`, which holds exactly
      the playing sounds; stopped sounds carry no links; the cursor is unset or playing. */
  predicate Valid(pl: Playlist, order: seq<Ref>) {
    && Distinct(order)
    && (forall i :: 0 <= i < |order| ==> order[i] in pl.nodes)
    && (forall r :: r in pl.nodes ==> (pl.nodes[r].playing <==> r in order))
    && (forall r :: r in pl.nodes && !pl.nodes[r].playing ==> pl.nodes[r].next.None? && pl.nodes[r].prev.None?)
    && pl.head == First(order) && pl.tail == Last(order)
    && (pl.cursor.None? || pl.cursor.value in order)
    && (forall i :: 0 <= i < |order| ==> LinkedAt(pl, order, i))
  }

  /** The sound at position i links to its neighbours in `order`. */
  predicate LinkedAt(pl: Playlist, order: seq<Ref>, i: nat)
    requires i < |order| && order[i] in pl.nodes
  {
    && pl.nodes[order[i]].next == (if i + 1 < |order| then Some(order[i + 1]) else None)
    && pl.nodes[order[i]].prev == (if i > 0 then Some(order[i - 1]) else None)
  }

  /** Sound::Play: a stopped sound is linked in at the tail (becoming the head of an empty
      list); a playing one keeps its place. Either way its offset is reset. */
  function Play(pl: Playlist, x: Ref, offset: nat): (r: Playlist)
    requires x in pl.nodes
    ensures x in r.nodes && r.nodes[x].playing && r.nodes[x].offset == offset
    ensures r.nodes.Keys == pl.nodes.Keys
    ensures pl.nodes[x].playing ==> r == pl.(nodes := pl.nodes[x := pl.nodes[x].(offset := offset)])
    ensures !pl.nodes[x].playing ==> r.tail == Some(x) && r.nodes[x].prev == pl.tail
  {
    var n := pl.nodes[x];
    if n.playing then
      pl.(nodes := pl.nodes[x := n.(offset := offset)])
    else
      var nodes1 := pl.nodes[x := n.(playing := true, prev := pl.tail)];
      var nodes2 := if pl.tail.Some? && pl.tail.value in nodes1
                    then nodes1[pl.tail.value := nodes1[pl.tail.value].(next := Some(x))]
                    else nodes1;
      var head := if pl.head.None? then Some(x) else pl.head;
      Playlist(head, Some(x), pl.cursor, nodes2[x := nodes2[x].(offset := offset)])
  }

  /** Sound::Stop: a playing sound is unlinked (head, tail and cursor moved past it) and
      its own links cleared; a stopped sound leaves the list alone. */
  function Stop(pl: Playlist, x: Ref): (r: Playlist)
    requires x in pl.nodes
    ensures x in r.nodes && !r.nodes[x].playing && r.nodes.Keys == pl.nodes.Keys
    ensures pl.nodes[x].playing ==> r.nodes[x].next.None? && r.nodes[x].prev.None?
    ensures !pl.nodes[x].playing ==> r == pl
  {
    if !pl.nodes[x].playing then pl else Unlink(pl, x)
  }

  /** The playing branch of Stop. */
  function Unlink(pl: Playlist, x: Ref): (r: Playlist)
    requires x in pl.nodes
    ensures x in r.nodes && !r.nodes[x].playing && r.nodes.Keys == pl.nodes.Keys
    ensures r.nodes[x].next.None? && r.nodes[x].prev.None?
  {
    var n := pl.nodes[x];
    var nodes1 := pl.nodes[x := n.(playing := false)];
    var head := if pl.head == Some(x) then n.next else pl.head;
    var tail := if pl.tail == Some(x) then n.prev else pl.tail;
    var cursor := if pl.cursor == Some(x) then n.next else pl.cursor;
    var nodes2 := if n.next.Some? && n.next.value in nodes1
                  then nodes1[n.next.value := nodes1[n.next.value].(prev := n.prev)]
                  else nodes1;
    var nodes3 := if n.prev.Some? && n.prev.value in nodes2
                  then nodes2[n.prev.value := nodes2[n.prev.value].(next := n.next)]
                  else nodes2;
    Playlist(head, tail, cursor, nodes3[x := nodes3[x].(next := None, prev := None)])
  }

  /** How Play changes another sound: only the old tail gains a next link. */
  lemma PlayOther(pl: Playlist, x: Ref, offset: nat, y: Ref)
    requires x in pl.nodes && !pl.nodes[x].playing && y in pl.nodes && y != x
    ensures var n := Play(pl, x, offset).nodes[y];
            n.playing == pl.nodes[y].playing && n.prev == pl.nodes[y].prev &&
            n.next == (if pl.tail == Some(y) then Some(x) else pl.nodes[y].next)
  {
  }

  /** How Stop changes another sound: its neighbours are linked to each other. */
  lemma StopOther(pl: Playlist, x: Ref, y: Ref)
    requires x in pl.nodes && pl.nodes[x].playing && y in pl.nodes && y != x
    ensures var n := Stop(pl, x).nodes[y];
            var m := pl.nodes[x];
            n.playing == pl.nodes[y].playing &&
            n.next == (if m.prev == Some(y) then m.next else pl.nodes[y].next) &&
            n.prev == (if m.next == Some(y) then m.prev else pl.nodes[y].prev)
  {
  }

  /** Playing a stopped sound appends it to the list. */
  lemma PlayAppends(pl: Playlist, order: seq<Ref>, x: Ref, offset: nat)
    requires Valid(pl, order) && x in pl.nodes && !pl.nodes[x].playing
    ensures Valid(Play(pl, x, offset), order + [x])
  {
    var r := Play(pl, x, offset);
    var o2 := order + [x];
    assert x !in order;
    forall i | 0 <= i < |o2|
      ensures o2[i] in r.nodes && LinkedAt(r, o2, i)
    {
      PlayLinkedAt(pl, order, x, offset, i);
    }
    forall y | y in r.nodes
      ensures r.nodes[y].playing <==> y in o2
    {
      if y != x { PlayOther(pl, x, offset, y); }
    }
  }

  lemma PlayLinkedAt(pl: Playlist, order: seq<Ref>, x: Ref, offset: nat, i: nat)
    requires Valid(pl, order) && x in pl.nodes && !pl.nodes[x].playing && i <= |order|
    ensures var o2 := order + [x]; o2[i] in Play(pl, x, offset).nodes && LinkedAt(Play(pl, x, offset), o2, i)
  {
    var r := Play(pl, x, offset);
    var o2 := order + [x];
    if i == |order| {
      assert o2[i] == x;
      assert r.nodes[x].prev == pl.tail;
      assert i > 0 ==> o2[i - 1] == order[i - 1] && pl.tail == Some(order[i - 1]);
    } else {
      assert x != order[i];
      PlayOther(pl, x, offset, order[i]);
      assert o2[i] == order[i];
      assert LinkedAt(pl, order, i);
      assert i > 0 ==> o2[i - 1] == order[i - 1];
      if i + 1 == |order| {
        assert pl.tail == Some(order[i]);
      } else {
        assert o2[i + 1] == order[i + 1];
        assert Some(order[i]) != pl.tail;
      }
    }
  }

  /** Playing a playing sound only rewinds it. */
  lemma PlayRewinds(pl: Playlist, order: seq<Ref>, x: Ref, offset: nat)
    requires Valid(pl, order) && x in pl.nodes && pl.nodes[x].playing
    ensures Valid(Play(pl, x, offset), order)
  {
    var r := Play(pl, x, offset);
    forall i | 0 <= i < |order|
      ensures LinkedAt(r, order, i)
    {
      assert LinkedAt(pl, order, i);
    }
  }

  /** Stopping the sound at position i removes exactly it from the list. */
  lemma StopRemoves(pl: Playlist, order: seq<Ref>, i: nat)
    requires Valid(pl, order) && i < |order|
    ensures Valid(Stop(pl, order[i]), order[..i] + order[i + 1..])
  {
    var r := Stop(pl, order[i]);
    var o2 := order[..i] + order[i + 1..];
    forall k | 0 <= k < |o2|
      ensures o2[k] in r.nodes && LinkedAt(r, o2, k)
    {
      StopLinkedAt(pl, order, i, k);
    }
    StopMembers(pl, order, i);
    StopEnds(pl, order, i);
  }

  /** After the removal the remaining order is duplicate-free and holds exactly the
      playing sounds. */
  lemma StopMembers(pl: Playlist, order: seq<Ref>, i: nat)
    requires Valid(pl, order) && i < |order|
    ensures var o2 := order[..i] + order[i + 1..];
            var r := Stop(pl, order[i]);
            Distinct(o2) && (forall k :: 0 <= k < |o2| ==> o2[k] in r.nodes) &&
            (forall y :: y in r.nodes ==> (r.nodes[y].playing <==> y in o2)) &&
            (forall y :: y in r.nodes && !r.nodes[y].playing ==> r.nodes[y].next.None? && r.nodes[y].prev.None?)
  {
    var x := order[i];
    var r := Stop(pl, x);
    var o2 := order[..i] + order[i + 1..];
    forall a, b | 0 <= a < b < |o2|
      ensures o2[a] != o2[b]
    {
      assert o2[a] == (if a < i then order[a] else order[a + 1]);
      assert o2[b] == (if b < i then order[b] else order[b + 1]);
    }
    forall y | y in r.nodes
      ensures (r.nodes[y].playing <==> y in o2)
      ensures !r.nodes[y].playing ==> r.nodes[y].next.None? && r.nodes[y].prev.None?
    {
      assert LinkedAt(pl, order, i);
      if y != x { StopOther(pl, x, y); }
      if y in order {
        var j :| 0 <= j < |order| && order[j] == y;
        if j < i { assert o2[j] == y; } else if j > i { assert o2[j - 1] == y; }
      }
    }
  }

  /** After the removal head, tail and cursor agree with the remaining order. */
  lemma StopEnds(pl: Playlist, order: seq<Ref>, i: nat)
    requires Valid(pl, order) && i < |order|
    ensures var o2 := order[..i] + order[i + 1..];
            var r := Stop(pl, order[i]);
            r.head == First(o2) && r.tail == Last(o2) && (r.cursor.None? || r.cursor.value in o2)
  {
    var x := order[i];
    var r := Stop(pl, x);
    var o2 := order[..i] + order[i + 1..];
    assert LinkedAt(pl, order, i);
    if r.cursor.Some? {
      var c := r.cursor.value;
      assert c in order && c != x;
      var j :| 0 <= j < |order| && order[j] == c;
      if j < i { assert o2[j] == c; } else { assert o2[j - 1] == c; }
    }
    if |o2| > 0 {
      assert o2[0] == (if i == 0 then order[1] else order[0]);
      assert o2[|o2| - 1] == (if i == |order| - 1 then order[i - 1] else order[|order| - 1]);
    }
  }

  lemma StopLinkedAt(pl: Playlist, order: seq<Ref>, i: nat, k: nat)
    requires Valid(pl, order) && i < |order| && k + 1 < |order|
    ensures var o2 := order[..i] + order[i + 1..];
            o2[k] in Stop(pl, order[i]).nodes && LinkedAt(Stop(pl, order[i]), o2, k)
  {
    var x := order[i];
    var o2 := order[..i] + order[i + 1..];
    var y := o2[k];
    assert LinkedAt(pl, order, i);
    if k < i {
      assert y == order[k] && y != x;
      StopOther(pl, x, y);
      assert LinkedAt(pl, order, k);
      assert k > 0 ==> o2[k - 1] == order[k - 1];
      if k + 1 == i {
        assert k + 1 < |o2| ==> o2[k + 1] == order[i + 1];
      } else {
        assert o2[k + 1] == order[k + 1];
        assert order[k] != order[i - 1];
      }
    } else {
      assert y == order[k + 1] && y != x;
      StopOther(pl, x, y);
      assert LinkedAt(pl, order, k + 1);
      assert k + 1 < |o2| ==> o2[k + 1] == order[k + 2];
      if k == i {
        assert k > 0 ==> o2[k - 1] == order[i - 1];
      } else {
        assert o2[k - 1] == order[k];
        assert order[k + 1] != order[i + 1];
      }
    }
  }

  /** The mixer's traversal: follow next links from a sound, at most `fuel` steps. */
  function Walk(nodes: map<Ref, Node>, from: Option<Ref>, fuel: nat): (r: seq<Ref>)
    ensures |r| <= fuel && forall i :: 0 <= i < |r| ==> r[i] in nodes
    decreases fuel
  {
    if fuel == 0 || from.None? || from.value !in nodes then []
    else [from.value] + Walk(nodes, nodes[from.value].next, fuel - 1)
  }

  /** Walking a valid list from its head, with at least as many steps as it is long,
      visits exactly the playing sounds in order. */
  lemma WalkVisitsOrder(pl: Playlist, order: seq<Ref>, fuel: nat)
    requires Valid(pl, order) && fuel >= |order|
    ensures Walk(pl.nodes, pl.head, fuel) == order
  {
    if |order| > 0 {
      WalkSuffix(pl, order, 0, fuel);
    }
  }

  lemma {:induction false} WalkSuffix(pl: Playlist, order: seq<Ref>, i: nat, fuel: nat)
    requires Valid(pl, order) && i < |order| && fuel >= |order| - i
    ensures Walk(pl.nodes, Some(order[i]), fuel) == order[i..]
    decreases |order| - i
  {
    assert LinkedAt(pl, order, i);
    if i + 1 < |order| {
      WalkSuffix(pl, order, i + 1, fuel - 1);
    } else {
      assert Walk(pl.nodes, pl.nodes[order[i]].next, fuel - 1) == [];
    }
  }

  /** A duplicate-free list of sounds is no longer than the set of all sounds. */
  lemma {:induction false} DistinctFits(order: seq<Ref>, nodes: map<Ref, Node>)
    requires Distinct(order) && forall i :: 0 <= i < |order| ==> order[i] in nodes
    ensures |order| <= |nodes|
    decreases |order|
  {
    if |order| > 0 {
      var x := order[|order| - 1];
      var front := order[..|order| - 1];
      assert forall i :: 0 <= i < |front| ==> front[i] != x;
      DistinctFits(front, nodes - {x});
    }
  }

  /** Sound::Update: a non-repeating sound at or past its end stops; otherwise it follows
      its entity, or the listener when the entity is gone. */
  function Update(pl: Playlist, x: Ref, entity: Option<Geometry.Vec2>, listener: Geometry.Vec2): (r: Playlist)
    requires x in pl.nodes
    ensures var n := pl.nodes[x];
            (!n.repeat && n.offset >= n.length ==> r == Stop(pl, x)) &&
            (n.repeat || n.offset < n.length ==>
               r.nodes == pl.nodes[x := n.(position := if entity.Some? then entity.value else listener)] &&
               r.head == pl.head && r.tail == pl.tail && r.cursor == pl.cursor)
  {
    var n := pl.nodes[x];
    if !n.repeat && n.offset >= n.length then Stop(pl, x)
    else pl.(nodes := pl.nodes[x := n.(position := if entity.Some? then entity.value else listener)])
  }

  /** Update keeps the list well formed, dropping exactly a finished sound. */
  lemma UpdateKeepsList(pl: Playlist, order: seq<Ref>, i: nat, entity: Option<Geometry.Vec2>, listener: Geometry.Vec2)
    requires Valid(pl, order) && i < |order|
    ensures var n := pl.nodes[order[i]];
            var r := Update(pl, order[i], entity, listener);
            (!n.repeat && n.offset >= n.length ==> Valid(r, order[..i] + order[i + 1..]) && !r.nodes[order[i]].playing) &&
            (n.repeat || n.offset < n.length ==> Valid(r, order))
  {
    var n := pl.nodes[order[i]];
    var r := Update(pl, order[i], entity, listener);
    if !n.repeat && n.offset >= n.length {
      StopRemoves(pl, order, i);
    } else {
      forall k | 0 <= k < |order|
        ensures LinkedAt(r, order, k)
      {
        assert LinkedAt(pl, order, k);
      }
    }
  }

  // ---------------------------------------------------------------- offset advance

  /** The per-sound step at the end of Sound::Mix: the offset moves on by the bytes mixed;
      past the end a repeating sound wraps around and a one-shot sound is clamped to its
      end. A repeating sound of length zero would divide by zero, so it is excluded. */
  function AdvanceOffset(offset: nat, length: nat, repeat: bool, bytes: nat): (r: nat)
    requires repeat ==> length > 0
    ensures repeat && offset < length ==> r == (offset + bytes) % length && r < length
    ensures !repeat && offset <= length ==> r == if offset + bytes < length then offset + bytes else length
    ensures !repeat && offset <= length ==> offset <= r <= length
  {
    var moved := offset + bytes;
    if moved >= length then (if repeat then moved % length else length) else moved
  }

  /** Two mixer passes advance a sound exactly as one pass over the combined bytes. */
  lemma AdvanceTwice(offset: nat, length: nat, repeat: bool, a: nat, b: nat)
    requires repeat ==> length > 0
    requires offset <= length && (repeat ==> offset < length)
    ensures AdvanceOffset(AdvanceOffset(offset, length, repeat, a), length, repeat, b)
            == AdvanceOffset(offset, length, repeat, a + b)
  {
    if repeat {
      var m := offset + a + b;
      var q1 := (offset + a) / length;
      assert offset + a == q1 * length + (offset + a) % length;
      assert m == q1 * length + ((offset + a) % length + b);
      assert m == (m / length) * length + m % length;
      assert (offset + a) % length + b == (m / length - q1) * length + m % length;
      MathUtil.DivModUnique((offset + a) % length + b, length, m / length - q1, m % length);
    }
  }

  /** The offset advance of Sound::Mix applied to every sound in list order. */
  function AdvanceAll(nodes: map<Ref, Node>, order: seq<Ref>, bytes: nat): (r: map<Ref, Node>)
    requires forall i :: 0 <= i < |order| ==> order[i] in nodes && (nodes[order[i]].repeat ==> nodes[order[i]].length > 0)
    ensures r.Keys == nodes.Keys
    decreases |order|
  {
    if |order| == 0 then nodes
    else
      var x := order[|order| - 1];
      var prior := AdvanceAll(nodes, order[..|order| - 1], bytes);
      prior[x := prior[x].(offset := AdvanceOffset(nodes[x].offset, nodes[x].length, nodes[x].repeat, bytes))]
  }

  /** Each listed sound advances once; nothing else about any sound changes. */
  lemma {:induction false} AdvanceAllEffect(nodes: map<Ref, Node>, order: seq<Ref>, bytes: nat)
    requires forall i :: 0 <= i < |order| ==> order[i] in nodes && (nodes[order[i]].repeat ==> nodes[order[i]].length > 0)
    requires Distinct(order)
    ensures var r := AdvanceAll(nodes, order, bytes);
            (forall y :: y in nodes ==> r[y].(offset := nodes[y].offset) == nodes[y]) &&
            (forall y :: y in nodes && y !in order ==> r[y] == nodes[y]) &&
            (forall i :: 0 <= i < |order| ==>
               r[order[i]].offset == AdvanceOffset(nodes[order[i]].offset, nodes[order[i]].length, nodes[order[i]].repeat, bytes))
    decreases |order|
  {
    if |order| > 0 {
      var front := order[..|order| - 1];
      AdvanceAllEffect(nodes, front, bytes);
      var x := order[|order| - 1];
      var prior := AdvanceAll(nodes, front, bytes);
      var r := AdvanceAll(nodes, order, bytes);
      assert r == prior[x := prior[x].(offset := AdvanceOffset(nodes[x].offset, nodes[x].length, nodes[x].repeat, bytes))];
      forall y | y in nodes
        ensures r[y].(offset := nodes[y].offset) == nodes[y]
      {
        if y != x { assert r[y] == prior[y]; }
      }
      forall y | y in nodes && y !in order
        ensures r[y] == nodes[y]
      {
        assert y != x && y !in front;
        assert r[y] == prior[y];
      }
      forall i | 0 <= i < |order|
        ensures r[order[i]].offset == AdvanceOffset(nodes[order[i]].offset, nodes[order[i]].length, nodes[order[i]].repeat, bytes)
      {
        if i < |order| - 1 {
          assert order[i] == front[i] && order[i] != x;
          assert r[order[i]] == prior[front[i]];
        }
      }
    }
  }

  /** Advancing offsets leaves the list itself untouched. */
  lemma AdvanceKeepsList(pl: Playlist, order: seq<Ref>, bytes: nat)
    requires Valid(pl, order)
    requires forall i :: 0 <= i < |order| ==> (pl.nodes[order[i]].repeat ==> pl.nodes[order[i]].length > 0)
    ensures Valid(pl.(nodes := AdvanceAll(pl.nodes, order, bytes)), order)
  {
    var r := pl.(nodes := AdvanceAll(pl.nodes, order, bytes));
    AdvanceAllEffect(pl.nodes, order, bytes);
    forall k | 0 <= k < |order|
      ensures LinkedAt(r, order, k)
    {
      assert LinkedAt(pl, order, k);
      assert r.nodes[order[k]].(offset := pl.nodes[order[k]].offset) == pl.nodes[order[k]];
    }
    forall y | y in r.nodes
      ensures r.nodes[y].playing == pl.nodes[y].playing && r.nodes[y].next == pl.nodes[y].next && r.nodes[y].prev == pl.nodes[y].prev
    {
      assert r.nodes[y].(offset := pl.nodes[y].offset) == pl.nodes[y];
    }
  }

  // ---------------------------------------------------------------- mixer weight

  /** Sound fall-off: volume over one plus the squared distance to the listener in units of
      128 squared. */
  function Falloff(volume: real, distSq: real): (r: real)
    requires distSq >= 0.0
    ensures volume >= 0.0 ==> 0.0 <= r <= volume
    ensures distSq == 0.0 ==> r == volume
  {
    var d := 1.0 + distSq / 16384.0;
    assert volume >= 0.0 ==> 0.0 <= volume / d <= volume by {
      if volume >= 0.0 { ShrinkBy(volume, d); }
    }
    volume / d
  }

  lemma ShrinkBy(v: real, d: real)
    requires v >= 0.0 && d >= 1.0
    ensures 0.0 <= v / d <= v
  {
    var q := v / d;
    assert q * d == v;
    if q < 0.0 { MathUtil.MulPos(-q, d); }
    MathUtil.MulNonneg(q, d - 1.0);
    assert v - q == q * (d - 1.0);
  }

  /** The channel weight as written: the unsigned quotient offset / length is 0 before the
      end and 1 at it, so the weight does not diminish while the sound plays. */
  function WeightAsWritten(volume: real, offset: nat, length: nat, repeat: bool): (r: real)
    requires length > 0
    ensures repeat || offset < length ==> r == volume
    ensures !repeat && offset == length ==> r == 0.0
  {
    if repeat then volume
    else if offset < length then
      MathUtil.DivModUnique(offset, length, 0, offset);
      volume * (1.0 - (offset / length) as real)
    else if offset == length then
      MathUtil.DivModUnique(offset, length, 1, 0);
      volume * (1.0 - (offset / length) as real)
    else
      volume * (1.0 - (offset / length) as real)
  }

  /** The channel weight as intended: a one-shot sound's weight falls linearly from its
      volume at the start to zero at its end. */
  function Weight(volume: real, offset: nat, length: nat, repeat: bool): (r: real)
    requires length > 0
    ensures repeat ==> r == volume
    ensures !repeat && offset == 0 ==> r == volume
    ensures !repeat && offset == length ==> r == 0.0
    ensures volume >= 0.0 && offset <= length ==> 0.0 <= r <= volume
  {
    if repeat then volume
    else
      var f := offset as real / length as real;
      assert (offset == 0 ==> f == 0.0) && (offset == length ==> f == 1.0) &&
             (offset <= length ==> 0.0 <= f <= 1.0) by { Fraction(offset, length); }
      assert volume >= 0.0 && offset <= length ==> 0.0 <= volume * (1.0 - f) <= volume by {
        if volume >= 0.0 && offset <= length {
          MathUtil.MulNonneg(volume, 1.0 - f);
          MathUtil.MulNonneg(volume, f);
          assert volume * (1.0 - f) == volume - volume * f;
        }
      }
      volume * (1.0 - f)
  }

  /** The played fraction offset / length. */
  lemma Fraction(offset: nat, length: nat)
    requires length > 0
    ensures var f := offset as real / length as real;
            (offset == 0 ==> f == 0.0) && (offset == length ==> f == 1.0) &&
            (offset <= length ==> 0.0 <= f <= 1.0)
  {
    if offset <= length { MathUtil.DivUnit(offset as real, length as real); }
  }

  /** Dividing by a positive number keeps a strict order. */
  lemma DivStrict(a: real, b: real, l: real)
    requires a < b && l > 0.0
    ensures a / l < b / l
  {
    var x, y := a / l, b / l;
    assert x * l == a && y * l == b;
    if y <= x {
      MathUtil.MulNonneg(x - y, l);
      assert false;
    }
  }

  /** The intended weight strictly diminishes as a one-shot sound plays on. */
  lemma WeightDiminishes(volume: real, o1: nat, o2: nat, length: nat)
    requires length > 0 && volume > 0.0 && o1 < o2
    ensures Weight(volume, o2, length, false) < Weight(volume, o1, length, false)
  {
    var l := length as real;
    var f1, f2 := o1 as real / l, o2 as real / l;
    var w1, w2 := Weight(volume, o1, length, false), Weight(volume, o2, length, false);
    assert w1 == volume * (1.0 - f1);
    assert w2 == volume * (1.0 - f2);
    DivStrict(o1 as real, o2 as real, l);
    ScaleStrict(volume, f1, f2, w1, w2);
  }

  lemma ScaleStrict(v: real, f1: real, f2: real, w1: real, w2: real)
    requires v > 0.0 && f1 < f2 && w1 == v * (1.0 - f1) && w2 == v * (1.0 - f2)
    ensures w2 < w1
  {
    assert v * (1.0 - f1) - v * (1.0 - f2) == v * (f2 - f1);
    MathUtil.MulPos(v, f2 - f1);
  }

  /** As written, a one-shot sound keeps its full weight until its very end: half-way
      through a sound of volume 1 still weighs 1 rather than one half. */
  lemma WeightNeverDiminishes(volume: real, offset: nat, length: nat)
    requires 0 <= offset < length
    ensures WeightAsWritten(volume, offset, length, false) == volume
    ensures WeightAsWritten(1.0, 1, 2, false) == 1.0 && Weight(1.0, 1, 2, false) == 0.5
  {
    MathUtil.DivModUnique(offset, length, 0, offset);
    MathUtil.DivModUnique(1, 2, 0, 1);
  }

  // ---------------------------------------------------------------- channel selection

  /** Sound::Mix mixes at most this many sounds at once. */
  const MaxChannels: nat := 4

  /** Sounds quieter than this after fall-off are not mixed. */
  const QuietLevel: real := 1.0 / 256.0

  /** A playing sound as the mixer sees it: fall-off volume and channel weight. */
  datatype Voice = Voice(volume: real, weight: real)

  /** A mixer channel: which voice of the pass it plays, at what volume and weight. */
  datatype Channel = Channel(source: nat, volume: real, weight: real)

  /** Which channel weight a mixer pass uses: the source's as written, or the intended one. */
  datatype Reading = AsWritten | Corrected

  /** How the mixer hears one sound at squared distance distSq: its volume after fall-off,
      and its channel weight under the given reading. */
  function VoiceOf(rd: Reading, n: Node, distSq: real): (v: Voice)
    requires distSq >= 0.0 && n.length > 0
    ensures n.volume >= 0.0 ==> 0.0 <= v.volume <= n.volume
    ensures distSq == 0.0 ==> v.volume == n.volume
    // a looping sound, or one just started, weighs its full volume
    ensures n.repeat || n.offset == 0 ==> v.weight == v.volume
    // as written a one-shot keeps that weight until its last sample
    ensures rd.AsWritten? && n.offset < n.length ==> v.weight == v.volume
    ensures !n.repeat && n.offset == n.length ==> v.weight == 0.0
    ensures rd.Corrected? && n.volume >= 0.0 && n.offset <= n.length ==> 0.0 <= v.weight <= v.volume
  {
    var volume := Falloff(n.volume, distSq);
    Voice(volume, if rd.AsWritten? then WeightAsWritten(volume, n.offset, n.length, n.repeat)
                  else Weight(volume, n.offset, n.length, n.repeat))
  }

  /** The two weights rank sounds differently: as written, a half-played sound of volume 1
      outweighs a fresh one of volume 0.6; as intended, the fresh one is heavier. */
  lemma ReadingsRankDifferently()
    ensures var half := Node(None, None, true, 1, 2, 1.0, false, Geometry.Zero);
            var start := Node(None, None, true, 0, 2, 0.6, false, Geometry.Zero);
            VoiceOf(AsWritten, half, 0.0).weight > VoiceOf(AsWritten, start, 0.0).weight &&
            VoiceOf(Corrected, half, 0.0).weight < VoiceOf(Corrected, start, 0.0).weight
  {
    assert Weight(1.0, 1, 2, false) == 0.5 by { WeightNeverDiminishes(1.0, 1, 2); }
  }

  predicate Audible(v: Voice) {
    v.volume >= QuietLevel
  }

  predicate SortedByWeight(chs: seq<Channel>) {
    forall a, b :: 0 <= a < b < |chs| ==> chs[a].weight >= chs[b].weight
  }

  /** Where the channel loop puts a new weight: just after the last channel at least as
      heavy, scanning from the back. */
  function Slot(chs: seq<Channel>, w: real): (p: nat)
    ensures p <= |chs|
  {
    if |chs| == 0 || chs[|chs| - 1].weight >= w then |chs| else Slot(chs[..|chs| - 1], w)
  }

  /** Everything from the slot on is lighter than w; the entry before it is not. */
  lemma {:induction false} SlotSplits(chs: seq<Channel>, w: real)
    ensures var p := Slot(chs, w);
            (forall k :: p <= k < |chs| ==> chs[k].weight < w) && (p > 0 ==> chs[p - 1].weight >= w)
  {
    if |chs| > 0 && chs[|chs| - 1].weight < w {
      SlotSplits(chs[..|chs| - 1], w);
    }
  }

  /** The channel list after offering one more sound: inserted at its slot, the list cut
      back to MaxChannels entries. */
  function Offer(chs: seq<Channel>, c: Channel): (r: seq<Channel>)
    ensures |chs| <= MaxChannels ==> |r| == if |chs| < MaxChannels then |chs| + 1 else MaxChannels
  {
    var p := Slot(chs, c.weight);
    var full := chs[..p] + [c] + chs[p..];
    if |full| <= MaxChannels then full else full[..MaxChannels]
  }

  /** The insertion loop of Sound::Mix: shift lighter channels up one place from the back,
      then write the new channel into the gap unless the gap is past the last channel. */
  method InsertChannel(chs: seq<Channel>, c: Channel) returns (r: seq<Channel>)
    requires |chs| <= MaxChannels
    ensures r == Offer(chs, c)
  {
    var buf, j := ShiftLighter(chs, c);
    var count := |chs|;
    if j < MaxChannels as int - 1 {
      buf := buf[j + 1 := c];
      if count < MaxChannels {
        count := count + 1;
      }
      assert buf == chs[..j + 1] + [c] + chs[j + 1..];
    } else {
      assert buf[..count] == chs;
    }
    r := buf[..count];
    OfferAt(chs, c, j + 1);
  }

  /** The shifting half of the insertion loop: j ends just before the new channel's slot,
      everything above it moved up by one. */
  method ShiftLighter(chs: seq<Channel>, c: Channel) returns (buf: seq<Channel>, j: int)
    ensures -1 <= j < |chs| && j + 1 == Slot(chs, c.weight) && |buf| == |chs| + 1
    ensures forall k :: 0 <= k <= j ==> buf[k] == chs[k]
    ensures forall k :: j + 2 <= k < |buf| ==> buf[k] == chs[k - 1]
  {
    buf := chs + [c];
    j := |chs| - 1;
    assert chs[..j + 1] == chs;
    while j >= 0 && buf[j].weight < c.weight
      invariant -1 <= j < |chs| && |buf| == |chs| + 1
      invariant forall k :: 0 <= k <= j ==> buf[k] == chs[k]
      invariant forall k :: j + 2 <= k < |buf| ==> buf[k] == chs[k - 1]
      invariant Slot(chs, c.weight) == Slot(chs[..j + 1], c.weight)
      decreases j + 1
    {
      SlotSkip(chs, c.weight, j);
      buf := buf[j + 1 := buf[j]];
      j := j - 1;
    }
    SlotStop(chs, c.weight, j);
  }

  lemma SlotSkip(chs: seq<Channel>, w: real, j: nat)
    requires j < |chs| && chs[j].weight < w
    ensures Slot(chs[..j + 1], w) == Slot(chs[..j], w)
  {
    assert chs[..j + 1][..j] == chs[..j];
  }

  lemma SlotStop(chs: seq<Channel>, w: real, j: int)
    requires -1 <= j < |chs| && (j >= 0 ==> chs[j].weight >= w)
    ensures Slot(chs[..j + 1], w) == j + 1
  {
  }

  /** Offer spelled out for a known slot. */
  lemma OfferAt(chs: seq<Channel>, c: Channel, p: nat)
    requires |chs| <= MaxChannels && p == Slot(chs, c.weight)
    ensures p < MaxChannels ==> Offer(chs, c) == (chs[..p] + [c] + chs[p..])[..if |chs| < MaxChannels then |chs| + 1 else MaxChannels]
    ensures p >= MaxChannels ==> Offer(chs, c) == chs
  {
    if p >= MaxChannels {
      OfferPast(chs, c, p);
    } else if |chs| < MaxChannels {
      OfferRoom(chs, c, p);
    }
  }

  /** A channel whose slot is past the last place is not taken. */
  lemma OfferPast(chs: seq<Channel>, c: Channel, p: nat)
    requires |chs| <= MaxChannels <= p && p == Slot(chs, c.weight)
    ensures Offer(chs, c) == chs
  {
    var full := chs[..p] + [c] + chs[p..];
    assert chs[..p] == chs;
    assert full[..MaxChannels] == chs;
  }

  /** With room left, the offered channel is inserted and nothing is dropped. */
  lemma OfferRoom(chs: seq<Channel>, c: Channel, p: nat)
    requires |chs| < MaxChannels && p == Slot(chs, c.weight)
    ensures Offer(chs, c) == (chs[..p] + [c] + chs[p..])[..|chs| + 1]
  {
    var full := chs[..p] + [c] + chs[p..];
    assert full[..|chs| + 1] == full;
  }

  /** Offering keeps the channels heaviest first. */
  lemma OfferSorted(chs: seq<Channel>, c: Channel)
    requires SortedByWeight(chs)
    ensures SortedByWeight(Offer(chs, c))
  {
    var p := Slot(chs, c.weight);
    SlotSplits(chs, c.weight);
    var full := chs[..p] + [c] + chs[p..];
    forall a, b | 0 <= a < b < |full|
      ensures full[a].weight >= full[b].weight
    {
      if a < p && b == p {
        assert chs[a].weight >= chs[p - 1].weight;
      }
    }
  }

  /** Every channel after an offer is the new one or was there before. */
  lemma OfferContents(chs: seq<Channel>, c: Channel)
    requires |chs| <= MaxChannels
    ensures forall k :: 0 <= k < |Offer(chs, c)| ==> Offer(chs, c)[k] == c || Offer(chs, c)[k] in chs
  {
    var p := Slot(chs, c.weight);
    OfferAt(chs, c, p);
    var full := chs[..p] + [c] + chs[p..];
    assert forall k :: 0 <= k < |full| ==> full[k] == c || full[k] in chs;
  }

  /** An offer drops nothing from a list with room, and at most the last entry of a full one. */
  lemma OfferRetains(chs: seq<Channel>, c: Channel, k: nat)
    requires |chs| <= MaxChannels && k < |chs| && (k < MaxChannels - 1 || |chs| < MaxChannels)
    ensures chs[k] in Offer(chs, c)
  {
    var p := Slot(chs, c.weight);
    OfferAt(chs, c, p);
    var r := Offer(chs, c);
    if k < p { assert r[k] == chs[k]; } else { assert r[k + 1] == chs[k]; }
  }

  /** A new channel is refused only by a full list whose lightest entry is at least as heavy. */
  lemma OfferAdmits(chs: seq<Channel>, c: Channel)
    requires |chs| <= MaxChannels
    ensures c !in Offer(chs, c) ==> |chs| == MaxChannels && c.weight <= chs[MaxChannels - 1].weight
  {
    var p := Slot(chs, c.weight);
    OfferAt(chs, c, p);
    SlotSplits(chs, c.weight);
    if p < MaxChannels {
      assert Offer(chs, c)[p] == c;
    }
  }

  /** The lightest weight of a full list never goes down. */
  lemma OfferRaisesFloor(chs: seq<Channel>, c: Channel)
    requires |chs| == MaxChannels && SortedByWeight(chs)
    ensures Offer(chs, c)[MaxChannels - 1].weight >= chs[MaxChannels - 1].weight
  {
    var p := Slot(chs, c.weight);
    OfferAt(chs, c, p);
    SlotSplits(chs, c.weight);
    var r := Offer(chs, c);
    if p < MaxChannels - 1 {
      assert r[MaxChannels - 1] == chs[MaxChannels - 2];
    } else if p == MaxChannels - 1 {
      assert r[MaxChannels - 1] == c;
    }
  }

  /** The number of voices loud enough to be mixed. */
  function AudibleCount(voices: seq<Voice>): (n: nat)
    ensures n <= |voices|
  {
    if |voices| == 0 then 0
    else AudibleCount(voices[..|voices| - 1]) + (if Audible(voices[|voices| - 1]) then 1 else 0)
  }

  function ChannelFor(voices: seq<Voice>, i: nat): Channel
    requires i < |voices|
  {
    Channel(i, voices[i].volume, voices[i].weight)
  }

  /** The channel loop of Sound::Mix over the voices in list order: quiet voices are
      skipped, every other voice is offered. */
  function SelectChannels(voices: seq<Voice>): (r: seq<Channel>)
    ensures |r| <= MaxChannels
  {
    if |voices| == 0 then []
    else
      var n := |voices| - 1;
      var sel := SelectChannels(voices[..n]);
      if Audible(voices[n]) then Offer(sel, ChannelFor(voices, n)) else sel
  }

  /** Channel selection keeps the MaxChannels heaviest audible voices, heaviest first:
      every channel is an audible voice, there are as many channels as audible voices up
      to MaxChannels, and an audible voice left out weighs no more than the lightest
      channel of a full list. */
  lemma SelectionKeepsHeaviest(voices: seq<Voice>)
    ensures var r := SelectChannels(voices);
            && SortedByWeight(r)
            && |r| == (if AudibleCount(voices) < MaxChannels then AudibleCount(voices) else MaxChannels)
            && (forall k :: 0 <= k < |r| ==> FromVoice(voices, r[k]))
            && (forall i :: 0 <= i < |voices| && Audible(voices[i]) && ChannelFor(voices, i) !in r ==>
                  |r| == MaxChannels && voices[i].weight <= r[MaxChannels - 1].weight)
  {
    SelectionSorted(voices);
    SelectionCount(voices);
    SelectionSources(voices);
    SelectionHeaviest(voices);
  }

  lemma {:induction false} SelectionSorted(voices: seq<Voice>)
    ensures SortedByWeight(SelectChannels(voices))
  {
    if |voices| > 0 {
      var n := |voices| - 1;
      SelectionSorted(voices[..n]);
      if Audible(voices[n]) {
        OfferSorted(SelectChannels(voices[..n]), ChannelFor(voices, n));
      }
    }
  }

  lemma {:induction false} SelectionCount(voices: seq<Voice>)
    ensures |SelectChannels(voices)| == if AudibleCount(voices) < MaxChannels then AudibleCount(voices) else MaxChannels
  {
    if |voices| > 0 {
      SelectionCount(voices[..|voices| - 1]);
    }
  }

  /** The channel plays voice `ch.source`, which is audible, at that voice's volume and weight. */
  predicate FromVoice(voices: seq<Voice>, ch: Channel) {
    ch.source < |voices| && Audible(voices[ch.source]) && ch == ChannelFor(voices, ch.source)
  }

  lemma {:induction false} SelectionSources(voices: seq<Voice>)
    ensures forall k :: 0 <= k < |SelectChannels(voices)| ==> FromVoice(voices, SelectChannels(voices)[k])
  {
    if |voices| > 0 {
      var n := |voices| - 1;
      var front := voices[..n];
      SelectionSources(front);
      var sel := SelectChannels(front);
      forall m | 0 <= m < |sel|
        ensures FromVoice(voices, sel[m])
      {
        assert FromVoice(front, sel[m]);
        assert front[sel[m].source] == voices[sel[m].source];
      }
      if Audible(voices[n]) {
        var c := ChannelFor(voices, n);
        OfferContents(sel, c);
      }
    }
  }

  lemma {:induction false} SelectionHeaviest(voices: seq<Voice>)
    ensures var r := SelectChannels(voices);
            forall i :: 0 <= i < |voices| && Audible(voices[i]) && ChannelFor(voices, i) !in r ==>
              |r| == MaxChannels && voices[i].weight <= r[MaxChannels - 1].weight
  {
    if |voices| > 0 {
      var n := |voices| - 1;
      var front := voices[..n];
      SelectionHeaviest(front);
      SelectionSorted(front);
      var sel := SelectChannels(front);
      forall i | 0 <= i < |voices| && Audible(voices[i]) && ChannelFor(voices, i) !in SelectChannels(voices)
        ensures |SelectChannels(voices)| == MaxChannels && voices[i].weight <= SelectChannels(voices)[MaxChannels - 1].weight
      {
        if i < n {
          assert front[i] == voices[i] && ChannelFor(front, i) == ChannelFor(voices, i);
        }
        HeaviestStep(voices, i);
      }
    }
  }

  /** One step of SelectionHeaviest for a single voice i. */
  lemma HeaviestStep(voices: seq<Voice>, i: nat)
    requires 0 < |voices| && i < |voices| && Audible(voices[i])
    requires var n := |voices| - 1;
             var front := voices[..n];
             var sel := SelectChannels(front);
             SortedByWeight(sel) &&
             (i < n && ChannelFor(front, i) !in sel ==> |sel| == MaxChannels && voices[i].weight <= sel[MaxChannels - 1].weight)
    requires ChannelFor(voices, i) !in SelectChannels(voices)
    ensures |SelectChannels(voices)| == MaxChannels && voices[i].weight <= SelectChannels(voices)[MaxChannels - 1].weight
  {
    var n := |voices| - 1;
    var front := voices[..n];
    var sel := SelectChannels(front);
    var ci := ChannelFor(voices, i);
    if i < n { assert front[i] == voices[i]; assert ChannelFor(front, i) == ci; }
    if Audible(voices[n]) {
      var c := ChannelFor(voices, n);
      var r := Offer(sel, c);
      assert SelectChannels(voices) == r;
      OfferAdmits(sel, c);
      if i < n && ci in sel {
        var m :| 0 <= m < |sel| && sel[m] == ci;
        if m < MaxChannels - 1 || |sel| < MaxChannels {
          OfferRetains(sel, c, m);
          assert false;
        }
        OfferRaisesFloor(sel, c);
      } else if i < n {
        OfferRaisesFloor(sel, c);
      } else {
        OfferRaisesFloor(sel, c);
      }
    } else {
      assert SelectChannels(voices) == sel;
      assert i < n;
    }
  }

  /** The channel loop as a method over the voices. */
  method MixChannels(voices: seq<Voice>) returns (chs: seq<Channel>)
    ensures chs == SelectChannels(voices)
  {
    chs := [];
    var i := 0;
    while i < |voices|
      invariant 0 <= i <= |voices| && |chs| <= MaxChannels
      invariant chs == SelectChannels(voices[..i])
    {
      assert voices[..i + 1][..i] == voices[..i];
      if voices[i].volume >= QuietLevel {
        chs := InsertChannel(chs, ChannelFor(voices, i));
      }
      i := i + 1;
    }
    assert voices[..i] == voices;
  }

  // ---------------------------------------------------------------- templates and cues

  /** SoundTemplate: sample bytes (None for the null pointer of an empty template), length
      in bytes, volume and repeat flag. */
  datatype Template = Template(data: Option<seq<int>>, length: nat, volume: real, repeat: bool)

  /** SoundTemplate's default constructor. */
  const EmptyTemplate: Template := Template(None, 0, 1.0, false)

  /** SoundTemplate's copy constructor: a fresh buffer of `length` bytes copied from the
      original's data. The buffer of a template without data is left as no data. */
  function CopyTemplate(t: Template): (r: Template)
    requires t.data.Some? ==> t.length <= |t.data.value|
    ensures r.length == t.length && r.volume == t.volume && r.repeat == t.repeat
    ensures r.data.Some? <==> t.data.Some?
    ensures r.data.Some? ==> (|r.data.value| == t.length &&
              forall k :: 0 <= k < t.length ==> r.data.value[k] == t.data.value[k])
  {
    Template(if t.data.Some? then Some(t.data.value[..t.length]) else None, t.length, t.volume, t.repeat)
  }

  /** A template whose buffer holds exactly its length is copied unchanged, and a copy of
      a copy equals the copy. */
  lemma CopyDuplicates(t: Template)
    requires t.data.Some? ==> t.length <= |t.data.value|
    ensures t.data.Some? && |t.data.value| == t.length ==> CopyTemplate(t) == t
    ensures t.data.None? ==> CopyTemplate(t) == t
    ensures CopyTemplate(CopyTemplate(t)) == CopyTemplate(t)
  {
    if t.data.Some? {
      assert CopyTemplate(t).data.value[..t.length] == CopyTemplate(t).data.value;
      if |t.data.value| == t.length {
        assert t.data.value[..t.length] == t.data.value;
      }
    }
  }

  /** Sound(template, id): a stopped, unlinked sound at offset zero with the template's
      length, volume and repeat flag. */
  function NewSound(t: Template): (n: Node)
    ensures !n.playing && n.next.None? && n.prev.None? && n.offset == 0
    ensures n.length == t.length && n.volume == t.volume && n.repeat == t.repeat
  {
    Node(None, None, false, 0, t.length, t.volume, t.repeat, Geometry.Zero)
  }

  /** Database::soundcue: per entity, cue name to sound template id. */
  type Cues = map<nat, map<nat, nat>>

  /** Database::sound: per entity, cue name to the sound playing it. */
  type Sounds = map<nat, map<nat, Ref>>

  /** Every sound the store refers to exists. */
  predicate StoreValid(sounds: Sounds, pl: Playlist) {
    forall id, cue :: id in sounds && cue in sounds[id] ==> sounds[id][cue] in pl.nodes
  }

  /** The cue-to-template lookup of PlaySound; absent entries read as 0, the empty template. */
  function CueTemplate(cues: Cues, templates: map<nat, Template>, id: nat, cue: nat): Template {
    Get(templates, Get(Inner(cues, id), cue, 0), EmptyTemplate)
  }

  /** PlaySound: if the cue's template has data, the sound already filed under (id, cue)
      is restarted, or else a new sound `created` is made from the template, filed and
      started. A cue without data does nothing. */
  function PlaySound(cues: Cues, templates: map<nat, Template>, sounds: Sounds, pl: Playlist,
                     id: nat, cue: nat, created: Ref): (r: (Sounds, Playlist))
    requires StoreValid(sounds, pl) && created !in pl.nodes
    ensures StoreValid(r.0, r.1)
    ensures CueTemplate(cues, templates, id, cue).data.None? ==> r == (sounds, pl)
    ensures CueTemplate(cues, templates, id, cue).data.Some? ==>
              && id in r.0 && cue in r.0[id]
              && r.1.nodes[r.0[id][cue]].playing && r.1.nodes[r.0[id][cue]].offset == 0
    ensures cue in Inner(sounds, id) ==> r.0 == sounds && r.1.nodes.Keys == pl.nodes.Keys
    ensures CueTemplate(cues, templates, id, cue).data.Some? && cue !in Inner(sounds, id) ==>
              r.0[id][cue] == created && r.1.nodes.Keys == pl.nodes.Keys + {created}
  {
    var t := CueTemplate(cues, templates, id, cue);
    if t.data.None? then (sounds, pl)
    else
      var slot := Inner(sounds, id);
      if cue in slot then
        (sounds, Play(pl, slot[cue], 0))
      else
        var pl1 := pl.(nodes := pl.nodes[created := NewSound(t)]);
        (sounds[id := slot[cue := created]], Play(pl1, created, 0))
  }

  /** PlaySound keeps the playing list well formed: a restarted sound keeps its place or
      joins the tail, a new sound joins the tail. */
  lemma PlaySoundKeepsList(cues: Cues, templates: map<nat, Template>, sounds: Sounds, pl: Playlist,
                           order: seq<Ref>, id: nat, cue: nat, created: Ref)
    requires StoreValid(sounds, pl) && created !in pl.nodes && Valid(pl, order)
    ensures var r := PlaySound(cues, templates, sounds, pl, id, cue, created);
            exists o :: Valid(r.1, o)
  {
    var t := CueTemplate(cues, templates, id, cue);
    var r := PlaySound(cues, templates, sounds, pl, id, cue, created);
    if t.data.Some? {
      var slot := Inner(sounds, id);
      if cue in slot {
        var x := slot[cue];
        if pl.nodes[x].playing {
          PlayRewinds(pl, order, x, 0);
          assert Valid(r.1, order);
        } else {
          PlayAppends(pl, order, x, 0);
          assert Valid(r.1, order + [x]);
        }
      } else {
        var pl1 := pl.(nodes := pl.nodes[created := NewSound(t)]);
        assert created !in order;
        forall k | 0 <= k < |order|
          ensures LinkedAt(pl1, order, k)
        {
          assert LinkedAt(pl, order, k);
        }
        assert Valid(pl1, order);
        PlayAppends(pl1, order, created, 0);
        assert Valid(r.1, order + [created]);
      }
    } else {
      assert Valid(r.1, order);
    }
  }

  /** Playing a cue twice makes one sound, not two. */
  lemma RetriggerMakesNoSecondSound(cues: Cues, templates: map<nat, Template>, sounds: Sounds, pl: Playlist,
                                    id: nat, cue: nat, created: Ref, another: Ref)
    requires StoreValid(sounds, pl) && created !in pl.nodes
    requires another !in PlaySound(cues, templates, sounds, pl, id, cue, created).1.nodes
    ensures var (s1, p1) := PlaySound(cues, templates, sounds, pl, id, cue, created);
            var (s2, p2) := PlaySound(cues, templates, s1, p1, id, cue, another);
            s2 == s1 && p2.nodes.Keys == p1.nodes.Keys
  {
  }

  /** SoundCueLoader: the entity's cue table, with cue 0 naming the entity's own template
      when it has one, then one entry per `cue` child, name to sound. */
  function ConfigureCues(cues: Cues, templates: map<nat, Template>, id: nat, e: Xml.Element): (r: Cues)
    ensures id in r && r - {id} == cues - {id}
    ensures id in templates ==> 0 in r[id]
  {
    var slot := Inner(cues, id);
    cues[id := CueItems(if id in templates then slot[0 := id] else slot, e.children)]
  }

  function CueItems(slot: map<nat, nat>, children: seq<Xml.Element>): (r: map<nat, nat>)
    ensures slot.Keys <= r.Keys
  {
    if |children| == 0 then slot
    else
      var prior := CueItems(slot, children[..|children| - 1]);
      var child := children[|children| - 1];
      if child.tag == "cue" then prior[Xml.HashAttr(child, "name") := Xml.HashAttr(child, "sound")] else prior
  }

  /** The last `cue` child with a given name decides that name's sound. */
  lemma {:induction false} LastCueWins(slot: map<nat, nat>, children: seq<Xml.Element>, i: nat)
    requires i < |children| && children[i].tag == "cue"
    requires forall j :: i < j < |children| && children[j].tag == "cue" ==>
               Xml.HashAttr(children[j], "name") != Xml.HashAttr(children[i], "name")
    ensures var name := Xml.HashAttr(children[i], "name");
            name in CueItems(slot, children) && CueItems(slot, children)[name] == Xml.HashAttr(children[i], "sound")
    decreases |children|
  {
    if i < |children| - 1 {
      var front := children[..|children| - 1];
      assert front[i] == children[i];
      LastCueWins(slot, front, i);
    }
  }

  /** SoundInitializer::Activate: an activated entity plays its default cue. */
  function Activate(cues: Cues, templates: map<nat, Template>, sounds: Sounds, pl: Playlist,
                    id: nat, created: Ref): (r: (Sounds, Playlist))
    requires StoreValid(sounds, pl) && created !in pl.nodes
    ensures StoreValid(r.0, r.1)
    ensures CueTemplate(cues, templates, id, 0).data.Some? ==> id in r.0 && 0 in r.0[id] && r.1.nodes[r.0[id][0]].playing
  {
    PlaySound(cues, templates, sounds, pl, id, 0, created)
  }

  /** Deleting a sound: its destructor stops it, then it is freed. */
  function Delete(pl: Playlist, x: Ref): (r: Playlist)
    ensures x !in r.nodes && r.nodes.Keys == pl.nodes.Keys - {x}
  {
    if x in pl.nodes then
      var stopped := Stop(pl, x);
      stopped.(nodes := stopped.nodes - {x})
    else pl
  }

  /** Freeing a sound that is not in the list leaves the list well formed. */
  lemma FreeStopped(pl: Playlist, order: seq<Ref>, x: Ref)
    requires Valid(pl, order) && x !in order
    ensures Valid(pl.(nodes := pl.nodes - {x}), order)
  {
    var r := pl.(nodes := pl.nodes - {x});
    forall k | 0 <= k < |order|
      ensures LinkedAt(r, order, k)
    {
      assert LinkedAt(pl, order, k);
    }
  }

  /** Deleting a sound removes it from the list if it was playing. */
  lemma DeleteKeepsList(pl: Playlist, order: seq<Ref>, x: Ref)
    requires Valid(pl, order)
    ensures x in order ==> exists i :: 0 <= i < |order| && order[i] == x && Valid(Delete(pl, x), order[..i] + order[i + 1..])
    ensures x !in order ==> Valid(Delete(pl, x), order)
  {
    if x in order {
      var i :| 0 <= i < |order| && order[i] == x;
      StopRemoves(pl, order, i);
      var o2 := order[..i] + order[i + 1..];
      assert x !in o2 by {
        forall k | 0 <= k < |o2| ensures o2[k] != x {
          assert o2[k] == (if k < i then order[k] else order[k + 1]);
        }
      }
      FreeStopped(Stop(pl, x), o2, x);
    } else if x in pl.nodes {
      FreeStopped(pl, order, x);
    }
  }

  /** SoundInitializer::Deactivate: every sound of the entity is deleted and the entity's
      slot removed. `filed` lists the sounds in the slot in iteration order. */
  function Deactivate(sounds: Sounds, pl: Playlist, id: nat, filed: seq<Ref>): (r: (Sounds, Playlist))
    requires forall x :: x in filed <==> x in Inner(sounds, id).Values
    ensures id !in r.0 && r.0 == sounds - {id}
    ensures forall x :: x in filed ==> x !in r.1.nodes
    ensures r.1.nodes.Keys == pl.nodes.Keys - (set x | x in filed)
  {
    if id in sounds then (sounds - {id}, DeleteAll(pl, filed)) else (sounds, pl)
  }

  function DeleteAll(pl: Playlist, filed: seq<Ref>): (r: Playlist)
    ensures r.nodes.Keys == pl.nodes.Keys - (set x | x in filed)
    decreases |filed|
  {
    if |filed| == 0 then pl else DeleteAll(Delete(pl, filed[0]), filed[1..])
  }

  /** Deactivation leaves a well-formed playing list. */
  lemma {:induction false} DeleteAllKeepsList(pl: Playlist, order: seq<Ref>, filed: seq<Ref>)
    requires Valid(pl, order)
    ensures exists o :: Valid(DeleteAll(pl, filed), o)
    decreases |filed|
  {
    if |filed| == 0 {
      assert Valid(DeleteAll(pl, filed), order);
    } else {
      var x := filed[0];
      DeleteKeepsList(pl, order, x);
      if x in order {
        var i :| 0 <= i < |order| && order[i] == x && Valid(Delete(pl, x), order[..i] + order[i + 1..]);
        DeleteAllKeepsList(Delete(pl, x), order[..i] + order[i + 1..], filed[1..]);
      } else {
        DeleteAllKeepsList(Delete(pl, x), order, filed[1..]);
      }
      var o :| Valid(DeleteAll(Delete(pl, x), filed[1..]), o);
      assert Valid(DeleteAll(pl, filed), o);
    }
  }

  // ---------------------------------------------------------------- mixer pass

  /** The voices of the sounds visited, heard from `listener`. */
  function Voices(rd: Reading, nodes: map<Ref, Node>, refs: seq<Ref>, listener: Geometry.Vec2): (v: seq<Voice>)
    requires forall i :: 0 <= i < |refs| ==> refs[i] in nodes && nodes[refs[i]].length > 0
    ensures |v| == |refs|
  {
    if |refs| == 0 then []
    else
      var n := nodes[refs[|refs| - 1]];
      var d := Geometry.DistSq(listener, n.position);
      assert d >= 0.0 by { SquaresNonneg(Geometry.Sub(n.position, listener)); }
      Voices(rd, nodes, refs[..|refs| - 1], listener) + [VoiceOf(rd, n, d)]
  }

  lemma SquaresNonneg(v: Geometry.Vec2)
    ensures Geometry.LengthSq(v) >= 0.0
  {
    MathUtil.MulNonneg(MathUtil.Abs(v.x), MathUtil.Abs(v.x));
    MathUtil.MulNonneg(MathUtil.Abs(v.y), MathUtil.Abs(v.y));
    assert v.x * v.x == MathUtil.Abs(v.x) * MathUtil.Abs(v.x);
    assert v.y * v.y == MathUtil.Abs(v.y) * MathUtil.Abs(v.y);
  }

  /** The bookkeeping of one Sound::Mix call of `bytes` bytes: walk the playing list from
      its head, choose the channels, then advance every visited sound's offset. */
  function MixPass(rd: Reading, pl: Playlist, listener: Geometry.Vec2, bytes: nat): (r: (seq<Channel>, Playlist))
    requires forall x :: x in pl.nodes ==> pl.nodes[x].length > 0
    ensures |r.0| <= MaxChannels
    ensures r.1.head == pl.head && r.1.tail == pl.tail && r.1.nodes.Keys == pl.nodes.Keys
  {
    var refs := Walk(pl.nodes, pl.head, |pl.nodes|);
    var channels := SelectChannels(Voices(rd, pl.nodes, refs, listener));
    (channels, pl.(nodes := AdvanceAll(pl.nodes, refs, bytes)))
  }

  /** On a well-formed list the mixer pass mixes the heaviest audible playing sounds and
      advances exactly the playing sounds, keeping the list well formed. */
  lemma MixPassPlaysList(rd: Reading, pl: Playlist, order: seq<Ref>, listener: Geometry.Vec2, bytes: nat)
    requires Valid(pl, order) && forall x :: x in pl.nodes ==> pl.nodes[x].length > 0
    ensures var (channels, after) := MixPass(rd, pl, listener, bytes);
            var voices := Voices(rd, pl.nodes, order, listener);
            && channels == SelectChannels(voices)
            && Valid(after, order)
            && (forall i :: 0 <= i < |order| ==>
                  after.nodes[order[i]].offset ==
                    AdvanceOffset(pl.nodes[order[i]].offset, pl.nodes[order[i]].length, pl.nodes[order[i]].repeat, bytes))
            && (forall x :: x in pl.nodes && x !in order ==> after.nodes[x] == pl.nodes[x])
  {
    DistinctFits(order, pl.nodes);
    WalkVisitsOrder(pl, order, |pl.nodes|);
    AdvanceKeepsList(pl, order, bytes);
    AdvanceAllEffect(pl.nodes, order, bytes);
  }
}

=== FILE: soundutil.dfy ===
/** Sound synthesis helpers: the fixed-value pulse writer that carries the fractional
    sample time from one pulse to the next, and the constant key-frame evaluator. The
    template's sample buffer is a sequence of 16-bit sample values. */
module SoundUtilities {

  /** OutputPulse: add `ticks` ticks of `samplesPerTick` samples to the carried fraction,
      append the whole number of samples that makes (when positive), all of `value`, and
      return the new buffer with the fraction left over. */
  function OutputPulse(buffer: seq<int>, ticks: int, samplesPerTick: real, samples: real, value: int)
    : (r: (seq<int>, real))
    ensures var total := samples + ticks as real * samplesPerTick;
            var count := total.Floor;
            && (count > 0 ==> |r.0| == |buffer| + count && 0.0 <= r.1 < 1.0)
            && (count <= 0 ==> r.0 == buffer && r.1 == total)
            && r.0[..|buffer|] == buffer
            && (forall k :: |buffer| <= k < |r.0| ==> r.0[k] == value)
            && (|r.0| - |buffer|) as real + r.1 == total
  {
    var total := samples + ticks as real * samplesPerTick;
    var count := total.Floor;
    if count > 0 then (buffer + seq(count, _ => value), total - count as real)
    else (buffer, total)
  }

  /** A run of pulses, each appended after the previous one with the fraction carried. */
  datatype Pulse = Pulse(ticks: int, value: int)

  function OutputPulses(buffer: seq<int>, pulses: seq<Pulse>, samplesPerTick: real, samples: real)
    : (r: (seq<int>, real))
    decreases |pulses|
  {
    if |pulses| == 0 then (buffer, samples)
    else
      var first := OutputPulse(buffer, pulses[0].ticks, samplesPerTick, samples, pulses[0].value);
      OutputPulses(first.0, pulses[1..], samplesPerTick, first.1)
  }

  function TotalTicks(pulses: seq<Pulse>): int {
    if |pulses| == 0 then 0 else pulses[0].ticks + TotalTicks(pulses[1..])
  }

  /** The samples a run of pulses is worth, pulse by pulse. */
  function Duration(pulses: seq<Pulse>, samplesPerTick: real): real {
    if |pulses| == 0 then 0.0 else pulses[0].ticks as real * samplesPerTick + Duration(pulses[1..], samplesPerTick)
  }

  lemma {:induction false} DurationOfTicks(pulses: seq<Pulse>, samplesPerTick: real)
    ensures Duration(pulses, samplesPerTick) == TotalTicks(pulses) as real * samplesPerTick
  {
    if |pulses| > 0 {
      DurationOfTicks(pulses[1..], samplesPerTick);
      Distribute(pulses[0].ticks as real, TotalTicks(pulses[1..]) as real, samplesPerTick);
    }
  }

  /** Carrying the fraction loses no time: over any run of pulses the samples appended plus
      the final fraction equal the starting fraction plus all ticks' worth of samples. */
  lemma PulsesKeepTime(buffer: seq<int>, pulses: seq<Pulse>, samplesPerTick: real, samples: real)
    ensures var r := OutputPulses(buffer, pulses, samplesPerTick, samples);
            (|r.0| - |buffer|) as real + r.1 == samples + TotalTicks(pulses) as real * samplesPerTick
  {
    PulsesKeepDuration(buffer, pulses, samplesPerTick, samples);
    DurationOfTicks(pulses, samplesPerTick);
  }

  lemma {:induction false} PulsesKeepDuration(buffer: seq<int>, pulses: seq<Pulse>, samplesPerTick: real, samples: real)
    ensures var r := OutputPulses(buffer, pulses, samplesPerTick, samples);
            (|r.0| - |buffer|) as real + r.1 == samples + Duration(pulses, samplesPerTick)
    decreases |pulses|
  {
    if |pulses| > 0 {
      var first := OutputPulse(buffer, pulses[0].ticks, samplesPerTick, samples, pulses[0].value);
      PulsesKeepDuration(first.0, pulses[1..], samplesPerTick, first.1);
    }
  }

  /** Pulses only ever append: the buffer written so far is never changed. */
  lemma {:induction false} PulsesAppend(buffer: seq<int>, pulses: seq<Pulse>, samplesPerTick: real, samples: real)
    ensures var r := OutputPulses(buffer, pulses, samplesPerTick, samples);
            |r.0| >= |buffer| && r.0[..|buffer|] == buffer
    decreases |pulses|
  {
    if |pulses| > 0 {
      var first := OutputPulse(buffer, pulses[0].ticks, samplesPerTick, samples, pulses[0].value);
      PulsesAppend(first.0, pulses[1..], samplesPerTick, first.1);
      var r := OutputPulses(first.0, pulses[1..], samplesPerTick, first.1);
      assert r.0[..|buffer|] == r.0[..|first.0|][..|buffer|];
    }
  }

  lemma Distribute(a: real, b: real, c: real)
    ensures (a + b) * c == a * c + b * c
  {
  }

  /** ApplyConstant: the key's values (after its time stamp) become the target's first
      `width` entries; the key index is left alone and the result is always true. */
  function ApplyConstant(target: seq<real>, width: nat, keys: seq<real>): (r: (bool, seq<real>))
    requires width <= |target| && width + 1 <= |keys|
    ensures r.0
    ensures |r.1| == |target|
    ensures forall k :: 0 <= k < width ==> r.1[k] == keys[k + 1]
    ensures forall k :: width <= k < |target| ==> r.1[k] == target[k]
  {
    (true, keys[1..width + 1] + target[width..])
  }

  /** Applying the same constant key twice is the same as once. */
  lemma ApplyConstantIdempotent(target: seq<real>, width: nat, keys: seq<real>)
    requires width <= |target| && width + 1 <= |keys|
    ensures ApplyConstant(ApplyConstant(target, width, keys).1, width, keys) == ApplyConstant(target, width, keys)
  {
  }
}

=== FILE: weapon.dfy ===
/** Weapons: the template read from XML, the firing cadence (timer, phase within a cycle,
    ammo gate, burst tracking), the searches for the controlling entity and the ammo holder,
    and the trackers that count a weapon's live tracked ordnance. */
module Weapon {
  import opened Base
  import Xml
  import Links
  import Geometry
  import Resource
  import MathUtil

  /** An angle plus an offset (Transform2). */
  datatype Transform2 = Transform2(a: real, p: Geometry.Vec2)

  datatype WeaponTemplate = WeaponTemplate(
    offset: Transform2, scatter: Transform2, inherit: Transform2, velocity: Transform2, variance: Transform2,
    recoil: real, ordnance: nat, flash: nat, channel: int,
    delay: real, phase: int, cycle: int, track: int,
    ammoType: nat, cost: real)

  const ZeroTransform := Transform2(0.0, Geometry.Zero)

  /** The template a default-constructed WeaponTemplate holds: one shot per second,
      full velocity inheritance, no ordnance, no ammo. */
  const DefaultTemplate := WeaponTemplate(
    ZeroTransform, ZeroTransform, Transform2(0.0, Geometry.Vec2(1.0, 1.0)), ZeroTransform, ZeroTransform,
    0.0, 0, 0, 0, 1.0, 0, 1, 0, 0, 0.0)

  /** The angle/x/y reading shared by the offset, scatter, inherit, velocity and variance children. */
  function ConfigureTransform(tr: Transform2, child: Xml.Element): (r: Transform2)
    // each part changes only when its attribute is present; the angle is read in degrees
    ensures r.p.x == Xml.QueryFloat(child, "x").GetOr(tr.p.x) && r.p.y == Xml.QueryFloat(child, "y").GetOr(tr.p.y)
    ensures Xml.QueryFloat(child, "angle").None? ==> r.a == tr.a
    ensures Xml.QueryFloat(child, "angle").Some? ==> r.a == Xml.AngleOr(child, "angle", 0.0)
  {
    Transform2(Xml.AngleOr(child, "angle", tr.a),
               Geometry.Vec2(Xml.FloatOr(child, "x", tr.p.x), Xml.FloatOr(child, "y", tr.p.y)))
  }

  /** One child element of a weapon definition; an unknown tag changes nothing. */
  function ConfigureChild(t: WeaponTemplate, child: Xml.Element): (r: WeaponTemplate)
    ensures child.tag !in KnownTags ==> r == t
    // the five transform children each set their own transform
    ensures child.tag == "offset" ==> r == t.(offset := ConfigureTransform(t.offset, child))
    ensures child.tag == "scatter" ==> r == t.(scatter := ConfigureTransform(t.scatter, child))
    ensures child.tag == "inherit" ==> r == t.(inherit := ConfigureTransform(t.inherit, child))
    ensures child.tag == "velocity" ==> r == t.(velocity := ConfigureTransform(t.velocity, child))
    ensures child.tag == "variance" ==> r == t.(variance := ConfigureTransform(t.variance, child))
    ensures child.tag == "recoil" ==> r == t.(recoil := Xml.QueryFloat(child, "value").GetOr(t.recoil))
    ensures child.tag == "flash" ==>
              r == t.(flash := if Xml.Attribute(child, "name").Some? then Xml.HashAttr(child, "name") else t.flash)
    ensures child.tag == "trigger" ==>
              r == t.(channel := match Xml.QueryInt(child, "channel") case Some(c) => c - 1 case None => t.channel)
    ensures child.tag == "ordnance" ==>
              r == t.(ordnance := if Xml.Attribute(child, "name").Some? then Xml.HashAttr(child, "name") else t.ordnance)
    ensures child.tag == "ammo" ==>
              r.ammoType == (if Xml.Attribute(child, "type").Some? then Xml.HashAttr(child, "type") else t.ammoType) &&
              r.cost == Xml.FloatOr(child, "cost", t.cost) &&
              r == t.(ammoType := r.ammoType, cost := r.cost)
    ensures child.tag == "shot" ==>
              r == t.(delay := Xml.FloatOr(child, "delay", t.delay), phase := Xml.IntOr(child, "phase", t.phase),
                       cycle := Xml.IntOr(child, "cycle", t.cycle), track := Xml.IntOr(child, "track", t.track))
  {
    match child.tag
    case "offset" => t.(offset := ConfigureTransform(t.offset, child))
    case "scatter" => t.(scatter := ConfigureTransform(t.scatter, child))
    case "inherit" => t.(inherit := ConfigureTransform(t.inherit, child))
    case "velocity" => t.(velocity := ConfigureTransform(t.velocity, child))
    case "variance" => t.(variance := ConfigureTransform(t.variance, child))
    case "recoil" => t.(recoil := Xml.FloatOr(child, "value", t.recoil))
    case "ordnance" =>
      if Xml.Attribute(child, "name").Some? then t.(ordnance := Xml.HashAttr(child, "name")) else t
    case "flash" =>
      if Xml.Attribute(child, "name").Some? then t.(flash := Xml.HashAttr(child, "name")) else t
    case "trigger" =>
      (match Xml.QueryInt(child, "channel") case Some(c) => t.(channel := c - 1) case None => t)
    case "shot" =>
      t.(delay := Xml.FloatOr(child, "delay", t.delay), phase := Xml.IntOr(child, "phase", t.phase),
         cycle := Xml.IntOr(child, "cycle", t.cycle), track := Xml.IntOr(child, "track", t.track))
    case "ammo" =>
      t.(ammoType := if Xml.Attribute(child, "type").Some? then Xml.HashAttr(child, "type") else t.ammoType,
         cost := Xml.FloatOr(child, "cost", t.cost))
    case _ => t
  }

  const KnownTags: set<string> :=
    {"offset", "scatter", "inherit", "velocity", "variance", "recoil", "ordnance", "flash", "trigger", "shot", "ammo"}

  /** WeaponTemplate::Configure: the children in document order, each on top of the last. */
  function ConfigureChildren(t: WeaponTemplate, children: seq<Xml.Element>): (r: WeaponTemplate)
    // children with unknown tags leave the template alone
    ensures (forall i :: 0 <= i < |children| ==> children[i].tag !in KnownTags) ==> r == t
    // the cadence comes only from <shot> children
    ensures (forall i :: 0 <= i < |children| ==> children[i].tag != "shot") ==>
              r.delay == t.delay && r.phase == t.phase && r.cycle == t.cycle && r.track == t.track
    decreases |children|
  {
    if children == [] then t
    else
      assert forall i :: 0 <= i < |children| - 1 ==> children[1..][i] == children[i + 1];
      ConfigureChildren(ConfigureChild(t, children[0]), children[1..])
  }

  /** A <weapon> element: its children configure the template, and only <shot> children
      change the cadence. */
  function Configure(t: WeaponTemplate, e: Xml.Element): (r: WeaponTemplate)
    ensures (forall i :: 0 <= i < |e.children| ==> e.children[i].tag !in KnownTags) ==> r == t
    ensures (forall i :: 0 <= i < |e.children| ==> e.children[i].tag != "shot") ==>
              r.delay == t.delay && r.phase == t.phase && r.cycle == t.cycle && r.track == t.track
  {
    ConfigureChildren(t, e.children)
  }

  /** Configuring from a split child list is configuring from each part in turn. */
  lemma {:induction false} ConfigureChildrenAppend(t: WeaponTemplate, a: seq<Xml.Element>, b: seq<Xml.Element>)
    ensures ConfigureChildren(t, a + b) == ConfigureChildren(ConfigureChildren(t, a), b)
    decreases |a|
  {
    if a != [] {
      assert (a + b)[1..] == a[1..] + b;
      ConfigureChildrenAppend(ConfigureChild(t, a[0]), a[1..], b);
    } else {
      assert a + b == b;
    }
  }

  /** A final "shot" child decides the cadence, whatever came before it. */
  lemma LastShotWins(t: WeaponTemplate, e: Xml.Element)
    requires e.children != [] && e.children[|e.children| - 1].tag == "shot"
    ensures var last := e.children[|e.children| - 1];
      var r := Configure(t, e);
      (Xml.QueryInt(last, "cycle").Some? ==> r.cycle == Xml.QueryInt(last, "cycle").value) &&
      (Xml.QueryFloat(last, "delay").Some? ==> r.delay == Xml.QueryFloat(last, "delay").value)
  {
    var n := |e.children|;
    assert e.children == e.children[..n - 1] + [e.children[n - 1]];
    ConfigureChildrenAppend(t, e.children[..n - 1], [e.children[n - 1]]);
  }

  /** A live weapon. `tracked` is the number of live tracked ordnance it has fired. */
  datatype Weapon = Weapon(controlId: nat, channel: int, tracked: int, timer: real, phase: int, ammo: nat)

  /** Weapon(template, id) apart from the ammo search: idle timer, the template's phase and channel. */
  function NewWeapon(t: WeaponTemplate, ammo: nat): (w: Weapon)
    ensures w.channel == t.channel && w.phase == t.phase && w.timer == 0.0 && w.tracked == 0
    ensures w.ammo == ammo && w.controlId == 0
  {
    Weapon(0, t.channel, 0, 0.0, t.phase, ammo)
  }

  /** The phase counter on its own: a round fires when the phase is 0, which then restarts
      at cycle - 1; any other round counts the phase down. Result: (shots, phase) after n rounds. */
  function Cadence(p: int, c: int, n: nat): (int, int)
    decreases n
  {
    if n == 0 then (0, p)
    else
      var (s, q) := Cadence(p, c, n - 1);
      if q == 0 then (s + 1, c - 1) else (s, q - 1)
  }

  /** Closed form of the cadence from a phase p >= 0: the first shot after p rounds, then one
      every c rounds, and the phase counting down from c - 1 in between. */
  lemma {:induction false} CadenceClosedForm(p: int, c: int, n: nat)
    requires c >= 1 && p >= 0
    ensures Cadence(p, c, n).0 == (if n <= p then 0 else (n - 1 - p) / c + 1)
    ensures Cadence(p, c, n).1 == (if n <= p then p - n else c - 1 - (n - 1 - p) % c)
    decreases n
  {
    if n > 0 {
      CadenceClosedForm(p, c, n - 1);
      if n - 1 > p {
        MathUtil.DivModNext(n - 1 - p, c);
      }
    }
  }

  /** A phase that starts in [0, cycle - 1] stays there. */
  lemma {:induction false} CadencePhaseInRange(p: int, c: int, n: nat)
    requires c >= 1 && 0 <= p <= c - 1
    ensures 0 <= Cadence(p, c, n).1 <= c - 1
    ensures 0 <= Cadence(p, c, n).0 <= n
    decreases n
  {
    if n > 0 {
      CadencePhaseInRange(p, c, n - 1);
    }
  }

  /** An ammo meter: the resource the weapon draws from together with its template. */
  datatype AmmoMeter = AmmoMeter(tmpl: Resource.ResourceTemplate, meter: Resource.Resource)

  /** The round length: the delay spread over the rounds of one cycle. */
  function RoundTime(t: WeaponTemplate): real
    requires t.cycle != 0
  {
    t.delay / (t.cycle as real)
  }

  /** Whether the fire loop reads an ammo meter (cost set and the holder has the resource). */
  predicate UsesAmmo(t: WeaponTemplate, ammo: Option<AmmoMeter>) {
    t.cost != 0.0 && ammo.Some?
  }

  /** Whether each ordnance shot adds a tracker. */
  predicate Tracks(t: WeaponTemplate) {
    t.ordnance != 0 && t.track != 0
  }

  /** resource->Add(id, -cost): the ammo draw of one shot. A cost the meter can pay leaves
      exactly the difference. */
  function Draw(m: AmmoMeter, cost: real): (r: AmmoMeter)
    ensures r.tmpl == m.tmpl
    ensures 0.0 < cost <= m.meter.value <= m.tmpl.maximum ==>
              r.meter.value == m.meter.value - cost && 0.0 <= r.meter.value <= m.tmpl.maximum
  {
    AmmoMeter(m.tmpl, Resource.Add(m.tmpl, m.meter, -cost).res)
  }

  /** One round of the fire loop once the ammo gate has passed: on phase 0 the ammo is drawn,
      a shot is counted and the phase restarts at cycle - 1; otherwise the phase counts down.
      Either way the timer gives up one round time. */
  function Round(t: WeaponTemplate, w: Weapon, ammo: Option<AmmoMeter>): (r: (Weapon, Option<AmmoMeter>))
    requires t.cycle != 0
    ensures r.0.timer == w.timer - RoundTime(t)
    ensures r.0.phase == (if w.phase == 0 then t.cycle - 1 else w.phase - 1)
    ensures r.0.tracked == w.tracked + (if w.phase == 0 && Tracks(t) then 1 else 0)
    ensures r.0 == w.(timer := r.0.timer, phase := r.0.phase, tracked := r.0.tracked)
    ensures w.phase != 0 || !UsesAmmo(t, ammo) ==> r.1 == ammo
    ensures w.phase == 0 && UsesAmmo(t, ammo) ==> r.1 == Some(Draw(ammo.value, t.cost))
  {
    var ammo' := if w.phase == 0 && UsesAmmo(t, ammo) then Some(Draw(ammo.value, t.cost)) else ammo;
    var w' := if w.phase == 0 then
        w.(phase := t.cycle - 1, tracked := if Tracks(t) then w.tracked + 1 else w.tracked)
      else w.(phase := w.phase - 1);
    (w'.(timer := w.timer - RoundTime(t)), ammo')
  }

  /** A positive per-shot cost drawn from a meter within its bounds. */
  predicate ExactDraw(t: WeaponTemplate, ammo: Option<AmmoMeter>) {
    UsesAmmo(t, ammo) && t.cost > 0.0 && 0.0 <= ammo.value.meter.value <= ammo.value.tmpl.maximum
  }

  /** What holds after `rounds` rounds of the fire loop started from weapon w0 and meter a0,
      with `shots` of them firing. */
  ghost predicate LoopInv(t: WeaponTemplate, w0: Weapon, a0: Option<AmmoMeter>,
                          w: Weapon, a: Option<AmmoMeter>, shots: int, rounds: nat)
    requires t.cycle != 0
  {
    && w.timer == w0.timer - (rounds as real) * RoundTime(t)
    && (shots, w.phase) == Cadence(w0.phase, t.cycle, rounds)
    && w.tracked == w0.tracked + (if Tracks(t) then shots else 0)
    && w == w0.(timer := w.timer, phase := w.phase, tracked := w.tracked)
    && (!UsesAmmo(t, a0) ==> a == a0)
    && (UsesAmmo(t, a0) ==> a.Some? && a.value.tmpl == a0.value.tmpl)
    && (ExactDraw(t, a0) ==>
          a.value.meter.value == a0.value.meter.value - (shots as real) * t.cost &&
          0.0 <= a.value.meter.value <= a0.value.tmpl.maximum)
  }

  /** One paid-for round keeps the loop invariant. */
  lemma {:induction false} RoundKeeps(t: WeaponTemplate, w0: Weapon, a0: Option<AmmoMeter>,
                                      w: Weapon, a: Option<AmmoMeter>, shots: int, rounds: nat)
    requires t.cycle != 0
    requires LoopInv(t, w0, a0, w, a, shots, rounds)
    requires !(UsesAmmo(t, a0) && t.cost > a.value.meter.value)
    ensures LoopInv(t, w0, a0, Round(t, w, a).0, Round(t, w, a).1,
                    shots + (if w.phase == 0 then 1 else 0), rounds + 1)
  {
    var d := RoundTime(t);
    var (w', a') := Round(t, w, a);
    var shots' := shots + (if w.phase == 0 then 1 else 0);
    assert w'.timer == w0.timer - ((rounds + 1) as real) * d by {
      assert w0.timer - ((rounds + 1) as real) * d == (w0.timer - (rounds as real) * d) - d;
    }
    assert (shots', w'.phase) == Cadence(w0.phase, t.cycle, rounds + 1);
    if ExactDraw(t, a0) && w.phase == 0 {
      assert a'.value.meter.value == a.value.meter.value - t.cost;
      assert a0.value.meter.value - (shots' as real) * t.cost
          == (a0.value.meter.value - (shots as real) * t.cost) - t.cost;
    }
  }

  /** The fire loop of Weapon::Update: rounds run while the timer is positive and the track
      cap (if any) is not reached; a round whose cost the ammo meter cannot pay ends the loop
      before anything changes. */
  method FireLoop(t: WeaponTemplate, w: Weapon, ammo: Option<AmmoMeter>)
    returns (w': Weapon, ammo': Option<AmmoMeter>, shots: int, rounds: nat)
    requires t.cycle != 0 && RoundTime(t) > 0.0
    ensures w'.timer == w.timer - (rounds as real) * RoundTime(t)
    ensures (shots, w'.phase) == Cadence(w.phase, t.cycle, rounds)
    ensures w'.tracked == w.tracked + (if Tracks(t) then shots else 0)
    ensures w' == w.(timer := w'.timer, phase := w'.phase, tracked := w'.tracked)
    // the loop ends with the timer spent, at the track cap, or on a meter short of the cost
    ensures w'.timer <= 0.0 || (t.track != 0 && w'.tracked >= t.track) ||
            (UsesAmmo(t, ammo) && ammo'.Some? && t.cost > ammo'.value.meter.value)
    ensures !UsesAmmo(t, ammo) ==> ammo' == ammo
    // a positive cost drawn from a meter within its bounds: exactly the cost per shot
    ensures ExactDraw(t, ammo) ==>
              ammo'.Some? && ammo'.value.tmpl == ammo.value.tmpl &&
              ammo'.value.meter.value == ammo.value.meter.value - (shots as real) * t.cost &&
              0.0 <= ammo'.value.meter.value
  {
    w', ammo', shots, rounds := w, ammo, 0, 0;
    var d := RoundTime(t);
    while w'.timer > 0.0 && (t.track == 0 || w'.tracked < t.track)
      invariant LoopInv(t, w, ammo, w', ammo', shots, rounds)
      decreases if w'.timer > 0.0 then (w'.timer / d).Floor + 1 else 0
    {
      if UsesAmmo(t, ammo) && t.cost > ammo'.value.meter.value {
        break;
      }
      RoundKeeps(t, w, ammo, w', ammo', shots, rounds);
      ghost var before := w'.timer;
      if w'.phase == 0 {
        shots := shots + 1;
      }
      var next := Round(t, w', ammo');
      w', ammo' := next.0, next.1;
      rounds := rounds + 1;
      if w'.timer > 0.0 {
        MathUtil.FloorStep(before, d);
      }
    }
  }

  /** Weapon::Update(step). `controlled` says whether the controller entity exists and
      `firing` whether its fire channel is set; `ammo` is the meter held by the ammo entity
      for the ammo type, if any. Spawning the flash and ordnance, the sound cue and the
      recoil impulse are what `shots` counts; `rounds` is the number of loop iterations. */
  method Update(t: WeaponTemplate, w: Weapon, controlled: bool, firing: bool, ammo: Option<AmmoMeter>, step: real)
    returns (w': Weapon, ammo': Option<AmmoMeter>, shots: int, rounds: nat)
    requires controlled && firing ==> t.cycle != 0 && RoundTime(t) > 0.0
    // no controller: nothing happens
    ensures !controlled ==> w' == w && ammo' == ammo && shots == 0 && rounds == 0
    // not firing: the grown timer is clamped to at most 0
    ensures controlled && !firing ==>
              w' == w.(timer := if w.timer + step > 0.0 then 0.0 else w.timer + step) && ammo' == ammo && shots == 0
    // firing: the timer first grows by the step, then pays one round time per round
    ensures controlled && firing ==>
              w'.timer == w.timer + step - (rounds as real) * RoundTime(t) &&
              (shots, w'.phase) == Cadence(w.phase, t.cycle, rounds) &&
              w'.tracked == w.tracked + (if Tracks(t) then shots else 0) &&
              (w'.timer <= 0.0 || (t.track != 0 && w'.tracked >= t.track) ||
               (UsesAmmo(t, ammo) && ammo'.Some? && t.cost > ammo'.value.meter.value))
    ensures controlled && firing && ExactDraw(t, ammo) ==>
              ammo'.Some? && ammo'.value.meter.value == ammo.value.meter.value - (shots as real) * t.cost &&
              0.0 <= ammo'.value.meter.value
    ensures !UsesAmmo(t, ammo) ==> ammo' == ammo
    ensures w'.controlId == w.controlId && w'.channel == w.channel && w'.ammo == w.ammo
  {
    w', ammo', shots, rounds := w, ammo, 0, 0;
    if !controlled {
      return;
    }
    w' := w'.(timer := w.timer + step);
    if firing {
      w', ammo', shots, rounds := FireLoop(t, w', ammo);
    } else if w'.timer > 0.0 {
      w' := w'.(timer := 0.0);
    }
  }

  /** resource.Get(id).Get(type): whether the entity holds a meter of the ammo type. */
  predicate HoldsAmmo(resources: map<nat, map<nat, Resource.Resource>>, id: nat, ammoType: nat) {
    ammoType in Inner(resources, id)
  }

  /** The ammo holder a weapon finds: with a cost, the last (farthest) entity of the back-link
      chain from the weapon that holds the ammo type, else the owner if it holds it, else
      none (0); without a cost, none. */
  ghost predicate AmmoHolder(resources: map<nat, map<nat, Resource.Resource>>, bl: Links.BackLinks, owner: map<nat, nat>,
                             t: WeaponTemplate, id: nat, fuel: nat, ammo: nat)
    requires Links.EndsWithin(bl, id, fuel)
  {
    && (t.cost == 0.0 ==> ammo == 0)
    && (t.cost != 0.0 ==> var c := Links.Chain(bl, id, fuel);
      if exists i :: 0 <= i < |c| && HoldsAmmo(resources, c[i], t.ammoType) then
        exists i :: 0 <= i < |c| && ammo == c[i] && HoldsAmmo(resources, ammo, t.ammoType) &&
          forall j :: i < j < |c| ==> !HoldsAmmo(resources, c[j], t.ammoType)
      else
        ammo == (if HoldsAmmo(resources, Get(owner, id, 0), t.ammoType) then Get(owner, id, 0) else 0))
  }

  /** The entity a weapon's controls bind to: the nearest entity of the back-link chain from
      the weapon that has a controller, or the weapon itself. */
  ghost predicate ControlBinding(controllers: set<nat>, bl: Links.BackLinks, id: nat, fuel: nat, control: nat)
    requires Links.EndsWithin(bl, id, fuel)
  {
    var c := Links.Chain(bl, id, fuel);
    if exists i :: 0 <= i < |c| && c[i] in controllers then
      exists i :: 0 <= i < |c| && control == c[i] && control in controllers &&
        forall j :: 0 <= j < i ==> c[j] !in controllers
    else
      control == id
  }

  /** The ammo search of Weapon(template, id): with a cost, every entity of the back-link chain
      from the weapon itself is checked and the last (farthest) holder wins; with no holder on
      the chain the owner is used if it holds the type. Without a cost there is no holder. */
  method FindAmmo(resources: map<nat, map<nat, Resource.Resource>>, bl: Links.BackLinks, owner: map<nat, nat>,
                  t: WeaponTemplate, id: nat, ghost fuel: nat) returns (ammo: nat)
    requires Links.EndsWithin(bl, id, fuel)
    ensures AmmoHolder(resources, bl, owner, t, id, fuel, ammo)
  {
    ammo := 0;
    if t.cost == 0.0 {
      return;
    }
    ghost var c := Links.Chain(bl, id, fuel);
    ghost var k := 0;
    ghost var at := -1;
    var cur := id;
    while cur != 0
      invariant 0 <= k <= |c|
      invariant cur == (if k < |c| then c[k] else 0)
      invariant -1 <= at < k
      invariant at == -1 ==> ammo == 0 && forall j :: 0 <= j < k ==> !HoldsAmmo(resources, c[j], t.ammoType)
      invariant at >= 0 ==> ammo == c[at] && HoldsAmmo(resources, ammo, t.ammoType) &&
                            forall j :: at < j < k ==> !HoldsAmmo(resources, c[j], t.ammoType)
      decreases |c| - k
    {
      if HoldsAmmo(resources, cur, t.ammoType) {
        ammo := cur;
        at := k;
      }
      cur := Links.Parent(bl, cur);
      k := k + 1;
    }
    if ammo == 0 {
      var o := Get(owner, id, 0);
      if HoldsAmmo(resources, o, t.ammoType) {
        ammo := o;
      }
    }
  }

  /** The control binding of WeaponInitializer::Activate: the nearest entity of the back-link
      chain from the weapon itself that has a controller, or the weapon itself. */
  method BindControl(controllers: set<nat>, bl: Links.BackLinks, id: nat, ghost fuel: nat) returns (control: nat)
    requires Links.EndsWithin(bl, id, fuel)
    ensures ControlBinding(controllers, bl, id, fuel, control)
  {
    control := id;
    ghost var c := Links.Chain(bl, id, fuel);
    ghost var k := 0;
    var cur := id;
    while cur != 0
      invariant 0 <= k <= |c|
      invariant cur == (if k < |c| then c[k] else 0)
      invariant control == id
      invariant forall j :: 0 <= j < k ==> c[j] !in controllers
      decreases |c| - k
    {
      if cur in controllers {
        control := cur;
        return;
      }
      cur := Links.Parent(bl, cur);
      k := k + 1;
    }
  }

  /** WeaponInitializer::Activate: a new weapon with its ammo holder and control binding is
      stored under the entity. */
  method Activate(weapons: map<nat, Weapon>, t: WeaponTemplate, resources: map<nat, map<nat, Resource.Resource>>,
                  controllers: set<nat>, bl: Links.BackLinks, owner: map<nat, nat>, id: nat, ghost fuel: nat)
    returns (weapons': map<nat, Weapon>)
    requires Links.EndsWithin(bl, id, fuel)
    ensures id in weapons'
    ensures weapons'[id].phase == t.phase && weapons'[id].channel == t.channel
    ensures weapons'[id].timer == 0.0 && weapons'[id].tracked == 0
    ensures AmmoHolder(resources, bl, owner, t, id, fuel, weapons'[id].ammo)
    ensures ControlBinding(controllers, bl, id, fuel, weapons'[id].controlId)
    ensures forall other :: other != id && other in weapons ==> other in weapons' && weapons'[other] == weapons[other]
    ensures forall other :: other in weapons' ==> other == id || other in weapons
  {
    var ammo := FindAmmo(resources, bl, owner, t, id, fuel);
    var control := BindControl(controllers, bl, id, fuel);
    weapons' := weapons[id := NewWeapon(t, ammo).(controlId := control)];
  }

  /** WeaponInitializer::Deactivate: the weapon, if any, is removed. */
  function Deactivate(weapons: map<nat, Weapon>, id: nat): (weapons': map<nat, Weapon>)
    ensures id !in weapons'
    ensures forall other :: other != id ==> (other in weapons' <==> other in weapons)
    ensures forall other :: other in weapons' ==> weapons'[other] == weapons[other]
  {
    weapons - {id}
  }

  /** A tracker names the weapon whose tracked count it holds one unit of. */
  datatype Tracker = Tracker(id: nat)

  /** The weapons' tracked counts; a tracker naming a weapon that does not exist changes nothing. */
  type Counts = map<nat, int>

  function Bump(counts: Counts, id: nat, delta: int): (r: Counts)
    ensures r.Keys == counts.Keys
    ensures id in counts ==> r[id] == counts[id] + delta
    ensures forall w :: w in counts && w != id ==> r[w] == counts[w]
  {
    if id in counts then counts[id := counts[id] + delta] else counts
  }

  /** The counts agree with the multiset of weapon ids named by the live trackers. */
  ghost predicate Counted(counts: Counts, live: multiset<nat>) {
    forall w :: w in counts ==> counts[w] == live[w]
  }

  /** WeaponTracker(id): one more tracker of the weapon. */
  function NewTracker(counts: Counts, id: nat): (r: (Tracker, Counts))
    ensures r.0.id == id
    ensures forall live :: Counted(counts, live) ==> Counted(r.1, live + multiset{id})
  {
    (Tracker(id), Bump(counts, id, 1))
  }

  /** WeaponTracker(const WeaponTracker &): a second tracker of the same weapon. */
  function CopyTracker(counts: Counts, src: Tracker): (r: (Tracker, Counts))
    ensures r.0 == src
    ensures forall live :: Counted(counts, live) ==> Counted(r.1, live + multiset{src.id})
  {
    (src, Bump(counts, src.id, 1))
  }

  /** ~WeaponTracker(): one tracker fewer. */
  function DestroyTracker(counts: Counts, tr: Tracker): (r: Counts)
    ensures forall live :: Counted(counts, live) && tr.id in live ==> Counted(r, live - multiset{tr.id})
  {
    Bump(counts, tr.id, -1)
  }

  /** WeaponTracker::operator= as written: it releases and re-acquires the weapon it already
      names and never copies the source's weapon id. */
  function AssignTrackerAsWritten(counts: Counts, dst: Tracker, src: Tracker): (r: (Tracker, Counts))
    ensures r.0 == dst
    ensures r.1 == counts
  {
    (dst, Bump(Bump(counts, dst.id, -1), dst.id, 1))
  }

  /** The discrepancy: after `a = b` with trackers of different weapons, `a` still names its old weapon. */
  lemma AssignTrackerAsWrittenKeepsOldWeapon()
    ensures AssignTrackerAsWritten(map[1 := 1, 2 := 1], Tracker(1), Tracker(2)).0.id == 1
    ensures AssignTrackerAsWritten(map[1 := 1, 2 := 1], Tracker(1), Tracker(2)).1 == map[1 := 1, 2 := 1]
  {
  }

  /** The assignment as intended: release the old weapon, name and count the source's weapon. */
  function AssignTracker(counts: Counts, dst: Tracker, src: Tracker): (r: (Tracker, Counts))
    ensures r.0 == src
    ensures forall live :: Counted(counts, live) && dst.id in live ==>
              Counted(r.1, live - multiset{dst.id} + multiset{src.id})
  {
    (src, Bump(Bump(counts, dst.id, -1), src.id, 1))
  }

  /** weapontracker.Put(ordnance, WeaponTracker(id)) into a fresh slot: the temporary is made,
      copied into the store and destroyed, leaving one more tracker of the weapon in all. */
  lemma PutTrackerCountsOne(counts: Counts, id: nat)
    requires id in counts
    ensures var (tmp, c1) := NewTracker(counts, id);
            var (stored, c2) := CopyTracker(c1, tmp);
            stored.id == id && DestroyTracker(c2, tmp) == counts[id := counts[id] + 1]
  {
  }
}

=== FILE: world.dfy ===
/** Level loading: the tilemap loader that spawns entities from rows of characters, the
    dispatch of world items to the configure function registered for their tag, and the
    world bounds. The registered configure functions themselves are other components;
    here a dispatch is recorded as the call it makes. */
module World {
  import opened Base
  import Xml
  import Geometry
  import Entity

  /** One tile of a tilemap: the template it spawns (0 for none), its offset within the
      cell and its angle in radians. */
  datatype Tile = Tile(spawn: nat, offset: Geometry.Vec2, angle: real)

  /** Every character starts as a tile that spawns nothing. */
  const EmptyTile := Tile(0, Geometry.Zero, 0.0)

  type Tiles = map<char, Tile>

  function TileOf(tiles: Tiles, c: char): Tile {
    Get(tiles, c, EmptyTile)
  }

  /** A <tile> element: keyed by the first character of its name, skipped when the name is
      missing or empty. The spawn is the hash of "spawn" (0 when absent); offset and angle
      change only where given, the angle converted from degrees. */
  function ConfigureTile(tiles: Tiles, e: Xml.Element): (r: Tiles)
    ensures Xml.Attribute(e, "name").None? || e.attrs["name"].text == [] ==> r == tiles
    ensures Xml.Attribute(e, "name").Some? && e.attrs["name"].text != [] ==>
              var c := e.attrs["name"].text[0];
              var t := TileOf(tiles, c);
              r == tiles[c := Tile(Xml.HashAttr(e, "spawn"),
                                   Geometry.Vec2(Xml.QueryFloat(e, "x").GetOr(t.offset.x), Xml.QueryFloat(e, "y").GetOr(t.offset.y)),
                                   Xml.AngleOr(e, "angle", t.angle))]
  {
    match Xml.Attribute(e, "name")
    case None => tiles
    case Some(a) =>
      if a.text == [] then tiles
      else
        var t := TileOf(tiles, a.text[0]);
        tiles[a.text[0] := Tile(Xml.HashAttr(e, "spawn"),
                                Geometry.Vec2(Xml.FloatOr(e, "x", t.offset.x), Xml.FloatOr(e, "y", t.offset.y)),
                                Xml.AngleOr(e, "angle", t.angle))]
  }

  /** The distance covered by n steps of d: the loader moves its cursor by repeated
      addition, one step per character or row. */
  function Steps(n: nat, d: real): real {
    if n == 0 then 0.0 else Steps(n - 1, d) + d
  }

  /** n steps of d cover n times d. */
  lemma {:induction false} StepsScale(n: nat, d: real)
    ensures Steps(n, d) == n as real * d
  {
    if n > 0 {
      StepsScale(n - 1, d);
      assert n as real * d == (n - 1) as real * d + d;
    }
  }

  /** The spawn request for the character in column i of a row at height y: the tile's
      template at the cell position plus the tile offset, at the tile's angle, at rest. */
  function CellSpawn(t: Tile, x0: real, dx: real, y: real, i: nat): Entity.Spawn {
    Entity.Spawn(t.spawn, t.angle, Geometry.Add(Geometry.Vec2(x0 + Steps(i, dx), y), t.offset), Geometry.Zero)
  }

  /** The spawns of a row of text, in column order: one per character whose tile spawns. */
  function RowSpawns(tiles: Tiles, x0: real, dx: real, y: real, text: string): seq<Entity.Spawn>
    decreases |text|
  {
    if text == [] then []
    else
      var n := |text| - 1;
      var t := TileOf(tiles, text[n]);
      RowSpawns(tiles, x0, dx, y, text[..n]) + (if t.spawn != 0 then [CellSpawn(t, x0, dx, y, n)] else [])
  }

  /** The number of characters of a text whose tile spawns. */
  function Spawning(tiles: Tiles, text: string): (n: nat)
    ensures n <= |text|
    decreases |text|
  {
    if text == [] then 0
    else Spawning(tiles, text[..|text| - 1]) + (if TileOf(tiles, text[|text| - 1]).spawn != 0 then 1 else 0)
  }

  /** A row spawns exactly one entity per character mapped to a spawning tile, each of a
      spawning template. */
  lemma {:induction false} RowSpawnCount(tiles: Tiles, x0: real, dx: real, y: real, text: string)
    ensures |RowSpawns(tiles, x0, dx, y, text)| == Spawning(tiles, text)
    ensures forall k :: 0 <= k < |RowSpawns(tiles, x0, dx, y, text)| ==>
              RowSpawns(tiles, x0, dx, y, text)[k].template != 0 && RowSpawns(tiles, x0, dx, y, text)[k].vel == Geometry.Zero
    decreases |text|
  {
    if text != [] {
      RowSpawnCount(tiles, x0, dx, y, text[..|text| - 1]);
    }
  }

  /** Extending a row by one character adds that cell's spawn, if its tile spawns. */
  lemma RowSpawnsStep(tiles: Tiles, x0: real, dx: real, y: real, text: string, i: nat)
    requires i < |text|
    ensures RowSpawns(tiles, x0, dx, y, text[..i + 1]) ==
            RowSpawns(tiles, x0, dx, y, text[..i]) +
            (if TileOf(tiles, text[i]).spawn != 0 then [CellSpawn(TileOf(tiles, text[i]), x0, dx, y, i)] else [])
  {
    assert text[..i + 1][..i] == text[..i];
  }

  /** The row loop of TilemapLoader::Configure: each character spawns its tile (when the
      tile spawns) at the current x, and x advances by dx for every character. */
  method SpawnRow(tiles: Tiles, x0: real, dx: real, y: real, text: string) returns (spawns: seq<Entity.Spawn>, x: real)
    ensures spawns == RowSpawns(tiles, x0, dx, y, text)
    ensures x == x0 + Steps(|text|, dx)
  {
    spawns := [];
    x := x0;
    var i := 0;
    while i < |text|
      invariant 0 <= i <= |text|
      invariant x == x0 + Steps(i, dx)
      invariant spawns == RowSpawns(tiles, x0, dx, y, text[..i])
    {
      var t := TileOf(tiles, text[i]);
      RowSpawnsStep(tiles, x0, dx, y, text, i);
      if t.spawn != 0 {
        spawns := spawns + [Entity.Spawn(t.spawn, t.angle, Geometry.Add(Geometry.Vec2(x, y), t.offset), Geometry.Zero)];
      }
      x := x + dx;
      i := i + 1;
    }
    assert text[..i] == text;
  }

  /** The text of a <row>: its "data" attribute, else its element text, else none. */
  function RowText(e: Xml.Element): Option<string> {
    match Xml.Attribute(e, "data")
    case Some(a) => Some(a.text)
    case None => e.text
  }

  /** The tilemap loader's state while it walks the children: tiles so far, the current
      position and the spawn requests made. */
  datatype Tilemap = Tilemap(tiles: Tiles, pos: Geometry.Vec2, spawns: seq<Entity.Spawn>)

  /** The grid origin and spacing: (0, 0) and (1, 1) unless given. */
  datatype Grid = Grid(x: real, y: real, dx: real, dy: real)

  function GridOf(e: Xml.Element): (g: Grid)
    ensures g.x == Xml.QueryFloat(e, "x").GetOr(0.0) && g.y == Xml.QueryFloat(e, "y").GetOr(0.0)
    ensures g.dx == Xml.QueryFloat(e, "dx").GetOr(1.0) && g.dy == Xml.QueryFloat(e, "dy").GetOr(1.0)
  {
    Grid(Xml.FloatOr(e, "x", 0.0), Xml.FloatOr(e, "y", 0.0), Xml.FloatOr(e, "dx", 1.0), Xml.FloatOr(e, "dy", 1.0))
  }

  /** One child of <tilemap>. A row first returns x to the origin; a row without text is
      then skipped, one with text spawns its cells and moves down by dy. */
  function TilemapItem(g: Grid, m: Tilemap, e: Xml.Element): (r: Tilemap)
    ensures e.tag !in {"tile", "row"} ==> r == m
    ensures e.tag == "row" ==> r.tiles == m.tiles && r.pos.x == g.x + (if RowText(e).Some? then Steps(|RowText(e).value|, g.dx) else 0.0)
    ensures e.tag == "row" && RowText(e).None? ==> r == m.(pos := Geometry.Vec2(g.x, m.pos.y))
    ensures e.tag == "row" && RowText(e).Some? ==>
              r.pos.y == m.pos.y + g.dy && r.spawns == m.spawns + RowSpawns(m.tiles, g.x, g.dx, m.pos.y, RowText(e).value)
    ensures e.tag == "tile" ==> r == m.(tiles := ConfigureTile(m.tiles, e))
  {
    if e.tag == "tile" then m.(tiles := ConfigureTile(m.tiles, e))
    else if e.tag != "row" then m
    else if RowText(e).None? then m.(pos := Geometry.Vec2(g.x, m.pos.y))
    else
      var text := RowText(e).value;
      Tilemap(m.tiles, Geometry.Vec2(g.x + Steps(|text|, g.dx), m.pos.y + g.dy),
              m.spawns + RowSpawns(m.tiles, g.x, g.dx, m.pos.y, text))
  }

  /** Spawn requests as a tile map makes them: each of a spawning tile, at rest. */
  predicate TileSpawns(s: seq<Entity.Spawn>) {
    forall k :: 0 <= k < |s| ==> s[k].template != 0 && s[k].vel == Geometry.Zero
  }

  /** The children of <tilemap> in document order. Only rows spawn, and only tiles that
      spawn something, at rest. */
  function TilemapItems(g: Grid, m: Tilemap, children: seq<Xml.Element>): (r: Tilemap)
    ensures TileSpawns(m.spawns) ==> TileSpawns(r.spawns)
    ensures (forall i :: 0 <= i < |children| ==> children[i].tag != "row") ==> r.spawns == m.spawns
    decreases |children|
  {
    if children == [] then m
    else
      var n := |children| - 1;
      assert forall i :: 0 <= i < n ==> children[..n][i] == children[i];
      var before := TilemapItems(g, m, children[..n]);
      if children[n].tag == "row" && RowText(children[n]).Some? then
        RowSpawnCount(before.tiles, g.x, g.dx, before.pos.y, RowText(children[n]).value);
        TilemapItem(g, before, children[n])
      else
        TilemapItem(g, before, children[n])
  }

  /** TilemapLoader::Configure: the spawn requests a <tilemap> element makes, in document
      order: none without rows, and each of a spawning tile, at rest. */
  function ConfigureTilemap(e: Xml.Element): (r: seq<Entity.Spawn>)
    ensures TileSpawns(r)
    ensures (forall i :: 0 <= i < |e.children| ==> e.children[i].tag != "row") ==> r == []
  {
    var g := GridOf(e);
    TilemapItems(g, Tilemap(map[], Geometry.Vec2(g.x, g.y), []), e.children).spawns
  }

  /** The number of rows that have text. */
  function RowsWithText(children: seq<Xml.Element>): (n: nat)
    ensures n <= |children|
    decreases |children|
  {
    if children == [] then 0
    else RowsWithText(children[..|children| - 1]) +
         (if children[|children| - 1].tag == "row" && RowText(children[|children| - 1]).Some? then 1 else 0)
  }

  /** The current row's height is the origin moved down by dy once per row with text; rows
      without text and other children do not move it. */
  lemma {:induction false} RowsAdvanceY(g: Grid, m: Tilemap, children: seq<Xml.Element>)
    ensures TilemapItems(g, m, children).pos.y == m.pos.y + Steps(RowsWithText(children), g.dy)
    decreases |children|
  {
    if children != [] {
      var n := |children| - 1;
      var front := children[..n];
      RowsAdvanceY(g, m, front);
      var before := TilemapItems(g, m, front);
      var e := children[n];
      var moves := e.tag == "row" && RowText(e).Some?;
      var k := RowsWithText(front);
      ItemY(g, before, e);
      assert TilemapItems(g, m, children) == TilemapItem(g, before, e);
      assert RowsWithText(children) == k + (if moves then 1 else 0);
    }
  }

  /** A child moves the height down by dy exactly when it is a row with text. */
  lemma ItemY(g: Grid, m: Tilemap, e: Xml.Element)
    ensures TilemapItem(g, m, e).pos.y == m.pos.y + (if e.tag == "row" && RowText(e).Some? then g.dy else 0.0)
  {
  }

  /** Spawns are only ever appended: earlier rows' requests stay, in order. */
  lemma {:induction false} SpawnsOnlyGrow(g: Grid, m: Tilemap, children: seq<Xml.Element>)
    ensures |TilemapItems(g, m, children).spawns| >= |m.spawns|
    ensures TilemapItems(g, m, children).spawns[..|m.spawns|] == m.spawns
    decreases |children|
  {
    if children != [] {
      SpawnsOnlyGrow(g, m, children[..|children| - 1]);
      var before := TilemapItems(g, m, children[..|children| - 1]);
      var r := TilemapItem(g, before, children[|children| - 1]);
      assert r.spawns[..|before.spawns|] == before.spawns;
      assert r.spawns[..|m.spawns|] == before.spawns[..|m.spawns|];
    }
  }

  /** A configure call a world item makes: the registered tag and the item's key (the hash
      of its name, 0 when it has none). */
  datatype Call = Call(tag: string, id: nat)

  /** ProcessWorldItem / ConfigureWorldItem dispatch: the call made for an element, when a
      configure function is registered for its tag. */
  function Dispatch(registered: set<string>, e: Xml.Element): (r: Option<Call>)
    ensures r.Some? <==> e.tag in registered
    ensures r.Some? ==> r.value == Call(e.tag, if "name" in e.attrs then e.attrs["name"].key else 0)
  {
    if e.tag in registered then Some(Call(e.tag, Xml.HashAttr(e, "name"))) else None
  }

  /** What ConfigureWorldItems leaves behind: the calls made, in order, and the names
      recorded for item keys. */
  datatype Loaded = Loaded(calls: seq<Call>, names: map<nat, string>)

  /** ConfigureWorldItem: dispatch, then record the name under the item's key whenever the
      element has one, registered tag or not. */
  function ConfigureWorldItem(registered: set<string>, l: Loaded, e: Xml.Element): (r: Loaded)
    ensures r.calls == l.calls + (match Dispatch(registered, e) case Some(c) => [c] case None => [])
    ensures "name" in e.attrs ==> r.names == l.names[e.attrs["name"].key := e.attrs["name"].text]
    ensures "name" !in e.attrs ==> r.names == l.names
  {
    var calls := match Dispatch(registered, e) case Some(c) => l.calls + [c] case None => l.calls;
    var names := match Xml.Attribute(e, "name") case Some(a) => l.names[a.key := a.text] case None => l.names;
    Loaded(calls, names)
  }

  /** ConfigureWorldItems: every child once, in document order. The older loader's
      ProcessWorldItems makes the same calls but records no names. */
  function ConfigureWorldItems(registered: set<string>, l: Loaded, children: seq<Xml.Element>): (r: Loaded)
    // calls are only appended and names only added
    ensures |r.calls| >= |l.calls| && r.calls[..|l.calls|] == l.calls
    ensures l.names.Keys <= r.names.Keys
    // without registered children no call is made
    ensures (forall i :: 0 <= i < |children| ==> children[i].tag !in registered) ==> r.calls == l.calls
    decreases |children|
  {
    if children == [] then l
    else
      var n := |children| - 1;
      assert forall i :: 0 <= i < n ==> children[..n][i] == children[i];
      var before := ConfigureWorldItems(registered, l, children[..n]);
      var r := ConfigureWorldItem(registered, before, children[n]);
      assert r.calls[..|before.calls|] == before.calls;
      assert r.calls[..|l.calls|] == before.calls[..|l.calls|];
      r
  }

  /** The registered children of a list, in order. */
  function RegisteredChildren(registered: set<string>, children: seq<Xml.Element>): (r: seq<Xml.Element>)
    ensures |r| <= |children|
    ensures forall k :: 0 <= k < |r| ==> r[k].tag in registered
    decreases |children|
  {
    if children == [] then []
    else
      var rest := RegisteredChildren(registered, children[..|children| - 1]);
      if children[|children| - 1].tag in registered then rest + [children[|children| - 1]] else rest
  }

  /** One call per registered child, in document order, each with the child's key; and every
      named child's name is recorded. */
  lemma {:induction false} OneCallPerRegisteredChild(registered: set<string>, l: Loaded, children: seq<Xml.Element>)
    ensures var r := ConfigureWorldItems(registered, l, children);
            var rs := RegisteredChildren(registered, children);
            |r.calls| == |l.calls| + |rs| && r.calls[..|l.calls|] == l.calls &&
            (forall k :: 0 <= k < |rs| ==> r.calls[|l.calls| + k] == Call(rs[k].tag, Xml.HashAttr(rs[k], "name")))
    ensures forall i :: 0 <= i < |children| && "name" in children[i].attrs ==>
              children[i].attrs["name"].key in ConfigureWorldItems(registered, l, children).names
    decreases |children|
  {
    if children != [] {
      var n := |children| - 1;
      OneCallPerRegisteredChild(registered, l, children[..n]);
      var before := ConfigureWorldItems(registered, l, children[..n]);
      var r := ConfigureWorldItems(registered, l, children);
      assert r.calls[..|before.calls|] == before.calls;
      forall i | 0 <= i < |children| && "name" in children[i].attrs
        ensures children[i].attrs["name"].key in r.names
      {
        if i < n { assert children[..n][i] == children[i]; }
      }
    }
  }

  /** The world bounds and whether walls enclose them. */
  datatype Bounds = Bounds(minX: real, minY: real, maxX: real, maxY: real, wall: bool)

  /** WorldConfigure: bounds of +-2048 with walls, each overridden only by its own attribute. */
  function WorldBounds(e: Xml.Element): (b: Bounds)
    ensures b.minX == Xml.QueryFloat(e, "xmin").GetOr(-2048.0) && b.minY == Xml.QueryFloat(e, "ymin").GetOr(-2048.0)
    ensures b.maxX == Xml.QueryFloat(e, "xmax").GetOr(2048.0) && b.maxY == Xml.QueryFloat(e, "ymax").GetOr(2048.0)
    ensures b.wall == Xml.QueryBool(e, "wall").GetOr(true)
  {
    Bounds(Xml.FloatOr(e, "xmin", -2048.0), Xml.FloatOr(e, "ymin", -2048.0),
           Xml.FloatOr(e, "xmax", 2048.0), Xml.FloatOr(e, "ymax", 2048.0), Xml.BoolOr(e, "wall", true))
  }

  /** A <world> element: its bounds, then its children as world items, one configure call
      per registered child after the calls made before. */
  function WorldConfigure(registered: set<string>, l: Loaded, e: Xml.Element): (r: (Bounds, Loaded))
    ensures r.0.minX == Xml.QueryFloat(e, "xmin").GetOr(-2048.0) && r.0.minY == Xml.QueryFloat(e, "ymin").GetOr(-2048.0)
    ensures r.0.maxX == Xml.QueryFloat(e, "xmax").GetOr(2048.0) && r.0.maxY == Xml.QueryFloat(e, "ymax").GetOr(2048.0)
    ensures r.0.wall == Xml.QueryBool(e, "wall").GetOr(true)
    // one call per registered child, in document order, keyed by the child's name hash
    ensures var rs := RegisteredChildren(registered, e.children);
            |r.1.calls| == |l.calls| + |rs| && r.1.calls[..|l.calls|] == l.calls &&
            forall k :: 0 <= k < |rs| ==> r.1.calls[|l.calls| + k] == Call(rs[k].tag, Xml.HashAttr(rs[k], "name"))
    // every named child's name is recorded
    ensures forall i :: 0 <= i < |e.children| && "name" in e.children[i].attrs ==>
              e.children[i].attrs["name"].key in r.1.names
  {
    OneCallPerRegisteredChild(registered, l, e.children);
    (WorldBounds(e), ConfigureWorldItems(registered, l, e.children))
  }
}

=== FILE: xml.dfy ===
/** The configuration boundary: a parsed XML element tree as the XML parser hands it over.
    Each attribute carries the parser's typed readings of its text and the 32-bit Hash of
    its text; neither the parser nor the hash function is part of this model. */
module Xml {
  import opened Base

  /** One attribute: its text, Hash(text), and what QueryIntAttribute, QueryFloatAttribute
      and QueryBoolAttribute would return for it (None when the query fails). */
  datatype Attr = Attr(text: string, key: nat, asInt: Option<int>, asFloat: Option<real>, asBool: Option<bool>)

  datatype Element = Element(tag: string, attrs: map<string, Attr>, text: Option<string>, children: seq<Element>)

  function Attribute(e: Element, name: string): Option<Attr> {
    if name in e.attrs then Some(e.attrs[name]) else None
  }

  function QueryFloat(e: Element, name: string): Option<real> {
    if name in e.attrs then e.attrs[name].asFloat else None
  }

  function QueryInt(e: Element, name: string): Option<int> {
    if name in e.attrs then e.attrs[name].asInt else None
  }

  function QueryBool(e: Element, name: string): Option<bool> {
    if name in e.attrs then e.attrs[name].asBool else None
  }

  /** Hash(element->Attribute(name)): the attribute's key, 0 when the attribute is absent. */
  function HashAttr(e: Element, name: string): nat {
    if name in e.attrs then e.attrs[name].key else 0
  }

  /** The in-place query idiom: QueryFloatAttribute(name, &field) leaves the field alone on failure. */
  function FloatOr(e: Element, name: string, current: real): real {
    QueryFloat(e, name).GetOr(current)
  }

  function IntOr(e: Element, name: string, current: int): int {
    QueryInt(e, name).GetOr(current)
  }

  function BoolOr(e: Element, name: string, current: bool): bool {
    QueryBool(e, name).GetOr(current)
  }

  /** An angle attribute in degrees, converted to radians only when it is present. */
  function AngleOr(e: Element, name: string, current: real): real {
    match QueryFloat(e, name)
    case Some(d) => DegToRad(d)
    case None => current
  }

  /** An integer flag attribute read into an int seeded with the current flag, then compared with zero. */
  function IntFlagOr(e: Element, name: string, current: bool): bool {
    IntOr(e, name, if current then 1 else 0) != 0
  }
}
